=== FILE: README.md ===
# ZTODO timeline core in Dafny

ZTODO is a to-do timeline. Tasks are drawn as bars and small squares over a horizontal
axis of time ticks at one of six zoom levels (year, month, week, day, hour, minute). This
project models the logic behind that picture and proves properties of it:

- the calendar arithmetic of JavaScript `Date` that the timeline relies on (module `JsDate`,
  following section 21.4.1 of ECMA-262, with one fixed local time offset and no daylight
  saving);
- the zoom levels, their buckets, the containment test and `getWeekNumber` (`Precision`);
- `addTime` (`Axis`), and the tick array with `generateDates`, `appendDates`,
  `prependDates`, `findDateIndex` and the offset of `scrollToTime` (`Ticks`);
- the layout pass `calculateTaskLayout`: the two stable sorts (`Sorting`), the split into
  indicator buckets, dropped tasks and spanning tasks (`Classify`), the first-fit lane
  packing (`Lanes`), and bar and indicator geometry over measured cell boxes (`Layout`);
- the `Task` record, `getTaskColor`, `saveTask` and `deleteTask` (`Tasks`);
- `MessageService` with its counters and the distinct-texts invariant (`Messages`), and the
  toast component's filter and progress bars (`MessageView`);
- the edit dialog's helpers: `pad`, the time input, the `others` list and `onSave`
  (`TaskEdit`);
- the Tauri commands `fetch_data` and `post_data` up to the socket: URL, host and port
  parsing, the request texts, and the split of the response text (`Http`).

An instant is an integer count of milliseconds. Browser-measured boxes, clock readings and
the response text read from a socket are parameters. `Wrappers` holds `Option` and `Result`;
`Decimal` prints and parses decimal numbers. `Seqs` holds the search for the first
element with a given key, shared by the task list and the layout list.

Some behaviours of the code are easy to miss, and the model keeps each of them, with a
lemma that shows it:

- A lane accepts a task that touches the padded bound, because the tests use `<=` and `>=`
  (`Lanes.TouchingTaskSharesTheLane`).
- A lane checks only its last-appended member (`Lanes.OnlyTheLastMemberIsChecked`). For
  tasks arriving in start order that is as good as checking every member
  (`Lanes.LastMemberSuffices`).
- A spanning task with both ends off the axis gets no bar (`Layout.BarSkippedOnlyOffAxis`).
- Month steps keep the date of the month and carry past short months, so one month bucket
  can get two ticks while the month before gets none (`Axis.MonthStepsCanRepeatABucket`).
- `getWeekNumber` builds January 1st with the `Date` constructor, which reads the years 0 to
  99 as 1900 to 1999. Every instant of those years gets a negative week number
  (`Precision.TwoDigitYearWeekNegative`).
- The layout pass pushes onto the list it finds. Start-up (`ngAfterViewInit`), zooming and
  extending the axis clear that list first; saving, deleting and importing tasks do not
  (`Layout.StaleItemFoundFirst`, under Findings).
- `appendDates` scrolls back to the facing time, which is rounded down to whole days, hours
  or minutes, while `scrollToTime` measures from the first tick, which keeps today's time of
  day. On the week, day, hour and minute levels the view lands one cell left of the cell it
  faced (`Ticks.FacingScrollsOneCellLeft`, under Findings). `prependDates` makes the same
  one-cell shift from whatever tick it reads.

## Model

| member | source | states |
|---|---|---|
| JsDate.MakeDayFields | src/app/calendar/calendar.component.ts:151 | A date built from a year, a month and a date of that month reads back as those fields, with the time of day kept. |
| JsDate.DayFields | src/app/calendar/calendar.component.ts:257-259 | Year, month and date rebuild the day number, so equal fields mean the same day. |
| JsDate.YearFromDayUnique | src/app/calendar/calendar.component.ts:244 | A day between the starts of year `y` and year `y + 1` belongs to year `y` and no other. |
| JsDate.TimeFields | src/app/task-edit/task-edit.component.ts:49-50 | Hours, minutes, seconds and milliseconds rebuild the time within the day. |
| JsDate.ConstructorYear | src/app/calendar/calendar.component.ts:151 | The year `new Date(y, 0, 1)` means: 1900 + y for the years 0 to 99, y otherwise. No contract of its own: `Precision.FirstOfYearIsYearStart` and `Precision.TwoDigitYearWeekNegative` state its effect. |
| Precision.QuantizeIsBucketStart | src/app/calendar/calendar.component.ts:101-142 | The setter calls of each level land exactly on the bucket start: January 1st, the 1st of the month, the preceding Sunday, midnight, the full hour, the full minute. |
| Precision.Span | src/app/calendar/calendar.component.ts:312-331 | The padding of each level, 365, 30, 7 and 1 days, 1 hour, 1 minute, never below a minute. It is also the fixed step of `Axis.AddTimeFixedSpan`. |
| Precision.Quantize | src/app/calendar/calendar.component.ts:101-142 | The setter calls of `findDateIndex` for each level. No contract of its own: `Precision.QuantizeIsBucketStart` and `Precision.QuantizeIdempotent` state what it computes. |
| Precision.BucketStart | src/app/calendar/calendar.component.ts:95-148 | The start of the bucket of an instant, the reference the lookup is measured against. No contract of its own: see `Precision.BucketStartNotAfter` and `Precision.BucketsNest`. |
| Precision.BucketStartNotAfter | src/app/calendar/calendar.component.ts:101-142 | A bucket starts at or before every instant in it. |
| Precision.QuantizeIdempotent | src/app/calendar/calendar.component.ts:103-106 | Quantizing an already quantized tick changes nothing, so rewriting a scanned tick is harmless. |
| Precision.WeekNumberRange | src/app/calendar/calendar.component.ts:150-154 | Outside the years 0 to 99, `getWeekNumber` lies between 1 and 54. |
| Precision.WeekNumber | src/app/calendar/calendar.component.ts:150-154 | `getWeekNumber`, with January 1st built by the `Date` constructor. No contract of its own: its range, monotonicity and steps are stated by the `Precision.WeekNumber…` lemmas. |
| Precision.FirstOfYearIsYearStart | src/app/calendar/calendar.component.ts:151 | The January 1st of `getWeekNumber` is midnight of the first day of the constructor's year, and its weekday is the one that day has. |
| Precision.TwoDigitYearWeekNegative | src/app/calendar/calendar.component.ts:150-154 | In the years 0 to 99 January 1st is taken from 1900 + y, so every week number of those years is negative. |
| Precision.WeekNumberMonotone | src/app/calendar/calendar.component.ts:150-154 | Within one calendar year, a later instant never has a smaller week number. |
| Precision.WeekOfNewYear | src/app/calendar/calendar.component.ts:150-154 | Outside the years 0 to 99, midnight of January 1st has week number 1. |
| Precision.WeekNumberStepsAfterSaturday | src/app/calendar/calendar.component.ts:150-154 | In every year, including 0 to 99, the week number grows one millisecond after Saturday midnight. |
| Precision.WeekNumberKeepsAtSunday | src/app/calendar/calendar.component.ts:116-154 | In every year, at Sunday midnight the week number stays the same while the week bucket of the lookup changes. |
| Precision.ContainedIffSameBucket | src/app/calendar/calendar.component.ts:241-278 | Except on the week level, a task is contained exactly when its start and end share the bucket the lookup uses. |
| Precision.IsContained | src/app/calendar/calendar.component.ts:241-278 | The containment switch. No contract of its own: `Precision.ContainedIffSameBucket` and `Precision.WeekContainmentIgnoresYear` state what it decides. |
| Precision.SameDayIffSameBucket | src/app/calendar/calendar.component.ts:255-260 | Same year, month and date holds exactly when both instants are on the same day number. |
| Precision.MonthStartFields | src/app/calendar/calendar.component.ts:110-113 | The 1st of a month reads back as the same year and month. |
| Precision.BucketsNest | src/app/calendar/calendar.component.ts:241-278 | Sharing a finer bucket implies sharing every coarser one, weeks aside. |
| Precision.WeekContainmentIgnoresYear | src/app/calendar/calendar.component.ts:251-254 | A task from one New Year's midnight to another, both outside the years 0 to 99, counts as contained on the week level. |
| Precision.FacingQuantize | src/app/calendar/calendar.component.ts:925-948 | The facing time rounds like the lookup on every level except the week level, where it rounds to midnight of the day, the start of the day bucket. |
| Precision.FacingStaysInBucket | src/app/calendar/calendar.component.ts:925-948 | The facing time is the start of the cell's bucket. On the week level it is midnight of the day, which is the start of the week exactly when the day is a Sunday. It is never after the cell's instant, stays in the cell's bucket, and rounding it again changes nothing. |
| Axis.AddTimeFixedSpan | src/app/calendar/calendar.component.ts:494-517 | Days, weeks, hours and minutes step by exactly `k` spans of 1, 7, 1/24 and 1/1440 days. |
| Axis.AddTime | src/app/calendar/calendar.component.ts:494-517 | `addTime`. No contract of its own: the `Axis.AddTime…` lemmas state its steps, order, zero and composition. |
| Axis.AddTimeByMonthIndex | src/app/calendar/calendar.component.ts:503-508 | Month and year steps move the month index by `k` or `12k`, keeping the date and time of day, with JS carry. |
| Axis.AddTimeIncreasing | src/app/calendar/calendar.component.ts:494-517 | On every level, more steps give a strictly later instant. |
| Axis.AddTimeZero | src/app/calendar/calendar.component.ts:494-517 | Zero steps leave the instant unchanged. |
| Axis.AddMonthsFields | src/app/calendar/calendar.component.ts:503-505 | Up to the 28th, `k` month steps land on month `Month + k`, carried into the year, at the same date and time. |
| Axis.AddYearsFields | src/app/calendar/calendar.component.ts:506-508 | `k` year steps land in year `Year + k` at the same time of day, and up to the 28th also in the same month and date. |
| Axis.AddTimeCompose | src/app/calendar/calendar.component.ts:494-517 | `a` steps then `b` steps equal `a + b` steps when no date can overflow. |
| Axis.MonthStepsCanRepeatABucket | src/app/calendar/calendar.component.ts:503-505 | From January 31st of a common year, 1 and 2 month steps both land in March, so February gets no tick. |
| Ticks.GenerateDates | src/app/calendar/calendar.component.ts:471-490 | 201 ticks with today at index 100, tick `i` being `i - 100` steps from today, strictly increasing. |
| Ticks.RegularIsIncreasing | src/app/calendar/calendar.component.ts:471-490 | Ticks that are whole steps from one base are strictly increasing. |
| Ticks.AppendDates | src/app/calendar/calendar.component.ts:768-774 | The old ticks are kept and 100 ticks follow, 1 to 100 steps after the old last tick; an increasing axis stays increasing. |
| Ticks.AppendKeepsRegular | src/app/calendar/calendar.component.ts:768-774 | If steps compose, an axis of whole steps from one base keeps that shape after appending. |
| Ticks.PrependDates | src/app/calendar/calendar.component.ts:787-793 | The old ticks are kept after 100 new ticks, which are 100 to 1 steps before the old first tick in ascending order; an increasing axis stays increasing. |
| Ticks.PrependKeepsRegular | src/app/calendar/calendar.component.ts:787-793 | Prepending keeps an axis of whole steps from one base; the base moves 100 places right. |
| Ticks.FirstInBucket | src/app/calendar/calendar.component.ts:95-148 | Reference lookup: -1, or the first index whose tick shares the target's bucket, with no earlier match. |
| Ticks.FindDateIndex | src/app/calendar/calendar.component.ts:95-148 | The scan returns the first tick in the target's bucket, or -1. On every level but weeks it rewrites each visited tick to its quantized value, and the rewritten axis answers the lookup the same way. |
| Ticks.WrittenBackSameLookup | src/app/calendar/calendar.component.ts:105-141 | Rewriting scanned ticks never changes the answer of any later lookup. |
| Ticks.SameBucketsSameLookup | src/app/calendar/calendar.component.ts:95-148 | Two axes whose ticks share buckets position by position answer every lookup alike. |
| Ticks.ScrollTarget | src/app/calendar/calendar.component.ts:818-857 | The target cell is the offset from the first tick when that offset lies on the axis, and there is none otherwise. |
| Ticks.ScrollDiffOfSteps | src/app/calendar/calendar.component.ts:818-839 | Between two ticks `a` and `b` steps from one base, the offset is `b - a`. This holds on the year level, on fixed levels, and on the month level up to the 28th. |
| Ticks.ScrollDiff | src/app/calendar/calendar.component.ts:818-839 | The offset switch of `scrollToTime`. No contract of its own: `Ticks.ScrollDiffOfSteps` and `Ticks.ScrollToGeneratedTick` state what it yields. |
| Ticks.MonthIndexAfter | src/app/calendar/calendar.component.ts:823-826 | Up to the 28th, `k` month steps move the month index by exactly `k`. |
| Ticks.ScrollToGeneratedTick | src/app/calendar/calendar.component.ts:818-857 | On a fresh axis, scrolling to the instant of tick `k` scrolls to cell `k`. |
| Ticks.FacingIsWholeUnits | src/app/calendar/calendar.component.ts:925-948 | On the week, day, hour and minute levels the facing time is the instant rounded down to whole days, days, hours and minutes. |
| Ticks.FacingShift | src/app/calendar/calendar.component.ts:925-948 | Moving an instant by whole spans of a fixed level moves its facing time by the same amount. |
| Ticks.FacingScrollsOneCellLeft | src/app/calendar/calendar.component.ts:768-803 | On an axis of whole steps from today at a fixed level, with today not a whole day, hour or minute: scrolling back to the facing time of tick `k` lands on cell `k - 1`, and for the first tick on no cell. |
| Ticks.AlignedScrollTarget | src/app/calendar/calendar.component.ts:810-857 | Corrected `scrollToTime`: the same as the code on the year and month levels; on the fixed levels the offset is measured from the first tick rounded the way the facing time is. A target is always a cell of the axis. |
| Ticks.FacingScrollsToItsCell | src/app/calendar/calendar.component.ts:768-803 | With the corrected offset, the facing time of every tick `k` of such an axis scrolls back to cell `k`, whatever today's time of day. |
| Sorting.Insert | src/app/calendar/calendar.component.ts:225-229 | Insertion adds exactly the one element to the multiset. |
| Sorting.Sort | src/app/calendar/calendar.component.ts:225-229 | The result is a permutation of the input, sorted by the comparator's key. |
| Sorting.SortIsStable | src/app/calendar/calendar.component.ts:225-229 | Tasks sharing a key keep their input order, as `Array.prototype.sort` guarantees. |
| Sorting.PriorityBreaksStartTies | src/app/calendar/calendar.component.ts:303 | Re-sorting a priority-then-start list by start orders by start, with priority breaking ties. |
| Classify.Where | src/app/calendar/calendar.component.ts:280-293 | Reference: exactly the input's tasks bound to a place, in input order. |
| Classify.PlaceOf | src/app/calendar/calendar.component.ts:241-293 | The rule for one task: spanning when not contained, otherwise the cell of its start's bucket, or dropped when there is none. No contract of its own: `Classify.EachTaskInOnePlace` and `Classify.ClassifyScanning` state how it is used. |
| Classify.ClassifyAll | src/app/calendar/calendar.component.ts:280-293 | The classification loop. Its cells are distinct; `Classify.CellListsMatchWhere` and `Classify.SpanningMatchesWhere` state its contents. |
| Classify.PushToCell | src/app/calendar/calendar.component.ts:283-286 | `get(c).push(x)` creates the cell's list when missing, appends `x` only to cell `c` and keeps the cells distinct. |
| Classify.SpanningMatchesWhere | src/app/calendar/calendar.component.ts:289-292 | The spanning list is exactly the non-contained tasks, in order. |
| Classify.CellsMatchPlaces | src/app/calendar/calendar.component.ts:280-287 | A cell has a list exactly when some task is bound to it. |
| Classify.CellListsMatchWhere | src/app/calendar/calendar.component.ts:280-287 | Every cell's list is exactly the tasks bound to that cell, in order. |
| Classify.EachTaskInOnePlace | src/app/calendar/calendar.component.ts:280-293 | Every copy of a task lands in the one place its rule names, and in no other. |
| Classify.WhereKeepsOrder | src/app/calendar/calendar.component.ts:225-293 | Each bucket list and the spanning list stay in priority-then-start order. |
| Classify.ClassifyScanning | src/app/calendar/calendar.component.ts:280-282 | Classifying against the axis as each lookup rewrites it gives the classification against the original axis, and later lookups are unchanged. |
| Lanes.FirstFit | src/app/calendar/calendar.component.ts:334-358 | The chosen lane accepts the task, and every earlier lane rejects it. |
| Lanes.Clears | src/app/calendar/calendar.component.ts:339-342 | Whether a task keeps a padding clear of one lane member, touching allowed. No contract of its own: see `Lanes.TouchingTaskSharesTheLane`. |
| Lanes.Accepts | src/app/calendar/calendar.component.ts:336-348 | Whether a lane takes a task: an empty lane does, otherwise only its last member is compared with the task. No contract of its own: see `Lanes.OnlyTheLastMemberIsChecked`. |
| Lanes.Pack | src/app/calendar/calendar.component.ts:298-365 | The packing loop, starting from one empty lane, so there is always at least one lane. `Lanes.PackPlacesEveryTaskOnce` and `Lanes.PackedLanesApart` state the rest. |
| Lanes.LanesFor | src/app/calendar/calendar.component.ts:298-331 | The spanning tasks sorted by start and packed with the level's padding. No contract of its own: see `Lanes.LanesForApart`. |
| Lanes.PlaceTask | src/app/calendar/calendar.component.ts:334-364 | The task is appended to the first accepting lane and every other lane is unchanged; with no accepting lane, a new lane holds it alone. |
| Lanes.PackPlacesEveryTaskOnce | src/app/calendar/calendar.component.ts:298-365 | The lanes hold every spanning task exactly once. |
| Lanes.PackHasNoEmptyLane | src/app/calendar/calendar.component.ts:298-365 | Once there is a task, no lane is empty. |
| Lanes.LastMemberSuffices | src/app/calendar/calendar.component.ts:336-348 | For tasks arriving in start order, clearing the last member of a padded-apart lane is the same as clearing every member. |
| Lanes.PlaceTaskKeepsApart | src/app/calendar/calendar.component.ts:334-364 | Placing a task that starts last keeps every lane padded apart. |
| Lanes.PackedLanesApart | src/app/calendar/calendar.component.ts:303-365 | Packing start-sorted well-formed tasks gives lanes in start order whose tasks are padded apart. |
| Lanes.LanesForApart | src/app/calendar/calendar.component.ts:298-365 | With the level's padding, the layout's lanes hold every spanning task once and are padded apart when each task starts no later than it ends. |
| Lanes.TouchingTaskSharesTheLane | src/app/calendar/calendar.component.ts:339-342 | A task starting exactly one padding after the lane's last task ends joins that lane. |
| Lanes.OnlyTheLastMemberIsChecked | src/app/calendar/calendar.component.ts:336-348 | A lane can accept a task that overlaps an earlier member when tasks arrive out of order. |
| Layout.Bar | src/app/calendar/calendar.component.ts:371-400 | A bar is skipped exactly when both ends are off the axis or a clamped cell is missing. Otherwise it starts at the start cell's left edge in scroll coordinates, its top is `30 + 30 * lane`, its width is exactly `max(endRight - startLeft, startWidth / 2)`, and it carries the task's id and colour. |
| Layout.BarSkippedOnlyOffAxis | src/app/calendar/calendar.component.ts:374-382 | With one cell per tick, a bar is skipped only when both of its ends are off the axis. |
| Layout.LaneBars | src/app/calendar/calendar.component.ts:369-402 | Every item is the bar of one of the lane's tasks at that lane's top, and every task of the lane that has a bar has it among the items. |
| Layout.LaneBarsAppend | src/app/calendar/calendar.component.ts:369-402 | Bars follow the lane's order: the bars of two runs of tasks are the bars of the first run followed by those of the second. |
| Layout.LaneBarsOfOne | src/app/calendar/calendar.component.ts:371-400 | A single task gives its bar, or nothing when it has none. |
| Layout.AllBars | src/app/calendar/calendar.component.ts:369-402 | The bars of all lanes, lane by lane: none is a square, each sits at some lane's top, and each belongs to a packed task. |
| Layout.AllBarsComplete | src/app/calendar/calendar.component.ts:369-402 | Every packed task that has a bar has it among the bars. |
| Layout.PerRow | src/app/calendar/calendar.component.ts:418 | The number of squares per row is `max(1, floor(width / 10))`: that many 10-pixel steps fit in the cell, and one more does not. |
| Layout.SlotsDistinct | src/app/calendar/calendar.component.ts:421-422 | Column below the row width, and distinct positions get distinct row and column. |
| Layout.CellIndicators | src/app/calendar/calendar.component.ts:420-435 | One 8-pixel square per task of the cell, in order, with the task's id and colour. Square `k` is at row `k / perRow` and column `k % perRow`, in 10-pixel steps from the cell's top-left corner. |
| Layout.IndicatorsApart | src/app/calendar/calendar.component.ts:420-435 | Two squares of one cell are at least a full 10-pixel step apart across or down. |
| Layout.AllIndicators | src/app/calendar/calendar.component.ts:403-436 | The squares of every cell with a rendered box: all are squares, and each belongs to a task of some cell. |
| Layout.AllIndicatorsComplete | src/app/calendar/calendar.component.ts:403-436 | Every task of a cell with a rendered box gets its square. |
| Layout.AllIndicatorsAppend | src/app/calendar/calendar.component.ts:403-436 | Squares keep the cells' order: the squares of two runs of cells are those of the first run followed by those of the second. |
| Layout.TaskLayout | src/app/calendar/calendar.component.ts:206-436 | The items of one pass on a cleared list: none without tasks or rendered cells, and every bar before every square. |
| Layout.EveryDrawableItemDrawn | src/app/calendar/calendar.component.ts:206-436 | Nothing drawable is missing: every packed task with a bar has it in the layout, and so does every square of a cell with a rendered box. |
| Layout.EveryItemHasItsTask | src/app/calendar/calendar.component.ts:206-436 | Every item stands for an input task: a square for a task contained in a bucket on the axis, a bar for a spanning task. |
| Layout.CalculateTaskLayout | src/app/calendar/calendar.component.ts:206-436 | The pass on the list the component keeps. Without tasks or cells the list is cleared. Otherwise the new items follow the list that was there, which stays in front unchanged. |
| Layout.FindItem | src/app/calendar/calendar.component.ts:74 | The lookup `getTaskPosition` makes, `Seqs.FirstIndex` on the items' ids. No contract of its own: `Layout.StaleItemFoundFirst` and `Layout.FreshPositionIsCurrent` state what it finds. |
| Layout.StaleItemFoundFirst | src/app/calendar/calendar.component.ts:548-570 | After a save or a delete, the pass runs on the uncleared list, so the position found for a task drawn before is its old item, whatever the new task list says. |
| Layout.FreshPositionIsCurrent | src/app/calendar/calendar.component.ts:774-800 | On a cleared list, as zooming and extending the axis leave it, the pass gives exactly the fresh layout, and every position found belongs to a current task. |
| Tasks.FindColorField | src/app/calendar/calendar.component.ts:448 | The first field keyed `color`, if any. |
| Tasks.TaskColor | src/app/calendar/calendar.component.ts:447-457 | The value of the first `color` field, else the status colour. |
| Tasks.StatusColor | src/app/calendar/calendar.component.ts:451-456 | The colour of each status. No contract of its own: `Tasks.TaskColor` states when it is used. |
| Tasks.ColorFieldsAfterTheFirstIgnored | src/app/calendar/calendar.component.ts:447-450 | Fields added after a `color` field never change the colour. |
| Seqs.FirstIndex | src/app/calendar/calendar.component.ts:74 | The first position whose id is the one sought, with no earlier position having it, or -1 exactly when no element has it: `find` and `findIndex` by id. |
| Tasks.FindById | src/app/calendar/calendar.component.ts:551 | `findIndex` of `saveTask`, `Seqs.FirstIndex` on the tasks' ids. No contract of its own: `Tasks.SaveTask` states its effect. |
| Tasks.WithoutId | src/app/calendar/calendar.component.ts:567 | Exactly the tasks with another id remain. |
| Tasks.WithoutIdKeepsOrder | src/app/calendar/calendar.component.ts:567 | The filter keeps the order: filtering two runs of tasks gives the kept tasks of the first run followed by those of the second. |
| Tasks.WithoutIdOfOne | src/app/calendar/calendar.component.ts:567 | A single task stays exactly when its id differs. |
| Tasks.SaveTask | src/app/calendar/calendar.component.ts:548-561 | The edit replaces the first task with its id, or is appended. Other tasks are unchanged, the dialog closes, and nothing happens without a dialog. |
| Tasks.DeleteTask | src/app/calendar/calendar.component.ts:564-570 | Exactly the tasks with another id remain, their number being the list length minus the tasks carrying the id, and the dialog closes. Nothing happens without a dialog. |
| Tasks.DeleteTaskKeepsOrder | src/app/calendar/calendar.component.ts:564-570 | Deleting keeps the others in order: deleting from two runs of tasks deletes from each run and keeps the runs in place. |
| Tasks.SaveTaskIdempotent | src/app/calendar/calendar.component.ts:548-561 | Saving the same edit twice equals saving it once. |
| Tasks.DeleteThenSaveAppends | src/app/calendar/calendar.component.ts:548-570 | Deleting and then saving the same task moves it to the end of the list. |
| Tasks.WithoutIdCount | src/app/calendar/calendar.component.ts:567 | Deleting removes exactly as many tasks as carry the id. |
| Messages.Bump | src/app/core/services/message.service.ts:51 | Only the given type's counter goes up, by one. |
| Messages.DefaultTimeout | src/app/core/services/message.service.ts:32-50 | The default timeout of each type: 10, 5, 10, 15 and 10 seconds. No contract of its own: `Messages.AddMessage` states when it is used. |
| Messages.Text | src/app/core/services/message.service.ts:53 | The stored text `"<TYPE> <n>. <message>"`. No contract of its own: `Messages.HeaderOfText` and `Messages.TextsDiffer` state what can be read back. |
| Messages.AddMessage | src/app/core/services/message.service.ts:31-59 | Only the type's counter grows, by one. One message is appended with text `"<TYPE> <n>. <message>"`, the clock reading, and the given timeout or else the default of 10, 5, 10, 15 or 10 seconds. |
| Messages.GetMessages | src/app/core/services/message.service.ts:61-67 | Exactly the stored messages at most `timeout` seconds old. |
| Messages.Live | src/app/core/services/message.service.ts:63-65 | The service's test: at most `timeout` seconds old. No contract of its own: see `MessageView.SameTest`. |
| Messages.GetMessagesKeepsOrder | src/app/core/services/message.service.ts:61-67 | `getMessages` keeps the stored order: the live messages of two runs are those of the first run followed by those of the second. |
| Messages.GetMessagesOfOne | src/app/core/services/message.service.ts:61-67 | A single message is returned exactly when it is live. |
| Messages.ExpiredStaysExpired | src/app/core/services/message.service.ts:61-67 | A message live at a later clock reading was live at every earlier one. |
| Messages.ClearMessages | src/app/core/services/message.service.ts:69-71 | No messages remain and the counters are kept. |
| Messages.RemoveMessage | src/app/core/services/message.service.ts:73-75 | Exactly the messages with another text remain and the counters are kept. |
| Messages.WithoutTextMembers | src/app/core/services/message.service.ts:74 | The filter keeps exactly the messages with another text. |
| Messages.HeaderOfText | src/app/core/services/message.service.ts:53 | Reading a stored text's header gives back its type and count. |
| Messages.TextsDiffer | src/app/core/services/message.service.ts:53 | Texts written with different type or count differ. |
| Messages.FreshValid | src/app/core/services/message.service.ts:22-29 | The new service satisfies the invariant: every header within its counter, no header twice. |
| Messages.AddMessageValid | src/app/core/services/message.service.ts:51-57 | Adding a message keeps the invariant. |
| Messages.RemoveMessageValid | src/app/core/services/message.service.ts:73-75 | Removing messages keeps the invariant. |
| Messages.ClearMessagesValid | src/app/core/services/message.service.ts:69-71 | Clearing keeps the invariant, since the counters are not reset. |
| Messages.ValidTextsDistinct | src/app/core/services/message.service.ts:51-53 | Under the invariant the stored texts are pairwise distinct. |
| Messages.GetMessagesDistinct | src/app/core/services/message.service.ts:61-67 | The live messages of distinct texts have distinct texts. |
| Messages.RemoveMessageRemovesOne | src/app/core/services/message.service.ts:73-75 | Removing a stored text removes exactly that one message and keeps the rest in order. |
| MessageView.Shown | src/app/message/message.component.ts:37-40 | The component keeps exactly the messages whose elapsed seconds do not exceed their timeout. |
| MessageView.ShownKeepsOrder | src/app/message/message.component.ts:37-40 | The component's filter keeps the order of the service's answer: the shown messages of two runs are those of the first run followed by those of the second. |
| MessageView.ShownOfOne | src/app/message/message.component.ts:37-40 | A single message is shown exactly when it passes the component's test. |
| MessageView.ProgressOf | src/app/message/message.component.ts:47-51 | The progress of one message, `(timeout - elapsed) / timeout * 100`. No contract of its own: see `MessageView.ProgressInRange`. |
| MessageView.SetProgress | src/app/message/message.component.ts:47-51 | The progress map gains exactly the texts of the shown messages, and every other entry is kept. |
| MessageView.MessageClass | src/app/message/message.component.ts:59-67 | The style class of each type. No contract of its own: see `MessageView.MessageClassInjective`. |
| MessageView.SameTest | src/app/message/message.component.ts:37-40 | At the same clock reading, the component's test agrees with the service's test. |
| MessageView.UpdateMessages | src/app/message/message.component.ts:35-52 | The messages shown are exactly those live for both clock readings; with none shown the progress map is unchanged, otherwise it gains exactly the shown texts. |
| MessageView.UpdateShowsServiceAnswer | src/app/message/message.component.ts:36-40 | With the component's clock read first, a refresh shows exactly the service's answer. |
| MessageView.ProgressInRange | src/app/message/message.component.ts:47-51 | A shown message with positive timeout, stamped no later than now, has progress between 0 and 100. |
| MessageView.SetProgressValues | src/app/message/message.component.ts:47-51 | Each message's progress entry is computed from that message. |
| MessageView.UpdateProgress | src/app/message/message.component.ts:35-52 | On a valid store each shown message's progress is its own remaining fraction of the timeout. |
| MessageView.CloseMessage | src/app/message/message.component.ts:54-57 | The store keeps exactly the messages with another text, and its counters. No shown message has the closed text. |
| MessageView.CloseKeepsProgressEntry | src/app/message/message.component.ts:54-57 | Closing a message leaves its progress entry in the map. |
| MessageView.MessageClassInjective | src/app/message/message.component.ts:59-67 | Each message type has its own style class. |
| TaskEdit.PadTwoDigits | src/app/task-edit/task-edit.component.ts:68-70 | For 0 to 99, `pad` gives two digits that read back as the number. |
| TaskEdit.Pad | src/app/task-edit/task-edit.component.ts:68-70 | `pad`: a leading zero below 10. No contract of its own: see `TaskEdit.PadTwoDigits`. |
| TaskEdit.FormatTimeInput | src/app/task-edit/task-edit.component.ts:26-29 | `formatTimeInput`: the padded hours and minutes with a colon. No contract of its own: see `TaskEdit.SplitTime` and `TaskEdit.FormatThenUpdate`. |
| TaskEdit.NumberOf | src/app/task-edit/task-edit.component.ts:46 | `Number()` on the texts a time input produces. No contract of its own: see `TaskEdit.PadTwoDigits` and `TaskEdit.ClearedInputInvalid`. |
| TaskEdit.SetTimePart | src/app/task-edit/task-edit.component.ts:46-50 | The hours and minutes of an input set on one instant. No contract of its own: see `TaskEdit.SetTimePartSetsClock`. |
| TaskEdit.SplitColon | src/app/task-edit/task-edit.component.ts:46 | `split(':')` gives at least one part and no part holds a ':'. |
| TaskEdit.SplitJoin | src/app/task-edit/task-edit.component.ts:46 | Joining the parts with ':' gives the text back. |
| TaskEdit.SplitTime | src/app/task-edit/task-edit.component.ts:26-29 | A shown time `"HH:MM"` splits into its two padded parts. |
| TaskEdit.UpdateTimePart | src/app/task-edit/task-edit.component.ts:43-53 | Nothing happens without a task. Otherwise the result is an error exactly when the new time would be an Invalid Date; on success the edited field holds the instant `SetTimePart` gives and nothing else changes. |
| TaskEdit.SetClock | src/app/task-edit/task-edit.component.ts:49-50 | Setting hours then minutes keeps the day, seconds and milliseconds. |
| TaskEdit.SetTimePartSetsClock | src/app/task-edit/task-edit.component.ts:43-53 | A well-formed time input sets exactly the hours and minutes. |
| TaskEdit.FormatThenUpdate | src/app/task-edit/task-edit.component.ts:26-53 | Writing back the shown time of an instant changes nothing. |
| TaskEdit.UpdateWithShownTime | src/app/task-edit/task-edit.component.ts:26-53 | Writing back a field's shown time leaves the task as it was. |
| TaskEdit.ClearedInputInvalid | src/app/task-edit/task-edit.component.ts:46-50 | A cleared input has no minutes part and gives an Invalid Date. |
| TaskEdit.AddField | src/app/task-edit/task-edit.component.ts:57-60 | A missing list is created first; one blank field is appended and the rest are kept. |
| TaskEdit.Splice | src/app/task-edit/task-edit.component.ts:65 | `splice(index, 1)` removes the entry at the clamped start index when there is one. Entries before it keep their place and later ones move up by one. |
| TaskEdit.SpliceRemovesOne | src/app/task-edit/task-edit.component.ts:65 | The removed entry is the only change to the list's contents. |
| TaskEdit.RemoveInRange | src/app/task-edit/task-edit.component.ts:63-66 | An index within the list removes exactly that entry. |
| TaskEdit.RemovePastEnd | src/app/task-edit/task-edit.component.ts:63-66 | An index past the end changes nothing. |
| TaskEdit.RemoveNegative | src/app/task-edit/task-edit.component.ts:63-66 | A negative index counts from the end; one beyond the front removes the first entry. |
| TaskEdit.AddThenRemoveLast | src/app/task-edit/task-edit.component.ts:55-66 | Adding a field and then removing index -1 gives the list back. |
| TaskEdit.RemoveField | src/app/task-edit/task-edit.component.ts:64 | A missing list stays missing. |
| TaskEdit.AddOtherField | src/app/task-edit/task-edit.component.ts:55-61 | Without a task nothing happens. Otherwise one blank field is appended and the rest of the task is unchanged. |
| TaskEdit.RemoveOtherField | src/app/task-edit/task-edit.component.ts:63-66 | Without a task nothing happens. Otherwise the list becomes exactly `Splice(others, index)`, so `TaskEdit.RemoveInRange`, `TaskEdit.RemovePastEnd` and `TaskEdit.RemoveNegative` apply, and nothing else changes. |
| TaskEdit.OnSave | src/app/task-edit/task-edit.component.ts:72-75 | A task is emitted exactly when there is one, and it is that task. |
| Http.FindChar | src-tauri/src/lib.rs:53 | The first index holding the character, or none exactly when it does not occur. |
| Http.FindFrom | src-tauri/src/lib.rs:75 | The first match of the pattern at or after a position, or none when there is none. |
| Http.SplitOnceJoin | src-tauri/src/lib.rs:75-77 | Splitting at the first blank line and joining again gives the text back. |
| Http.ParseUrl | src-tauri/src/lib.rs:52-57 | Never fails. The host holds no '/'. With a '/', host and path rebuild the input and the path starts with '/'; without one, the path is "/". |
| Http.UrlRoundTrip | src-tauri/src/lib.rs:52-57 | A host free of '/' followed by a path starting with '/' splits back into the two. |
| Http.ParsePort | src-tauri/src/lib.rs:63 | An accepted port is at most 65535, and a rejected one gives "Invalid port". |
| Http.PortRoundTrip | src-tauri/src/lib.rs:63 | A port printed in decimal, with or without '+', parses back. |
| Http.PortAccepted | src-tauri/src/lib.rs:63 | Whatever parses is an optional '+' before digits whose value is the port. |
| Http.ParseHostPort | src-tauri/src/lib.rs:59-67 | Port 80 without a ':'. With one, it succeeds exactly when the text after the first ':' parses as a port, giving the host before it and that port; otherwise the error is "Invalid port". |
| Http.HostPortRoundTrip | src-tauri/src/lib.rs:59-67 | `host:port` splits back into host and port. |
| Http.TrimScheme | src-tauri/src/lib.rs:44 | The result is a suffix of the input that does not start with "http://". |
| Http.TrimSchemeIdempotent | src-tauri/src/lib.rs:44 | Trimming twice equals trimming once, and any number of leading schemes is removed. |
| Http.Connect | src-tauri/src/lib.rs:43-50 | A successful connect names a host free of ':' and '/' and a port of at most 65535. |
| Http.ConnectRoundTrip | src-tauri/src/lib.rs:43-50 | `http://host:port/path` connects to that host, port and path. |
| Http.ConnectDefaultPort | src-tauri/src/lib.rs:43-50 | `http://host/path` connects to port 80. |
| Http.FetchData | src-tauri/src/lib.rs:11-26 | Succeeds exactly when the URL starts with "http://" and `connect` succeeds; a URL without the scheme gives "Invalid URL". On success the target is `connect`'s and the request is the GET request for its host and path. |
| Http.FetchRoundTrip | src-tauri/src/lib.rs:11-20 | Fetching `http://host/path` writes the GET request for that host and path to port 80. |
| Http.PostData | src-tauri/src/lib.rs:29-41 | Succeeds exactly when `connect` does, with no scheme check. On success the target is `connect`'s and the request is the POST request for its host, path and data. |
| Http.GetRequestSplit | src-tauri/src/lib.rs:17-20 | The GET request is its three header lines, a blank line, and an empty body. |
| Http.GetRequest | src-tauri/src/lib.rs:17-20 | The GET request text. No contract of its own: see `Http.GetRequestSplit` and `Http.FetchRoundTrip`. |
| Http.PostRequest | src-tauri/src/lib.rs:32-35 | The POST request text. No contract of its own: see `Http.PostRequestSplit` and `Http.ContentLengthIsByteCount`. |
| Http.PostRequestSplit | src-tauri/src/lib.rs:32-35 | The body after the first blank line of a POST request is exactly the data. |
| Http.Utf8Length | src-tauri/src/lib.rs:34 | The byte length lies between one and four times the character count. |
| Http.ContentLengthIsByteCount | src-tauri/src/lib.rs:34 | `Content-Length` equals the number of bytes of the UTF-8 encoding of the data. |
| Http.AsciiLength | src-tauri/src/lib.rs:34 | For ASCII data the byte count is the character count. |
| Http.FirstLine | src-tauri/src/lib.rs:79 | There is a first line exactly when the header block is not empty. |
| Http.ReadResponse | src-tauri/src/lib.rs:69-86 | Success returns the text after the first blank line. Failure happens exactly when the header block has a first line that does not start with "HTTP/1.1 200", and its error is "HTTP error: " followed by that line. |
| Http.ResponseRoundTrip | src-tauri/src/lib.rs:75-85 | For status line, header lines, blank line and body: the body for a 200 status, else "HTTP error: " and the status line. |
| Http.NoBlankNoBody | src-tauri/src/lib.rs:75-77 | Without a blank line the whole response is the header block and the body is empty. |

## Left out

- Rendering and measuring are not modelled. That covers the DOM, `getBoundingClientRect`, `querySelectorAll`, `adjustCellWidth`, the pixel arithmetic that sets `scrollLeft`, `onScroll`, `onWheel`, the cell search of `getFacingTime` and `detectChanges`. Cell boxes are inputs of `Layout`.
- Timers and deferral are not modelled. That covers `setTimeout` around the layout pass, the `setInterval` of the toast component, and the one-second wait in `updateMessages` when nothing is shown. `updateMessages` is asynchronous; the model runs each call to completion.
- Time zones, daylight saving, `toISOString` and date-string parsing are out. So are `formatDateInput` and `updateDatePart`, which depend on UTC-versus-local parsing of date strings.
- Instants are integers with no NaN and no `TimeClip` range limit. An Invalid Date is an `Err` or `None` of the operation that would make one.
- `TaskEdit.NumberOf`: reads only digit strings, the empty one as 0. `Number()` on other texts (signs, spaces, exponents, fractions, hexadecimal) is not modelled, because a time input only produces `"HH:MM"` or `""`.
- `MessageView.ProgressOf`: uses exact real arithmetic. Floating-point rounding of the JS division is not modelled, and a zero timeout gives `NonFinite` for infinity or NaN.
- `Ticks.AppendDates` and `Ticks.PrependDates`: need a non-empty axis. On an empty axis the code steps from `undefined` and makes Invalid Dates, which integer instants cannot hold.
- `Ticks.ScrollTarget`: takes the number of ticks as the number of rendered date cells.
- `Classify.PlaceOf` looks up buckets on the axis as it was before the pass. `Classify.ClassifyScanning` proves that the rewriting lookups give the same classification.
- `Tasks.Task` has the four statuses of the interface. Imported data with another status string falls into the default colour in the code and is not modelled. A priority is any real number, fractions included, because the interface declares it a JS `number`. NaN and the infinities, which imported data could carry, are not modelled, and neither is the way the priority sort would order them.
- The `others` list of a `Task` is always present. `TaskEdit.AddField` and `TaskEdit.RemoveField` model a missing list at the list level.
- `onDelete` and `onClose` only emit events and are not modelled.
- `TaskEdit.UpdateTimePart`: returns an error where the code would store an Invalid Date in the task.
- `addMessage`'s default type INFO is the caller's choice of `t`. Message timestamps are integer milliseconds.
- Socket I/O is not modelled. That covers `TcpStream::connect`, `write_all`, `read_to_string` and their error texts. `Http.FetchData` and `Http.PostData` stop at the request text and its target, and `Http.ReadResponse` starts from the text read back.
- Characters are Unicode scalar values. How Tauri converts JS strings with lone surrogates to Rust strings is not modelled.
- `getPriorityColor`, `addNewTask`, `openEditDialog`, import and export, the theme, and `localStorage` are not part of this model.
- The `default` branches for an unknown precision string are left out. A precision is one of six values here.
- `Precision.WeekNumberRange`: holds only outside the years 0 to 99. Inside them the constructor's two-digit-year rule makes every week number negative, which `Precision.TwoDigitYearWeekNegative` states.
- `Precision.WeekOfNewYear`: holds only outside the years 0 to 99, for the same reason.
- `Precision.WeekContainmentIgnoresYear`: is stated for years outside 0 to 99 only, for the same reason.
- `Layout.FindItem` returns -1 where `getTaskPosition` returns its default box (zero position and size, grey). The default box is not modelled, and neither is the `!this.taskLayout` guard, which a list that is always present never takes.

## Findings

| source | as written | input that shows it | evidently intended | confidence | as-written member | corrected member |
|---|---|---|---|---|---|---|
| src/app/calendar/calendar.component.ts:548-570 | `saveTask` (:560), `deleteTask` (:569) and `importTasks` (:640) call `calculateTaskLayout`, which pushes onto `taskLayout` (:393, :427) without clearing it. Only `ngAfterViewInit` (:159), `zoomIn`, `zoomOut`, `appendDates` and `prependDates` clear it first. | A task that is already drawn, whose start is edited and saved: the layout list keeps the old item in front, so `getTaskPosition` finds the old position. A deleted task likewise keeps its old item, and so does every task drawn before an import. | The list is cleared before the pass, as `ngAfterViewInit`, `zoomIn`, `zoomOut`, `appendDates` and `prependDates` do, so that every position found is one of the current layout. | medium; not executed | Layout.StaleItemFoundFirst | Layout.FreshPositionIsCurrent |
| src/app/calendar/calendar.component.ts:810-857 | `appendDates` (:778, :784) passes the facing time to `scrollToTime`, and so does `prependDates` (:797, :803). `getFacingTime` rounds it down to midnight, the full hour or the full minute (:936-947), but `scrollToTime` floors the distance from `dates[0]` (:827-838), and `dates[0]` keeps the time of day `generateDates` read from `new Date()` (:472). | The day level, an axis generated at 14:30, the view centred on cell `k`, then the axis extended: the facing time is midnight of cell `k`'s day, 14.5 hours before tick `k`, so the floored offset is `k - 1`. | The view stays on the cell it faced: the offset is measured from the first tick rounded the same way, so it returns `k`. | medium; not executed | Ticks.FacingScrollsOneCellLeft | Ticks.FacingScrollsToItsCell |

=== FILE: axis.dfy ===
/** The tick axis of the timeline: stepping an instant by whole ticks, building the
    initial 201 ticks around today, growing the axis by 100 ticks at either end,
    looking up the tick whose bucket holds an instant, and the tick offset that
    `scrollToTime` scrolls to. */
module Axis {
  import D = JsDate
  import opened Precision

  // ---- addTime ------------------------------------------------------------------

  /** `addTime`: move `t` by `k` ticks with the setter of the level. Months and years
      keep the day of the month and let JS carry an overflowing date into the next month. */
  function AddTime(t: int, k: int, p: Precision): int {
    match p
    case Days => D.SetDate(t, D.Date(t) + k)
    case Weeks => D.SetDate(t, D.Date(t) + k * 7)
    case Months => D.SetMonth(t, D.Month(t) + k)
    case Years => D.SetFullYear(t, D.Year(t) + k)
    case Hours => D.SetHours(t, D.Hours(t) + k)
    case Minutes => D.SetMinutes(t, D.Minutes(t) + k)
  }

  /** Levels whose tick is a fixed number of milliseconds. */
  predicate FixedSpan(p: Precision) {
    p == Weeks || p == Days || p == Hours || p == Minutes
  }

  /** Days, weeks, hours and minutes step by exactly `k` nominal spans. */
  lemma AddTimeFixedSpan(t: int, k: int, p: Precision)
    requires FixedSpan(p)
    ensures AddTime(t, k, p) == t + k * Span(p)
  {
    match p
    case Days => AddDays(t, k);
    case Weeks => AddWeeks(t, k);
    case Hours => AddHours(t, k);
    case Minutes => AddMinutes(t, k);
  }

  lemma AddDays(t: int, k: int)
    ensures AddTime(t, k, Days) == t + k * Span(Days)
  {
    assert AddTime(t, k, Days) == D.SetDate(t, D.Date(t) + k);
    SetDateBy(t, k);
    assert Span(Days) == D.MsPerDay;
  }

  lemma AddWeeks(t: int, k: int)
    ensures AddTime(t, k, Weeks) == t + k * Span(Weeks)
  {
    var j := k * 7;
    assert AddTime(t, k, Weeks) == D.SetDate(t, D.Date(t) + j);
    SetDateBy(t, j);
    assert D.MsPerDay == 86400000 && Span(Weeks) == 604800000;
    assert j * 86400000 == k * 604800000;
  }

  lemma AddHours(t: int, k: int)
    ensures AddTime(t, k, Hours) == t + k * Span(Hours)
  {
    D.TimeFields(t);
  }

  lemma AddMinutes(t: int, k: int)
    ensures AddTime(t, k, Minutes) == t + k * Span(Minutes)
  {
    D.TimeFields(t);
  }

  lemma SetDateBy(t: int, k: int)
    ensures D.SetDate(t, D.Date(t) + k) == t + k * D.MsPerDay
  {
    var y, m, dt := D.Year(t), D.Month(t), D.Date(t);
    D.DayFields(t);
    D.MakeDayInYear(y, m, dt + k);
    D.MakeDayInYear(y, m, dt);
    assert D.MakeDay(y, m, dt + k) == D.Day(t) + k;
  }

  /** The month index of an instant: twelve per year plus the month. */
  function MonthIndex(t: int): int {
    12 * D.Year(t) + D.Month(t)
  }

  /** Day number of the 1st of month `n`, counting months as `12 * year + month`. */
  function MonthStartDay(n: int): int {
    D.DayFromYear(n / 12) + D.CumDays(n % 12, D.IsLeap(n / 12))
  }

  /** The instant at date `dt` and time of day `w` of the month `k` months after the
      month with index `n`. */
  function AtMonthIndex(n: int, k: int, dt: int, w: int): int {
    (MonthStartDay(n + k) + dt - 1) * D.MsPerDay + w
  }

  lemma MakeDayByMonthIndex(y: int, m: int, dt: int)
    ensures D.MakeDay(y, m, dt) == MonthStartDay(12 * y + m) + dt - 1
  {
    assert (12 * y + m) / 12 == y + m / 12;
    assert (12 * y + m) % 12 == m % 12;
  }

  lemma MonthStartStep(n: int)
    ensures MonthStartDay(n) + 28 <= MonthStartDay(n + 1)
  {
    var y, m := n / 12, n % 12;
    if m == 11 {
      assert (n + 1) / 12 == y + 1 && (n + 1) % 12 == 0;
      D.DayFromYearStep(y);
    } else {
      assert (n + 1) / 12 == y && (n + 1) % 12 == m + 1;
    }
  }

  lemma {:induction false} MonthStartIncreasing(n1: int, n2: int)
    requires n1 < n2
    ensures MonthStartDay(n1) < MonthStartDay(n2)
    decreases n2 - n1
  {
    MonthStartStep(n1);
    if n1 + 1 < n2 {
      MonthStartIncreasing(n1 + 1, n2);
    }
  }

  /** Later months give later instants for the same date and time of day. */
  lemma AtMonthIndexIncreasing(n: int, k1: int, k2: int, dt: int, w: int)
    requires k1 < k2
    ensures AtMonthIndex(n, k1, dt, w) < AtMonthIndex(n, k2, dt, w)
  {
    var n1, n2 := n + k1, n + k2;
    MonthStartIncreasing(n1, n2);
    var a, b := MonthStartDay(n1) + dt - 1, MonthStartDay(n2) + dt - 1;
    assert AtMonthIndex(n, k1, dt, w) == a * D.MsPerDay + w;
    assert AtMonthIndex(n, k2, dt, w) == b * D.MsPerDay + w;
    ScaleIncreasing(a, b, w);
  }

  lemma ScaleIncreasing(a: int, b: int, w: int)
    requires a < b
    ensures a * D.MsPerDay + w < b * D.MsPerDay + w
  {
  }

  /** How many months `k` ticks of the month or year level cover. */
  function MonthSteps(k: int, p: Precision): int {
    if p == Months then k else 12 * k
  }

  /** Months and years step through the month index, keeping the date and time of day. */
  lemma AddTimeByMonthIndex(t: int, k: int, p: Precision)
    requires p == Months || p == Years
    ensures AddTime(t, k, p) == AtMonthIndex(MonthIndex(t), MonthSteps(k, p), D.Date(t), D.TimeWithinDay(t))
  {
    if p == Months {
      AddMonthsByIndex(t, k);
    } else {
      AddYearsByIndex(t, k);
    }
  }

  lemma AddMonthsByIndex(t: int, k: int)
    ensures AddTime(t, k, Months) == AtMonthIndex(MonthIndex(t), k, D.Date(t), D.TimeWithinDay(t))
  {
    MakeDayByMonthIndex(D.Year(t), D.Month(t) + k, D.Date(t));
  }

  lemma AddYearsByIndex(t: int, k: int)
    ensures AddTime(t, k, Years) == AtMonthIndex(MonthIndex(t), MonthSteps(k, Years), D.Date(t), D.TimeWithinDay(t))
  {
    MakeDayByMonthIndex(D.Year(t) + k, D.Month(t), D.Date(t));
  }

  /** Adding more ticks always gives a later instant, on every level. */
  lemma AddTimeIncreasing(t: int, k1: int, k2: int, p: Precision)
    requires k1 < k2
    ensures AddTime(t, k1, p) < AddTime(t, k2, p)
  {
    match p
    case Days => DaysIncreasing(t, k1, k2);
    case Weeks => WeeksIncreasing(t, k1, k2);
    case Hours => HoursIncreasing(t, k1, k2);
    case Minutes => MinutesIncreasing(t, k1, k2);
    case Months => MonthsIncreasing(t, k1, k2);
    case Years => YearsIncreasing(t, k1, k2);
  }

  lemma DaysIncreasing(t: int, k1: int, k2: int)
    requires k1 < k2
    ensures AddTime(t, k1, Days) < AddTime(t, k2, Days)
  {
    AddDays(t, k1);
    AddDays(t, k2);
    assert Span(Days) == 86400000;
  }

  lemma WeeksIncreasing(t: int, k1: int, k2: int)
    requires k1 < k2
    ensures AddTime(t, k1, Weeks) < AddTime(t, k2, Weeks)
  {
    AddWeeks(t, k1);
    AddWeeks(t, k2);
    assert Span(Weeks) == 604800000;
  }

  lemma HoursIncreasing(t: int, k1: int, k2: int)
    requires k1 < k2
    ensures AddTime(t, k1, Hours) < AddTime(t, k2, Hours)
  {
    AddHours(t, k1);
    AddHours(t, k2);
    assert Span(Hours) == 3600000;
  }

  lemma MinutesIncreasing(t: int, k1: int, k2: int)
    requires k1 < k2
    ensures AddTime(t, k1, Minutes) < AddTime(t, k2, Minutes)
  {
    AddMinutes(t, k1);
    AddMinutes(t, k2);
    assert Span(Minutes) == 60000;
  }

  lemma MonthsIncreasing(t: int, k1: int, k2: int)
    requires k1 < k2
    ensures AddTime(t, k1, Months) < AddTime(t, k2, Months)
  {
    AtMonthIndexIncreasing(MonthIndex(t), k1, k2, D.Date(t), D.TimeWithinDay(t));
    AddMonthsByIndex(t, k1);
    AddMonthsByIndex(t, k2);
  }

  lemma YearsIncreasing(t: int, k1: int, k2: int)
    requires k1 < k2
    ensures AddTime(t, k1, Years) < AddTime(t, k2, Years)
  {
    var n := MonthIndex(t);
    AddYearsByIndex(t, k1);
    AddYearsByIndex(t, k2);
    AtMonthIndexIncreasing(n, MonthSteps(k1, Years), MonthSteps(k2, Years), D.Date(t), D.TimeWithinDay(t));
  }

  lemma AddTimeZero(t: int, p: Precision)
    ensures AddTime(t, 0, p) == t
  {
    if FixedSpan(p) {
      AddTimeFixedSpan(t, 0, p);
    } else {
      AddTimeByMonthIndex(t, 0, p);
      MakeDayByMonthIndex(D.Year(t), D.Month(t), D.Date(t));
      D.DayFields(t);
    }
  }

  /** Stepping by months lands on month `Month(t) + k`, carried into the year, at the
      same date and time of day, as long as that date exists in every month. */
  lemma AddMonthsFields(t: int, k: int)
    requires D.Date(t) <= 28
    ensures var r := AddTime(t, k, Months);
            && D.Year(r) == D.CarryYear(D.Year(t), D.Month(t) + k)
            && D.Month(r) == D.CarryMonth(D.Month(t) + k)
            && D.Date(r) == D.Date(t)
            && D.TimeWithinDay(r) == D.TimeWithinDay(t)
  {
    var y, m := D.CarryYear(D.Year(t), D.Month(t) + k), D.CarryMonth(D.Month(t) + k);
    var dt, w := D.Date(t), D.TimeWithinDay(t);
    var d := D.MakeDay(D.Year(t), D.Month(t) + k, dt);
    assert AddTime(t, k, Months) == D.MakeDate(d, w);
    D.FieldsOfDay(d, y, m, dt, w);
  }

  /** Stepping by years always lands in year `Year(t) + k`, keeping the time of day; the
      month and date are kept too unless the date is February 29th. */
  lemma AddYearsFields(t: int, k: int)
    ensures var r := AddTime(t, k, Years);
            && D.Year(r) == D.Year(t) + k
            && D.TimeWithinDay(r) == D.TimeWithinDay(t)
            && (D.Date(t) <= 28 ==> D.Month(r) == D.Month(t) && D.Date(r) == D.Date(t))
  {
    var m, dt, w := D.Month(t), D.Date(t), D.TimeWithinDay(t);
    var y := D.CarryYear(D.Year(t) + k, m);
    var d := D.MakeDay(D.Year(t) + k, m, dt);
    assert AddTime(t, k, Years) == D.MakeDate(d, w);
    assert y == D.Year(t) + k;
    assert D.CarryMonth(m) == m;
    D.DateFitsAnyYear(m, dt, D.IsLeap(D.Year(t)), y);
    D.DayFromYearStep(y);
    D.YearOfDay(d, y, w);
    if dt <= 28 {
      D.FieldsOfDay(d, y, m, dt, w);
    }
  }

  /** Steps compose when no date overflow can happen: `a` steps and then `b` steps
      are `k = a + b` steps. */
  lemma AddTimeCompose(t: int, a: int, b: int, k: int, p: Precision)
    requires k == a + b
    requires FixedSpan(p) || D.Date(t) <= 28
    ensures AddTime(AddTime(t, a, p), b, p) == AddTime(t, k, p)
  {
    match p
    case Days => DaysCompose(t, a, b, k);
    case Weeks => WeeksCompose(t, a, b, k);
    case Hours => HoursCompose(t, a, b, k);
    case Minutes => MinutesCompose(t, a, b, k);
    case Months => MonthsCompose(t, a, b, k);
    case Years => YearsCompose(t, a, b, k);
  }

  lemma DaysCompose(t: int, a: int, b: int, k: int)
    requires k == a + b
    ensures AddTime(AddTime(t, a, Days), b, Days) == AddTime(t, k, Days)
  {
    AddDays(t, a);
    AddDays(AddTime(t, a, Days), b);
    AddDays(t, k);
    Distribute(a, b, k, Span(Days));
  }

  lemma WeeksCompose(t: int, a: int, b: int, k: int)
    requires k == a + b
    ensures AddTime(AddTime(t, a, Weeks), b, Weeks) == AddTime(t, k, Weeks)
  {
    AddWeeks(t, a);
    AddWeeks(AddTime(t, a, Weeks), b);
    AddWeeks(t, k);
    Distribute(a, b, k, Span(Weeks));
  }

  lemma HoursCompose(t: int, a: int, b: int, k: int)
    requires k == a + b
    ensures AddTime(AddTime(t, a, Hours), b, Hours) == AddTime(t, k, Hours)
  {
    AddHours(t, a);
    AddHours(AddTime(t, a, Hours), b);
    AddHours(t, k);
    Distribute(a, b, k, Span(Hours));
  }

  lemma MinutesCompose(t: int, a: int, b: int, k: int)
    requires k == a + b
    ensures AddTime(AddTime(t, a, Minutes), b, Minutes) == AddTime(t, k, Minutes)
  {
    AddMinutes(t, a);
    AddMinutes(AddTime(t, a, Minutes), b);
    AddMinutes(t, k);
    Distribute(a, b, k, Span(Minutes));
  }

  /** Moving the base month by `a` is the same as moving the offset by `a`. */
  lemma AtMonthIndexShift(m: int, n: int, a: int, b: int, c: int, dt: int, w: int)
    requires m == n + a && c == a + b
    ensures AtMonthIndex(m, b, dt, w) == AtMonthIndex(n, c, dt, w)
  {
    assert m + b == n + c;
  }

  lemma Distribute(a: int, b: int, k: int, s: int)
    requires k == a + b
    ensures a * s + b * s == k * s
  {
  }

  lemma MonthsCompose(t: int, a: int, b: int, k: int)
    requires k == a + b && D.Date(t) <= 28
    ensures AddTime(AddTime(t, a, Months), b, Months) == AddTime(t, k, Months)
  {
    var u, n, dt, w := AddTime(t, a, Months), MonthIndex(t), D.Date(t), D.TimeWithinDay(t);
    AddMonthsFields(t, a);
    AddMonthsByIndex(u, b);
    AtMonthIndexShift(MonthIndex(u), n, a, b, k, dt, w);
    AddMonthsByIndex(t, k);
  }

  lemma YearsCompose(t: int, a: int, b: int, k: int)
    requires k == a + b && D.Date(t) <= 28
    ensures AddTime(AddTime(t, a, Years), b, Years) == AddTime(t, k, Years)
  {
    var u, n, dt, w := AddTime(t, a, Years), MonthIndex(t), D.Date(t), D.TimeWithinDay(t);
    var sa, sb, sk := MonthSteps(a, Years), MonthSteps(b, Years), MonthSteps(k, Years);
    AddYearsFields(t, a);
    AddYearsByIndex(u, b);
    AtMonthIndexShift(MonthIndex(u), n, sa, sb, sk, dt, w);
    AddYearsByIndex(t, k);
  }

  /** With a date past the 28th, consecutive month ticks can share a month: stepping
      January 31st of a common year by one and by two months gives March 3rd and
      March 31st, so February has no tick and March has two. */
  lemma MonthStepsCanRepeatABucket(t: int)
    requires D.Month(t) == 0 && D.Date(t) == 31 && !D.IsLeap(D.Year(t))
    ensures D.Month(AddTime(t, 1, Months)) == 2 && D.Date(AddTime(t, 1, Months)) == 3
    ensures D.Month(AddTime(t, 2, Months)) == 2 && D.Date(AddTime(t, 2, Months)) == 31
    ensures BucketStart(AddTime(t, 1, Months), Months) == BucketStart(AddTime(t, 2, Months), Months)
  {
    OneMonthAfterJanuary31(t);
    TwoMonthsAfterJanuary31(t);
    SameMonthIffSameBucket(AddTime(t, 1, Months), AddTime(t, 2, Months));
  }

  lemma OneMonthAfterJanuary31(t: int)
    requires D.Month(t) == 0 && D.Date(t) == 31 && !D.IsLeap(D.Year(t))
    ensures var r := AddTime(t, 1, Months);
            D.Year(r) == D.Year(t) && D.Month(r) == 2 && D.Date(r) == 3
  {
    var y, w := D.Year(t), D.TimeWithinDay(t);
    var d := D.MakeDay(y, 1, 31);
    assert AddTime(t, 1, Months) == D.MakeDate(d, w);
    D.MakeDayInYear(y, 1, 31);
    D.FieldsOfDay(d, y, 2, 3, w);
  }

  lemma TwoMonthsAfterJanuary31(t: int)
    requires D.Month(t) == 0 && D.Date(t) == 31 && !D.IsLeap(D.Year(t))
    ensures var r := AddTime(t, 2, Months);
            D.Year(r) == D.Year(t) && D.Month(r) == 2 && D.Date(r) == 31
  {
    var y, w := D.Year(t), D.TimeWithinDay(t);
    var d := D.MakeDay(y, 2, 31);
    assert AddTime(t, 2, Months) == D.MakeDate(d, w);
    D.MakeDayInYear(y, 2, 31);
    D.FieldsOfDay(d, y, 2, 31, w);
  }
}

=== FILE: classify.dfy ===
/** The first half of `calculateTaskLayout`: each task, taken in priority-then-start order,
    becomes an indicator in the cell of its bucket when it fits in one cell, is dropped when
    that bucket is not on the axis, and otherwise joins the spanning tasks. */
module Classify {
  import opened Precision
  import opened Ticks
  import opened Tasks
  import Sorting

  datatype Place = Indicator(cell: int) | Dropped | Spanning

  /** Where one task goes, given the tick axis at the time of the lookup. */
  function PlaceOf(t: Task, dates: seq<int>, p: Precision): Place {
    if !IsContained(t.start, t.end, p) then Spanning
    else
      var c := FirstInBucket(dates, t.start, p);
      if c >= 0 then Indicator(c) else Dropped
  }

  /** The placement rule for one axis and level. */
  function PlacerFor(dates: seq<int>, p: Precision): Task -> Place {
    x => PlaceOf(x, dates, p)
  }

  /** The tasks of `s` that go to place `q`, in order: the reference the classification is
      measured against. */
  function Where(s: seq<Task>, place: Task -> Place, q: Place): (r: seq<Task>)
    ensures forall x :: x in r <==> x in s && place(x) == q
  {
    if |s| == 0 then []
    else
      var init, last := s[..|s| - 1], s[|s| - 1];
      assert s == init + [last];
      Where(init, place, q) + (if place(last) == q then [last] else [])
  }

  /** The list of indicator tasks collected for one cell. */
  datatype CellList = CellList(cell: int, tasks: seq<Task>)

  /** The classification: the cells' lists in the order their first task arrived (the
      insertion order of the `Map`), and the spanning tasks. */
  datatype Classified = Classified(cells: seq<CellList>, spanning: seq<Task>)

  predicate DistinctCells(cells: seq<CellList>) {
    forall i, j :: 0 <= i < j < |cells| ==> cells[i].cell != cells[j].cell
  }

  function IndexOfCell(cells: seq<CellList>, c: int): (r: int)
    ensures -1 <= r < |cells|
    ensures r >= 0 ==> cells[r].cell == c
    ensures r == -1 ==> forall i :: 0 <= i < |cells| ==> cells[i].cell != c
  {
    if |cells| == 0 then -1
    else if cells[|cells| - 1].cell == c then |cells| - 1
    else IndexOfCell(cells[..|cells| - 1], c)
  }

  /** Some list belongs to cell `c` (`indicatorTasksMap.has(c)`). */
  predicate HasCell(cells: seq<CellList>, c: int) {
    exists i :: 0 <= i < |cells| && cells[i].cell == c
  }

  /** `indicatorTasksMap.get(c).push(x)`, creating the entry when it is missing. */
  function PushToCell(cells: seq<CellList>, c: int, x: Task): (r: seq<CellList>)
    requires DistinctCells(cells)
    ensures |r| == |cells| + (if HasCell(cells, c) then 0 else 1)
    ensures DistinctCells(r)
    ensures forall i :: 0 <= i < |cells| ==> r[i].cell == cells[i].cell
    ensures forall i :: 0 <= i < |r| ==>
      r[i].tasks == (if i < |cells| then cells[i].tasks else []) + (if r[i].cell == c then [x] else [])
    ensures forall d :: HasCell(r, d) <==> d == c || HasCell(cells, d)
  {
    var k := IndexOfCell(cells, c);
    if k >= 0 then cells[k := CellList(c, cells[k].tasks + [x])]
    else
      var r := cells + [CellList(c, [x])];
      assert r[|cells|].cell == c;
      r
  }

  /** Classifies the tasks one after another, in the order given. */
  function ClassifyAll(s: seq<Task>, place: Task -> Place): (r: Classified)
    ensures DistinctCells(r.cells)
  {
    if |s| == 0 then Classified([], [])
    else
      Bind(ClassifyAll(s[..|s| - 1], place), s[|s| - 1], place(s[|s| - 1]))
  }

  /** One step of the classification: task `x` goes to place `q`. */
  function Bind(prev: Classified, x: Task, q: Place): (r: Classified)
    requires DistinctCells(prev.cells)
    ensures DistinctCells(r.cells)
  {
    match q
    case Spanning => Classified(prev.cells, prev.spanning + [x])
    case Dropped => prev
    case Indicator(c) => Classified(PushToCell(prev.cells, c, x), prev.spanning)
  }

  /** The spanning list is exactly the input's spanning tasks, in input order. */
  lemma {:induction false} SpanningMatchesWhere(s: seq<Task>, place: Task -> Place)
    ensures ClassifyAll(s, place).spanning == Where(s, place, Spanning)
  {
    if |s| > 0 {
      SpanningMatchesWhere(s[..|s| - 1], place);
    }
  }

  /** A cell has a list exactly when some task is bound to it. */
  lemma {:induction false} CellsMatchPlaces(s: seq<Task>, place: Task -> Place)
    ensures forall c :: HasCell(ClassifyAll(s, place).cells, c)
                    <==> exists x :: x in s && place(x) == Indicator(c)
  {
    if |s| > 0 {
      var init, last := s[..|s| - 1], s[|s| - 1];
      assert s == init + [last];
      CellsMatchPlaces(init, place);
    }
  }

  /** Every cell's list is exactly the input's tasks bound to that cell, in input order. */
  lemma {:induction false} CellListsMatchWhere(s: seq<Task>, place: Task -> Place)
    ensures forall i :: 0 <= i < |ClassifyAll(s, place).cells| ==>
      ClassifyAll(s, place).cells[i].tasks == Where(s, place, Indicator(ClassifyAll(s, place).cells[i].cell))
  {
    if |s| > 0 {
      var init, last := s[..|s| - 1], s[|s| - 1];
      CellListsMatchWhere(init, place);
      CellsMatchPlaces(init, place);
      var prev, r := ClassifyAll(init, place), ClassifyAll(s, place);
      forall i | 0 <= i < |r.cells|
        ensures r.cells[i].tasks == Where(s, place, Indicator(r.cells[i].cell))
      {
        var c := r.cells[i].cell;
        if i >= |prev.cells| {
          NewCellWasEmpty(init, place, prev, c);
        }
      }
    }
  }

  lemma NewCellWasEmpty(init: seq<Task>, place: Task -> Place, prev: Classified, c: int)
    requires !HasCell(prev.cells, c)
    requires HasCell(prev.cells, c) <==> exists x :: x in init && place(x) == Indicator(c)
    ensures Where(init, place, Indicator(c)) == []
  {
  }

  /** Every copy of a task in the input lands in the one place `PlaceOf` names, and in no
      other. */
  lemma {:induction false} EachTaskInOnePlace(s: seq<Task>, place: Task -> Place, x: Task, q: Place)
    ensures multiset(Where(s, place, q))[x] == if q == place(x) then multiset(s)[x] else 0
  {
    if |s| > 0 {
      var init, last := s[..|s| - 1], s[|s| - 1];
      assert s == init + [last];
      EachTaskInOnePlace(init, place, x, q);
    }
  }

  /** The input being sorted, so is every cell's list and the spanning list. */
  lemma {:induction false} WhereKeepsOrder(s: seq<Task>, place: Task -> Place, q: Place, o: Sorting.Order)
    requires Sorting.Sorted(s, o)
    ensures Sorting.Sorted(Where(s, place, q), o)
  {
    if |s| > 0 {
      var init, last := s[..|s| - 1], s[|s| - 1];
      assert s == init + [last];
      assert Sorting.Sorted(init, o);
      WhereKeepsOrder(init, place, q, o);
      var w := Where(init, place, q);
      forall y | y in w ensures Sorting.KeyLe(Sorting.Key(y, o), Sorting.Key(last, o)) {
        var j :| 0 <= j < |init| && init[j] == y;
        assert s[j] == y;
      }
    }
  }

  /** `findDateIndex` rewrites the ticks it scans; classifying against the axis as it is
      rewritten by every lookup gives the classification against the original axis, and
      the rewritten axis answers every later lookup as the original did. */
  method ClassifyScanning(s: seq<Task>, dates: seq<int>, p: Precision)
    returns (r: Classified, axis: seq<int>)
    ensures r == ClassifyAll(s, PlacerFor(dates, p))
    ensures |axis| == |dates|
    ensures forall t :: FirstInBucket(axis, t, p) == FirstInBucket(dates, t, p)
  {
    r := Classified([], []);
    axis := dates;
    for n := 0 to |s|
      invariant r == ClassifyAll(s[..n], PlacerFor(dates, p))
      invariant |axis| == |dates|
      invariant forall t :: FirstInBucket(axis, t, p) == FirstInBucket(dates, t, p)
    {
      var x := s[n];
      var q := Spanning;
      if IsContained(x.start, x.end, p) {
        var cell, scanned := FindDateIndex(axis, x.start, p);
        LookupsKept(axis, scanned, p, ScanLength(cell, |axis|));
        axis := scanned;
        q := if cell >= 0 then Indicator(cell) else Dropped;
      }
      assert q == PlacerFor(dates, p)(x);
      ClassifyPrefixStep(s, n, PlacerFor(dates, p));
      r := Bind(r, x, q);
    }
    assert s[..|s|] == s;
  }

  lemma LookupsKept(axis: seq<int>, scanned: seq<int>, p: Precision, n: int)
    requires WrittenUpTo(axis, scanned, p, n)
    ensures |scanned| == |axis|
    ensures forall t :: FirstInBucket(scanned, t, p) == FirstInBucket(axis, t, p)
  {
    forall t ensures FirstInBucket(scanned, t, p) == FirstInBucket(axis, t, p) {
      WrittenBackSameLookup(axis, scanned, t, p, n);
    }
  }

  lemma ClassifyPrefixStep(s: seq<Task>, n: int, place: Task -> Place)
    requires 0 <= n < |s|
    ensures ClassifyAll(s[..n + 1], place) == Bind(ClassifyAll(s[..n], place), s[n], place(s[n]))
  {
    assert s[..n + 1][..n] == s[..n];
  }
}

=== FILE: decimal.dfy ===
/** Decimal digit strings: the number-to-text conversions of JS template literals and
    Rust's `format!`, and the digit parsing of JS `Number` and Rust's `str::parse`. */
module Decimal {

  predicate IsDigit(c: char) {
    '0' <= c <= '9'
  }

  predicate AllDigits(s: string) {
    forall i :: 0 <= i < |s| ==> IsDigit(s[i])
  }

  function DigitChar(d: nat): (c: char)
    requires d < 10
    ensures IsDigit(c)
  {
    "0123456789"[d]
  }

  function DigitValue(c: char): (d: nat)
    requires IsDigit(c)
    ensures d < 10
    ensures DigitChar(d) == c
  {
    c as int - '0' as int
  }

  /** The shortest decimal text of `n`, as `String(n)` or `n.to_string()` print it. */
  function NatToString(n: nat): (s: string)
    ensures 1 <= |s| && AllDigits(s)
    ensures s[0] == '0' ==> n == 0
    ensures n < 10 <==> |s| == 1
    decreases n
  {
    if n < 10 then [DigitChar(n)] else NatToString(n / 10) + [DigitChar(n % 10)]
  }

  /** The value of a (possibly empty) string of decimal digits; leading zeros are allowed. */
  function ParseDigits(s: string): nat
    requires AllDigits(s)
  {
    if |s| == 0 then 0 else ParseDigits(s[..|s| - 1]) * 10 + DigitValue(s[|s| - 1])
  }

  /** Printing then parsing gives the number back. */
  lemma {:induction false} ParsePrinted(n: nat)
    ensures ParseDigits(NatToString(n)) == n
    decreases n
  {
    if n >= 10 {
      var s := NatToString(n);
      assert s[..|s| - 1] == NatToString(n / 10);
      ParsePrinted(n / 10);
    }
  }

  /** Distinct numbers print differently. */
  lemma PrintedInjective(a: nat, b: nat)
    requires NatToString(a) == NatToString(b)
    ensures a == b
  {
    ParsePrinted(a);
    ParsePrinted(b);
  }

  /** A leading zero does not change the parsed value. */
  lemma {:induction false} ParseLeadingZero(s: string)
    requires AllDigits(s)
    ensures AllDigits("0" + s) && ParseDigits("0" + s) == ParseDigits(s)
    decreases |s|
  {
    if |s| > 0 {
      var t := "0" + s;
      assert t[..|t| - 1] == "0" + s[..|s| - 1];
      ParseLeadingZero(s[..|s| - 1]);
    }
  }

  /** JS `String(v)` of an integral number: a minus sign before the digits of |v|. */
  function IntToString(v: int): string {
    if v >= 0 then NatToString(v) else "-" + NatToString(-v)
  }
}

=== FILE: http.dfy ===
/** The Tauri commands `fetch_data` and `post_data`: a URL is split into host, port and
    path, a plain HTTP/1.1 request text is built for it, and the response text is split
    into header block and body. The socket itself is not modelled: the model stops at the
    request text that would be written and starts again at the response text read back. */
module Http {
  import opened Wrappers
  import opened Decimal

  const Scheme: string := "http://"

  /** The blank line ending a header block. */
  const Blank: string := "\r\n\r\n"

  predicate StartsWith(s: string, prefix: string) {
    |prefix| <= |s| && s[..|prefix|] == prefix
  }

  // ---- searching ----------------------------------------------------------------------

  /** `str::find` of a character: the first index holding `c`. */
  function FindChar(s: string, c: char): (r: Option<nat>)
    ensures r.None? <==> c !in s
    ensures r.Some? ==> r.value < |s| && s[r.value] == c && c !in s[..r.value]
  {
    if |s| == 0 then None
    else if s[0] == c then Some(0)
    else
      assert s == [s[0]] + s[1..];
      match FindChar(s[1..], c)
      case None => None
      case Some(k) =>
        assert s[..k + 1] == [s[0]] + s[1..][..k];
        Some(k + 1)
  }

  predicate MatchAt(s: string, pat: string, j: int) {
    0 <= j && j + |pat| <= |s| && s[j..j + |pat|] == pat
  }

  /** The first index at or after `i` where `pat` occurs. */
  function FindFrom(s: string, pat: string, i: nat): (r: Option<nat>)
    requires |pat| > 0
    ensures r.Some? ==> i <= r.value && MatchAt(s, pat, r.value)
    ensures r.Some? ==> forall j :: i <= j < r.value ==> !MatchAt(s, pat, j)
    ensures r.None? ==> forall j :: i <= j ==> !MatchAt(s, pat, j)
    decreases |s| - i
  {
    if i + |pat| > |s| then None
    else if s[i..i + |pat|] == pat then Some(i)
    else FindFrom(s, pat, i + 1)
  }

  /** `splitn(2, pat)` with the missing second part read as `""` (`unwrap_or("")`). */
  function SplitOnce(s: string, pat: string): (string, string)
    requires |pat| > 0
  {
    match FindFrom(s, pat, 0)
    case None => (s, "")
    case Some(k) => (s[..k], s[k + |pat|..])
  }

  /** Splitting at the first occurrence and joining again gives the text back. */
  lemma SplitOnceJoin(s: string, pat: string)
    requires |pat| > 0 && FindFrom(s, pat, 0).Some?
    ensures SplitOnce(s, pat).0 + pat + SplitOnce(s, pat).1 == s
  {
    var k := FindFrom(s, pat, 0).value;
    assert s == s[..k] + s[k..k + |pat|] + s[k + |pat|..];
  }

  // ---- URLs ----------------------------------------------------------------------------

  /** `parse_url`: host up to the first '/', the rest as the path, "/" when there is none.
      It never fails. */
  function ParseUrl(url: string): (r: Result<(string, string), string>)
    ensures r.Ok?
    ensures '/' !in r.value.0
    ensures '/' in url ==> r.value.0 + r.value.1 == url && |r.value.1| > 0 && r.value.1[0] == '/'
    ensures '/' !in url ==> r.value == (url, "/")
  {
    match FindChar(url, '/')
    case Some(k) =>
      assert url == url[..k] + url[k..];
      Ok((url[..k], url[k..]))
    case None => Ok((url, "/"))
  }

  /** Rust's `str::parse::<u16>`: an optional '+', then one or more digits, at most 65535. */
  function ParsePort(s: string): (r: Result<nat, string>)
    ensures r.Ok? ==> r.value <= 65535
    ensures r.Err? ==> r.error == "Invalid port"
  {
    var digits := if |s| > 0 && s[0] == '+' then s[1..] else s;
    if |digits| == 0 || !AllDigits(digits) || ParseDigits(digits) > 65535 then Err("Invalid port")
    else Ok(ParseDigits(digits))
  }

  /** `parse_host_port`: the host before the first ':' and the port after it, or port 80. */
  function ParseHostPort(host: string): (r: Result<(string, nat), string>)
    ensures ':' !in host ==> r == Ok((host, 80))
    ensures r.Ok? ==> ':' !in r.value.0 && r.value.1 <= 65535
    ensures r.Ok? && ':' in host ==> exists text :: host == r.value.0 + ":" + text && ParsePort(text) == Ok(r.value.1)
    ensures ':' in host ==> (r.Ok? <==> ParsePort(host[FindChar(host, ':').value + 1..]).Ok?)
    ensures r.Err? ==> r == Err("Invalid port")
  {
    match FindChar(host, ':')
    case None => Ok((host, 80))
    case Some(k) =>
      assert host == host[..k] + ":" + host[k + 1..];
      match ParsePort(host[k + 1..])
      case Err(e) => Err(e)
      case Ok(p) => Ok((host[..k], p))
  }

  /** `trim_start_matches("http://")`: every leading copy of the scheme goes. */
  function TrimScheme(url: string): (r: string)
    ensures !StartsWith(r, Scheme)
    ensures |r| <= |url| && r == url[|url| - |r|..]
  {
    if StartsWith(url, Scheme) then TrimScheme(url[|Scheme|..]) else url
  }

  /** Where `connect` would open its socket, and the path it hands back. */
  datatype Target = Target(host: string, port: nat, path: string)

  /** `connect` up to the socket: trim the scheme, split path, split port. */
  function Connect(url: string): (r: Result<Target, string>)
    ensures r.Ok? ==> r.value.port <= 65535 && ':' !in r.value.host && '/' !in r.value.host
  {
    var (hostPort, path) := ParseUrl(TrimScheme(url)).value;
    match ParseHostPort(hostPort)
    case Err(e) => Err(e)
    case Ok((host, port)) =>
      assert forall c :: c in host ==> c in hostPort;
      Ok(Target(host, port, path))
  }

  // ---- requests ------------------------------------------------------------------------

  function GetRequest(host: string, path: string): string {
    ("GET " + path + " HTTP/1.1") + "\r\n" + ("Host: " + host) + "\r\n" + "Connection: close" + "\r\n\r\n"
  }

  /** The number of bytes of `c` in UTF-8. */
  function Utf8Width(c: char): (n: nat)
    ensures 1 <= n <= 4
  {
    if c as int < 0x80 then 1 else if c as int < 0x800 then 2 else if c as int < 0x10000 then 3 else 4
  }

  /** `String::len`: the length in UTF-8 bytes. */
  function Utf8Length(s: string): (n: nat)
    ensures |s| <= n <= 4 * |s|
  {
    if |s| == 0 then 0 else Utf8Width(s[0]) + Utf8Length(s[1..])
  }

  function PostRequest(host: string, path: string, data: string): string {
    ("POST " + path + " HTTP/1.1") + "\r\n" + ("Host: " + host) + "\r\n" + "Content-Type: application/json"
      + "\r\n" + ("Content-Length: " + NatToString(Utf8Length(data))) + "\r\n" + "Connection: close"
      + "\r\n\r\n" + data
  }

  /** A request about to be written, with the place it goes to. */
  datatype Outgoing = Outgoing(target: Target, request: string)

  /** `fetch_data` up to the write: only URLs starting with the scheme are accepted. */
  function FetchData(url: string): (r: Result<Outgoing, string>)
    ensures !StartsWith(url, Scheme) ==> r == Err("Invalid URL")
    ensures r.Ok? <==> StartsWith(url, Scheme) && Connect(url).Ok?
    ensures r.Ok? ==> r.value.target == Connect(url).value
    ensures r.Ok? ==> r.value.request == GetRequest(r.value.target.host, r.value.target.path)
  {
    if !StartsWith(url, Scheme) then Err("Invalid URL")
    else
      match Connect(url)
      case Err(e) => Err(e)
      case Ok(t) => Ok(Outgoing(t, GetRequest(t.host, t.path)))
  }

  /** `post_data` up to the write: no check of the scheme. */
  function PostData(url: string, data: string): (r: Result<Outgoing, string>)
    ensures r.Ok? <==> Connect(url).Ok?
    ensures r.Ok? ==> r.value.target == Connect(url).value
    ensures r.Ok? ==> r.value.request == PostRequest(r.value.target.host, r.value.target.path, data)
  {
    match Connect(url)
    case Err(e) => Err(e)
    case Ok(t) => Ok(Outgoing(t, PostRequest(t.host, t.path, data)))
  }

  // ---- responses -----------------------------------------------------------------------

  /** `headers.lines().next()`: the text before the first '\n' less one trailing '\r';
      a last line with no '\n' keeps its '\r'. Nothing for an empty header block. */
  function FirstLine(headers: string): (r: Option<string>)
    ensures r.None? <==> headers == ""
  {
    if |headers| == 0 then None
    else
      match FindChar(headers, '\n')
      case None => Some(headers)
      case Some(k) =>
        var line := headers[..k];
        Some(if |line| > 0 && line[|line| - 1] == '\r' then line[..|line| - 1] else line)
  }

  /** `read_response` after the read: the body follows the first blank line; a status line
      not starting with "HTTP/1.1 200" is an error. */
  function ReadResponse(response: string): (r: Result<string, string>)
    ensures r.Ok? ==> r.value == SplitOnce(response, Blank).1
    ensures r.Err? <==> FirstLine(SplitOnce(response, Blank).0).Some?
                        && !StartsWith(FirstLine(SplitOnce(response, Blank).0).value, "HTTP/1.1 200")
    ensures r.Err? ==> r.error == "HTTP error: " + FirstLine(SplitOnce(response, Blank).0).value
  {
    var (headers, body) := SplitOnce(response, Blank);
    match FirstLine(headers)
    case None => Ok(body)
    case Some(status) =>
      if !StartsWith(status, "HTTP/1.1 200") then Err("HTTP error: " + status) else Ok(body)
  }


  // ---- round trips -----------------------------------------------------------------------

  /** A port printed in decimal, with or without '+', parses back. */
  lemma PortRoundTrip(p: nat)
    requires p <= 65535
    ensures ParsePort(NatToString(p)) == Ok(p)
    ensures ParsePort("+" + NatToString(p)) == Ok(p)
  {
    ParsePrinted(p);
    var s := NatToString(p);
    assert ("+" + s)[1..] == s;
  }

  /** Any text `ParsePort` accepts is a '+' or nothing before digits of at most 65535. */
  lemma PortAccepted(s: string)
    requires ParsePort(s).Ok?
    ensures var digits := if s[0] == '+' then s[1..] else s;
      |digits| > 0 && AllDigits(digits) && ParseDigits(digits) == ParsePort(s).value
  {
  }

  /** Host and port written as `host:port` split back apart. */
  lemma HostPortRoundTrip(host: string, p: nat)
    requires ':' !in host && p <= 65535
    ensures ParseHostPort(host + ":" + NatToString(p)) == Ok((host, p))
  {
    var s := host + ":" + NatToString(p);
    FirstColon(host, NatToString(p));
    assert s[..|host|] == host && s[|host| + 1..] == NatToString(p);
    PortRoundTrip(p);
  }

  lemma FirstColon(a: string, b: string)
    requires ':' !in a
    ensures FindChar(a + ":" + b, ':') == Some(|a|)
  {
    var s := a + ":" + b;
    assert s[|a|] == ':';
    assert s[..|a|] == a;
  }

  /** A host with no '/' followed by a path starting with '/' splits back apart. */
  lemma UrlRoundTrip(host: string, path: string)
    requires '/' !in host && |path| > 0 && path[0] == '/'
    ensures ParseUrl(host + path) == Ok((host, path))
  {
    var s := host + path;
    assert s[|host|] == '/';
    assert s[..|host|] == host;
    assert FindChar(s, '/') == Some(|host|);
    assert s[|host|..] == path;
  }

  /** Trimming is idempotent and sees through any number of leading schemes. */
  lemma TrimSchemeIdempotent(url: string)
    ensures TrimScheme(TrimScheme(url)) == TrimScheme(url)
    ensures TrimScheme(Scheme + url) == TrimScheme(url)
  {
    assert (Scheme + url)[..|Scheme|] == Scheme;
    assert (Scheme + url)[|Scheme|..] == url;
  }

  /** `host:port/path` after the scheme names that host, port and path. */
  lemma ConnectRoundTrip(host: string, p: nat, path: string)
    requires '/' !in host && ':' !in host && p <= 65535 && |path| > 0 && path[0] == '/'
    ensures Connect(Scheme + host + ":" + NatToString(p) + path) == Ok(Target(host, p, path))
  {
    var digits := NatToString(p);
    var hp := host + ":" + digits;
    var rest := hp + path;
    var url := Scheme + host + ":" + digits + path;
    assert url == Scheme + rest;
    var tail := ":" + digits + path;
    assert tail[1] == digits[0];
    NoSchemeAfterHost(host, tail);
    assert rest == host + tail;
    TrimSchemeIdempotent(rest);
    HostPortNoSlash(host, digits);
    UrlRoundTrip(hp, path);
    HostPortRoundTrip(host, p);
    ConnectFrom(url, hp, path, host, p);
  }

  lemma HostPortNoSlash(host: string, digits: string)
    requires '/' !in host && AllDigits(digits)
    ensures '/' !in host + ":" + digits
  {
    var hp := host + ":" + digits;
    forall i | 0 <= i < |hp| ensures hp[i] != '/' {
      if i < |host| {
        assert hp[i] == host[i];
      } else if i > |host| {
        assert hp[i] == digits[i - |host| - 1];
      }
    }
  }

  lemma ConnectFrom(url: string, hp: string, path: string, host: string, p: nat)
    requires ParseUrl(TrimScheme(url)) == Ok((hp, path)) && ParseHostPort(hp) == Ok((host, p))
    ensures Connect(url) == Ok(Target(host, p, path))
  {
  }

  /** Without a port the host's port is 80. */
  lemma ConnectDefaultPort(host: string, path: string)
    requires '/' !in host && ':' !in host && |path| > 0 && path[0] == '/'
    ensures Connect(Scheme + host + path) == Ok(Target(host, 80, path))
  {
    NoSchemeAfterHost(host, path);
    TrimSchemeIdempotent(host + path);
    assert Scheme + host + path == Scheme + (host + path);
    UrlRoundTrip(host, path);
  }

  /** A host free of '/' and ':' followed by ':' or '/' never looks like a scheme. */
  lemma NoSchemeAfterHost(host: string, tail: string)
    requires '/' !in host && ':' !in host
    requires |tail| > 0 && (tail[0] == '/' || (tail[0] == ':' && |tail| > 1 && tail[1] != '/'))
    ensures TrimScheme(host + tail) == host + tail
  {
    var s := host + tail;
    SchemeChars(s);
    assert s[|host|] == tail[0];
    if tail[0] == ':' {
      assert s[|host| + 1] == tail[1];
    }
    if |host| > 4 {
      assert s[4] == host[4];
    }
  }

  /** The characters a text starting with the scheme must have. */
  lemma SchemeChars(s: string)
    ensures StartsWith(s, Scheme) ==>
      |s| >= 7 && s[0] == 'h' && s[1] == 't' && s[2] == 't' && s[3] == 'p' && s[4] == ':' && s[5] == '/'
  {
    if StartsWith(s, Scheme) {
      var w := s[..7];
      assert w == Scheme;
      assert w[0] == s[0] && w[1] == s[1] && w[2] == s[2] && w[3] == s[3] && w[4] == s[4] && w[5] == s[5];
    }
  }

  /** `fetch_data` of `http://host/path` writes the GET request for that host and path to
      port 80. */
  lemma FetchRoundTrip(host: string, path: string)
    requires '/' !in host && ':' !in host && |path| > 0 && path[0] == '/'
    ensures FetchData(Scheme + host + path) == Ok(Outgoing(Target(host, 80, path), GetRequest(host, path)))
  {
    ConnectDefaultPort(host, path);
    assert (Scheme + host + path)[..|Scheme|] == Scheme;
  }

  // ---- the blank line --------------------------------------------------------------------

  /** No carriage return in `s`. */
  predicate NoCR(s: string) {
    forall i :: 0 <= i < |s| ==> s[i] != '\r'
  }

  /** No blank line can start inside `head`, even running on into what follows: every
      carriage return has a character other than a carriage return two places on. */
  predicate NoBlankIn(head: string) {
    forall i :: 0 <= i < |head| && head[i] == '\r' ==> i + 2 < |head| && head[i + 2] != '\r'
  }

  lemma NoCRNoBlank(s: string)
    requires NoCR(s)
    ensures NoBlankIn(s)
  {
  }

  /** Two blocks joined by a line break keep the property, the second starting with a
      character other than a carriage return. */
  lemma JoinLines(a: string, b: string)
    requires NoBlankIn(a) && NoBlankIn(b) && |b| > 0 && b[0] != '\r'
    ensures NoBlankIn(a + "\r\n" + b)
  {
    var s := a + "\r\n" + b;
    forall i | 0 <= i < |s| && s[i] == '\r' ensures i + 2 < |s| && s[i + 2] != '\r' {
      if i < |a| {
        assert s[i] == a[i];
        assert s[i + 2] == a[i + 2];
      } else if i == |a| {
        assert s[i + 2] == b[0];
      } else {
        assert i >= |a| + 2;
        assert s[i] == b[i - |a| - 2];
        assert s[i + 2] == b[i - |a|];
      }
    }
  }

  /** The first blank line after such a head is the one that ends it. */
  lemma FirstBlank(head: string, body: string)
    requires NoBlankIn(head)
    ensures SplitOnce(head + Blank + body, Blank) == (head, body)
  {
    var s := head + Blank + body;
    assert MatchAt(s, Blank, |head|) by {
      assert s[|head|..|head| + 4] == Blank;
    }
    forall j | 0 <= j < |head| ensures !MatchAt(s, Blank, j) {
      NoMatchBefore(head, body, j);
    }
    var k := FindFrom(s, Blank, 0).value;
    assert k == |head|;
    assert s[..k] == head;
    assert s[k + 4..] == body;
  }

  lemma NoMatchBefore(head: string, body: string, k: int)
    requires NoBlankIn(head) && 0 <= k < |head|
    ensures !MatchAt(head + Blank + body, Blank, k)
  {
    var s := head + Blank + body;
    MatchStarts(s, k);
    assert s[k] == head[k];
    if head[k] == '\r' {
      assert s[k + 2] == head[k + 2];
    }
  }

  lemma MatchStarts(s: string, k: int)
    ensures MatchAt(s, Blank, k) ==> s[k] == '\r' && s[k + 2] == '\r'
  {
    if MatchAt(s, Blank, k) {
      var w := s[k..k + 4];
      assert w == Blank;
      assert w[0] == s[k] && w[2] == s[k + 2];
    }
  }

  /** A GET request has an empty body after its header block. */
  lemma GetRequestSplit(host: string, path: string)
    requires NoCR(host) && NoCR(path)
    ensures SplitOnce(GetRequest(host, path), Blank)
         == (("GET " + path + " HTTP/1.1") + "\r\n" + ("Host: " + host) + "\r\n" + "Connection: close", "")
  {
    var l1, l2, l3 := "GET " + path + " HTTP/1.1", "Host: " + host, "Connection: close";
    LiteralNoCR(l1, "GET ", path, " HTTP/1.1");
    LiteralNoCR(l2, "Host: ", host, "");
    LiteralNoCR(l3, "Connection: close", "", "");
    JoinLines(l1, l2);
    JoinLines(l1 + "\r\n" + l2, l3);
    var head := l1 + "\r\n" + l2 + "\r\n" + l3;
    assert GetRequest(host, path) == head + Blank;
    assert head + Blank == head + Blank + "";
    FirstBlank(head, "");
  }

  /** The body of a POST request is exactly the data, whatever it contains. */
  lemma PostRequestSplit(host: string, path: string, data: string)
    requires NoCR(host) && NoCR(path)
    ensures SplitOnce(PostRequest(host, path, data), Blank).1 == data
  {
    var n := NatToString(Utf8Length(data));
    var l1, l2, l3 := "POST " + path + " HTTP/1.1", "Host: " + host, "Content-Type: application/json";
    var l4, l5 := "Content-Length: " + n, "Connection: close";
    LiteralNoCR(l1, "POST ", path, " HTTP/1.1");
    LiteralNoCR(l2, "Host: ", host, "");
    LiteralNoCR(l3, "Content-Type: application/json", "", "");
    assert NoCR(n) by {
      assert forall i :: 0 <= i < |n| ==> IsDigit(n[i]);
    }
    LiteralNoCR(l4, "Content-Length: ", n, "");
    LiteralNoCR(l5, "Connection: close", "", "");
    var h2 := l1 + "\r\n" + l2;
    var h3 := h2 + "\r\n" + l3;
    var h4 := h3 + "\r\n" + l4;
    var head := h4 + "\r\n" + l5;
    JoinLines(l1, l2);
    JoinLines(h2, l3);
    JoinLines(h3, l4);
    JoinLines(h4, l5);
    assert PostRequest(host, path, data) == head + Blank + data;
    FirstBlank(head, data);
  }

  /** A line of literal text around a field with no carriage return has none either. */
  lemma LiteralNoCR(line: string, before: string, field: string, after: string)
    requires line == before + field + after && NoCR(before) && NoCR(field) && NoCR(after)
    ensures NoBlankIn(line) && NoCR(line)
  {
    forall i | 0 <= i < |line| ensures line[i] != '\r' {
      if i < |before| {
        assert line[i] == before[i];
      } else if i < |before| + |field| {
        assert line[i] == field[i - |before|];
      } else {
        assert line[i] == after[i - |before| - |field|];
      }
    }
  }

  /** A response whose status line is followed by header lines and a blank line: the body
      comes back for a "HTTP/1.1 200" status, the status line in the error otherwise. */
  lemma ResponseRoundTrip(status: string, fields: string, body: string)
    requires |status| > 0 && NoCR(status) && '\n' !in status
    requires fields == "" || (NoBlankIn(fields) && fields[0] != '\r')
    ensures var head := if fields == "" then status else status + "\r\n" + fields;
      ReadResponse(head + Blank + body)
        == if StartsWith(status, "HTTP/1.1 200") then Ok(body) else Err("HTTP error: " + status)
  {
    NoCRNoBlank(status);
    var head := status;
    if fields != "" {
      JoinLines(status, fields);
      head := status + "\r\n" + fields;
      StatusLine(status, fields);
    } else {
      assert FindChar(status, '\n').None?;
    }
    FirstBlank(head, body);
  }

  lemma StatusLine(status: string, fields: string)
    requires NoCR(status) && '\n' !in status
    ensures FirstLine(status + "\r\n" + fields) == Some(status)
  {
    var s := status + "\r\n" + fields;
    assert s[|status| + 1] == '\n';
    assert s[..|status| + 1] == status + "\r";
    assert '\n' !in s[..|status| + 1];
    assert FindChar(s, '\n') == Some(|status| + 1);
    assert (status + "\r")[..|status|] == status;
  }

  /** Without a blank line the whole response is the header block and the body is empty. */
  lemma NoBlankNoBody(response: string)
    requires NoCR(response)
    ensures SplitOnce(response, Blank) == (response, "")
  {
    forall j: nat ensures !MatchAt(response, Blank, j) {
      MatchStarts(response, j);
    }
  }

  // ---- UTF-8 ------------------------------------------------------------------------------

  /** The UTF-8 encoding of a character (section 3 of RFC 3629), as byte values. */
  function Utf8Encode(c: char): (bytes: seq<nat>)
    ensures forall i :: 0 <= i < |bytes| ==> bytes[i] < 256
  {
    var v := c as int;
    if v < 0x80 then [v]
    else if v < 0x800 then [0xC0 + v / 64, 0x80 + v % 64]
    else if v < 0x10000 then [0xE0 + v / 4096, 0x80 + (v / 64) % 64, 0x80 + v % 64]
    else [0xF0 + v / 262144, 0x80 + (v / 4096) % 64, 0x80 + (v / 64) % 64, 0x80 + v % 64]
  }

  lemma EncodeWidth(c: char)
    ensures |Utf8Encode(c)| == Utf8Width(c)
  {
  }

  function Utf8EncodeAll(s: string): seq<nat> {
    if |s| == 0 then [] else Utf8Encode(s[0]) + Utf8EncodeAll(s[1..])
  }

  /** `Content-Length` counts exactly the bytes of the encoded body. */
  lemma {:induction false} ContentLengthIsByteCount(s: string)
    ensures Utf8Length(s) == |Utf8EncodeAll(s)|
  {
    if |s| > 0 {
      EncodeWidth(s[0]);
      ContentLengthIsByteCount(s[1..]);
    }
  }

  /** For ASCII data the byte count is the character count. */
  lemma {:induction false} AsciiLength(s: string)
    requires forall i :: 0 <= i < |s| ==> s[i] as int < 0x80
    ensures Utf8Length(s) == |s|
  {
    if |s| > 0 {
      AsciiLength(s[1..]);
    }
  }
}

=== FILE: jsdate.dfy ===
/** The calendar arithmetic of JS `Date` (section 21.4.1 of ECMA-262), over local time.

    An instant is an integer count of milliseconds. The application runs in one fixed
    time zone without daylight saving, so local time is UTC shifted by a constant;
    every instant here is already that local count, which is what the getters and
    setters of `Date` read and write. */
module JsDate {

  const MsPerSecond: int := 1000
  const MsPerMinute: int := 60000
  const MsPerHour: int := 3600000
  const MsPerDay: int := 86400000

  /** Day number since 1970-01-01 (floor division, also for instants before 1970). */
  function Day(t: int): int {
    t / MsPerDay
  }

  function TimeWithinDay(t: int): (r: int)
    ensures 0 <= r < MsPerDay
  {
    t % MsPerDay
  }

  /** Day number of January 1st of year `y` (section 21.4.1.3 of ECMA-262): 365 days a
      year plus the leap days since 1970. */
  function DayFromYear(y: int): int {
    365 * (y - 1970) + (y - 1969) / 4 - (y - 1901) / 100 + (y - 1601) / 400
  }

  function DaysInYear(y: int): int {
    if y % 4 != 0 then 365
    else if y % 100 != 0 then 366
    else if y % 400 != 0 then 365
    else 366
  }

  predicate IsLeap(y: int) {
    DaysInYear(y) == 366
  }

  /** Consecutive years start exactly one year length apart. */
  lemma DayFromYearStep(y: int)
    ensures DayFromYear(y + 1) == DayFromYear(y) + DaysInYear(y)
  {
    FloorStep4(y);
    FloorStep100(y);
    FloorStep400(y);
    LeapCount(y);
    assert DayFromYear(y + 1) - DayFromYear(y)
        == 365 + ((y - 1968) / 4 - (y - 1969) / 4) - ((y - 1900) / 100 - (y - 1901) / 100)
           + ((y - 1600) / 400 - (y - 1601) / 400);
  }

  /** The year length by the three divisibility tests, counted rather than nested. */
  lemma LeapCount(y: int)
    ensures DaysInYear(y)
            == 365 + (if y % 4 == 0 then 1 else 0) - (if y % 100 == 0 then 1 else 0) + (if y % 400 == 0 then 1 else 0)
  {
    if y % 400 == 0 {
      assert y == 100 * (4 * (y / 400));
    }
    if y % 100 == 0 {
      assert y == 4 * (25 * (y / 100));
    }
  }

  /** Each floor term of the closed form grows by one exactly at a year its divisor
      divides. */
  lemma FloorStep4(y: int)
    ensures (y - 1968) / 4 - (y - 1969) / 4 == (if y % 4 == 0 then 1 else 0)
  {
    var q, r := (y - 1969) / 4, (y - 1969) % 4;
    assert y - 1969 == 4 * q + r;
    assert y % 4 == (r + 1) % 4;
  }

  lemma FloorStep100(y: int)
    ensures (y - 1900) / 100 - (y - 1901) / 100 == (if y % 100 == 0 then 1 else 0)
  {
    var q, r := (y - 1901) / 100, (y - 1901) % 100;
    assert y - 1901 == 100 * q + r;
    assert y % 100 == (r + 1) % 100;
  }

  lemma FloorStep400(y: int)
    ensures (y - 1600) / 400 - (y - 1601) / 400 == (if y % 400 == 0 then 1 else 0)
  {
    var q, r := (y - 1601) / 400, (y - 1601) % 400;
    assert y - 1601 == 400 * q + r;
    assert y % 400 == (r + 1) % 400;
  }

  /** 400 years hold 146097 days; the start of a year stays within a few days of that average. */
  lemma DayFromYearBounds(y: int)
    ensures 146097 * (y - 1970) - 506 <= 400 * DayFromYear(y) <= 146097 * (y - 1970) + 589
  {
    var a, b, c := (y - 1969) / 4, (y - 1901) / 100, (y - 1601) / 400;
    assert y - 1972 <= 4 * a <= y - 1969;
    assert y - 2000 <= 100 * b <= y - 1901;
    assert y - 2000 <= 400 * c <= y - 1601;
  }

  lemma DayFromYearStrictlyIncreasing(y1: int, y2: int)
    requires y1 < y2
    ensures DayFromYear(y1) < DayFromYear(y2)
  {
    DayFromYearBounds(y1);
    DayFromYearBounds(y2);
  }

  /** The year containing day `d`: the `y` whose January 1st is not after `d` while the
      next January 1st is. It lies within one year of the estimate `y0`. */
  function YearFromDay(d: int): (y: int)
    ensures StartsYear(d, y)
  {
    var y0 := 1970 + (400 * d) / 146097;
    YearWindow(d, y0);
    YearsAreDisjoint(d);
    var y :| y0 - 1 <= y <= y0 + 1 && StartsYear(d, y); y
  }

  /** The estimate is at most one year off: one of `y0 - 1`, `y0`, `y0 + 1` holds `d`. */
  lemma YearWindow(d: int, y0: int)
    requires y0 == 1970 + (400 * d) / 146097
    ensures StartsYear(d, if d < DayFromYear(y0) then y0 - 1 else if d < DayFromYear(y0 + 1) then y0 else y0 + 1)
  {
    DayFromYearBounds(y0 - 1);
    DayFromYearBounds(y0 + 2);
  }

  predicate StartsYear(d: int, y: int) {
    DayFromYear(y) <= d < DayFromYear(y + 1)
  }

  lemma YearsAreDisjoint(d: int)
    ensures forall y1, y2 :: StartsYear(d, y1) && StartsYear(d, y2) ==> y1 == y2
  {
    forall y1, y2 | StartsYear(d, y1) && StartsYear(d, y2) ensures y1 == y2 {
      if y1 < y2 {
        if y1 + 1 < y2 { DayFromYearStrictlyIncreasing(y1 + 1, y2); }
      } else if y2 < y1 {
        if y2 + 1 < y1 { DayFromYearStrictlyIncreasing(y2 + 1, y1); }
      }
    }
  }

  /** Only one year can contain a given day. */
  lemma YearFromDayUnique(d: int, y: int)
    requires DayFromYear(y) <= d < DayFromYear(y + 1)
    ensures YearFromDay(d) == y
  {
    var z := YearFromDay(d);
    if z < y {
      if z + 1 < y { DayFromYearStrictlyIncreasing(z + 1, y); }
    } else if y < z {
      if y + 1 < z { DayFromYearStrictlyIncreasing(y + 1, z); }
    }
  }

  /** Days before month `m` (0-11, or 12 for the whole year) in a year: the running sums
      0, 31, 59, 90, 120, 151, 181, 212, 243, 273, 304, 334, 365 of the month lengths,
      plus one from March on in a leap year. */
  function CumDays(m: int, leap: bool): (r: int)
    requires 0 <= m <= 12
  {
    CommonCumDays(m) + (if leap && m >= 2 then 1 else 0)
  }

  /** The running sums of the month lengths of a common year. */
  function CommonCumDays(m: int): int {
    if m <= 0 then 0 else if m == 1 then 31 else if m == 2 then 59 else if m == 3 then 90
    else if m == 4 then 120 else if m == 5 then 151 else if m == 6 then 181
    else if m == 7 then 212 else if m == 8 then 243 else if m == 9 then 273
    else if m == 10 then 304 else if m == 11 then 334 else 365
  }

  function MonthLength(m: int, leap: bool): (r: int)
    requires 0 <= m < 12
    ensures 28 <= r <= 31
  {
    CumDays(m + 1, leap) - CumDays(m, leap)
  }

  /** Day-of-year `doy` falls in month `m` (0-11). */
  predicate InMonth(doy: int, leap: bool, m: int) {
    0 <= m < 12 && CumDays(m, leap) <= doy < CumDays(m + 1, leap)
  }

  /** The month holding day-of-year `doy`; months do not overlap, so it is unique. */
  function MonthInYear(doy: int, leap: bool): (r: int)
    requires 0 <= doy < CumDays(12, leap)
    ensures InMonth(doy, leap, r)
  {
    assert InMonth(doy, leap, MonthAtOrBelow(doy, leap, 11));
    MonthsAreDisjoint(doy, leap);
    var m :| 0 <= m < 12 && InMonth(doy, leap, m); m
  }

  /** The largest month up to `m` that starts at or before `doy`. */
  function MonthAtOrBelow(doy: int, leap: bool, m: int): (r: int)
    requires 0 <= m <= 11
    requires 0 <= doy < CumDays(m + 1, leap)
    ensures 0 <= r <= m && CumDays(r, leap) <= doy < CumDays(r + 1, leap)
    decreases m
  {
    if m == 0 || CumDays(m, leap) <= doy then m else MonthAtOrBelow(doy, leap, m - 1)
  }

  lemma {:induction false} CumDaysIncreasing(i: int, j: int, leap: bool)
    requires 0 <= i < j <= 12
    ensures CumDays(i, leap) < CumDays(j, leap)
    decreases j - i
  {
    if i + 1 < j {
      CumDaysIncreasing(i + 1, j, leap);
    }
  }

  lemma MonthsAreDisjoint(doy: int, leap: bool)
    ensures forall m1, m2 :: InMonth(doy, leap, m1) && InMonth(doy, leap, m2) ==> m1 == m2
  {
    forall m1, m2 | InMonth(doy, leap, m1) && InMonth(doy, leap, m2) ensures m1 == m2 {
      if m1 + 1 < m2 { CumDaysIncreasing(m1 + 1, m2, leap); }
      if m2 + 1 < m1 { CumDaysIncreasing(m2 + 1, m1, leap); }
    }
  }

  lemma MonthInYearUnique(doy: int, leap: bool, m: int)
    requires InMonth(doy, leap, m)
    ensures MonthInYear(doy, leap) == m
  {
    MonthsAreDisjoint(doy, leap);
  }

  // ---- getters -------------------------------------------------------------

  function Year(t: int): int {
    YearFromDay(Day(t))
  }

  function DayWithinYear(t: int): (r: int)
    ensures 0 <= r < DaysInYear(Year(t))
  {
    DayFromYearStep(Year(t));
    Day(t) - DayFromYear(Year(t))
  }

  /** `getMonth()`, 0 for January. */
  function Month(t: int): (r: int)
    ensures 0 <= r < 12
  {
    MonthInYear(DayWithinYear(t), IsLeap(Year(t)))
  }

  /** `getDate()`, the day of the month from 1. */
  function Date(t: int): (r: int)
    ensures 1 <= r <= MonthLength(Month(t), IsLeap(Year(t)))
  {
    DayWithinYear(t) - CumDays(Month(t), IsLeap(Year(t))) + 1
  }

  /** `getDay()`: 0 for Sunday (1970-01-01 was a Thursday). */
  function WeekDay(t: int): (r: int)
    ensures 0 <= r < 7
  {
    (Day(t) + 4) % 7
  }

  function Hours(t: int): (r: int)
    ensures 0 <= r < 24
  {
    (t / MsPerHour) % 24
  }

  function Minutes(t: int): (r: int)
    ensures 0 <= r < 60
  {
    (t / MsPerMinute) % 60
  }

  function Seconds(t: int): (r: int)
    ensures 0 <= r < 60
  {
    (t / MsPerSecond) % 60
  }

  function Milliseconds(t: int): (r: int)
    ensures 0 <= r < 1000
  {
    t % MsPerSecond
  }

  // ---- constructors --------------------------------------------------------

  function MakeTime(h: int, m: int, s: int, ms: int): int {
    h * MsPerHour + m * MsPerMinute + s * MsPerSecond + ms
  }

  /** Day number of date `dt` of month `m` of year `y`; out-of-range months carry into
      years and out-of-range dates carry into the following (or preceding) months. */
  function MakeDay(y: int, m: int, dt: int): int {
    var ym := CarryYear(y, m);
    DayFromYear(ym) + CumDays(CarryMonth(m), IsLeap(ym)) + dt - 1
  }

  /** The year a month count `m` of year `y` falls in: whole twelves of months carry
      into the year, also backwards for negative counts. */
  function CarryYear(y: int, m: int): int {
    y + m / 12
  }

  /** The month within that year, 0 to 11. */
  function CarryMonth(m: int): (r: int)
    ensures 0 <= r < 12
  {
    m % 12
  }

  /** Within a year's twelve months no month carry happens. */
  lemma MakeDayInYear(y: int, m: int, dt: int)
    requires 0 <= m < 12
    ensures MakeDay(y, m, dt) == DayFromYear(y) + CumDays(m, IsLeap(y)) + dt - 1
  {
    assert CarryYear(y, m) == y && CarryMonth(m) == m;
  }

  function MakeDate(day: int, time: int): int {
    day * MsPerDay + time
  }

  /** The year the constructor `new Date(y, m, …)` means (section 21.4.2.1 of ECMA-262):
      the two-digit years 0 to 99 stand for 1900 to 1999. The setters have no such rule. */
  function ConstructorYear(y: int): int {
    if 0 <= y <= 99 then 1900 + y else y
  }

  // ---- setters (each keeps the fields it is not given) ----------------------

  function SetFullYear(t: int, y: int): int {
    MakeDate(MakeDay(y, Month(t), Date(t)), TimeWithinDay(t))
  }

  function SetMonth(t: int, m: int): int {
    MakeDate(MakeDay(Year(t), m, Date(t)), TimeWithinDay(t))
  }

  function SetMonthDate(t: int, m: int, dt: int): int {
    MakeDate(MakeDay(Year(t), m, dt), TimeWithinDay(t))
  }

  function SetDate(t: int, dt: int): int {
    MakeDate(MakeDay(Year(t), Month(t), dt), TimeWithinDay(t))
  }

  function SetHours(t: int, h: int): int {
    MakeDate(Day(t), MakeTime(h, Minutes(t), Seconds(t), Milliseconds(t)))
  }

  function SetHoursAll(t: int, h: int, m: int, s: int, ms: int): int {
    MakeDate(Day(t), MakeTime(h, m, s, ms))
  }

  function SetMinutes(t: int, m: int): int {
    MakeDate(Day(t), MakeTime(Hours(t), m, Seconds(t), Milliseconds(t)))
  }

  function SetMinutesAll(t: int, m: int, s: int, ms: int): int {
    MakeDate(Day(t), MakeTime(Hours(t), m, s, ms))
  }

  function SetSecondsAll(t: int, s: int, ms: int): int {
    MakeDate(Day(t), MakeTime(Hours(t), Minutes(t), s, ms))
  }

  // ---- the calendar is a bijection --------------------------------------------

  lemma MakeDateParts(day: int, time: int)
    requires 0 <= time < MsPerDay
    ensures Day(MakeDate(day, time)) == day
    ensures TimeWithinDay(MakeDate(day, time)) == time
  {
  }

  /** The clock fields rebuild the time within the day. */
  lemma TimeFields(t: int)
    ensures MakeTime(Hours(t), Minutes(t), Seconds(t), Milliseconds(t)) == TimeWithinDay(t)
  {
    var s := t / MsPerSecond;
    var mi := t / MsPerMinute;
    var h := t / MsPerHour;
    assert mi == s / 60;
    assert h == mi / 60;
    assert Day(t) == h / 24;
  }

  /** The calendar fields rebuild the day number. */
  lemma DayFields(t: int)
    ensures MakeDay(Year(t), Month(t), Date(t)) == Day(t)
  {
    MakeDayInYear(Year(t), Month(t), Date(t));
  }

  /** A day between the starts of year `y` and of the next year reads back as year `y`. */
  lemma YearOfDay(d: int, y: int, time: int)
    requires DayFromYear(y) <= d < DayFromYear(y + 1) && 0 <= time < MsPerDay
    ensures Day(MakeDate(d, time)) == d && TimeWithinDay(MakeDate(d, time)) == time
    ensures Year(MakeDate(d, time)) == y
  {
    MakeDateParts(d, time);
    YearFromDayUnique(d, y);
  }

  /** Day `d`, given as date `dt` of month `m` of year `y`, reads back as those fields. */
  lemma FieldsOfDay(d: int, y: int, m: int, dt: int, time: int)
    requires 0 <= m < 12 && 1 <= dt <= MonthLength(m, IsLeap(y))
    requires d == DayFromYear(y) + CumDays(m, IsLeap(y)) + dt - 1
    requires 0 <= time < MsPerDay
    ensures var t := MakeDate(d, time);
            Year(t) == y && Month(t) == m && Date(t) == dt && TimeWithinDay(t) == time
  {
    var leap := IsLeap(y);
    DayFromYearStep(y);
    if m < 11 { CumDaysIncreasing(m + 1, 12, leap); }
    YearOfDay(d, y, time);
    MonthDateOfDay(MakeDate(d, time), y, m, dt);
  }

  lemma MonthDateOfDay(t: int, y: int, m: int, dt: int)
    requires 0 <= m < 12 && 1 <= dt <= MonthLength(m, IsLeap(y))
    requires Year(t) == y && Day(t) == DayFromYear(y) + CumDays(m, IsLeap(y)) + dt - 1
    ensures Month(t) == m && Date(t) == dt
  {
    var doy := Day(t) - DayFromYear(y);
    assert DayWithinYear(t) == doy;
    MonthInYearUnique(doy, IsLeap(y), m);
  }

  /** A date inside year `y` reads back as year `y`, month `m`, date `dt`. */
  lemma MakeDayFields(y: int, m: int, dt: int, time: int)
    requires 0 <= m < 12 && 1 <= dt <= MonthLength(m, IsLeap(y))
    requires 0 <= time < MsPerDay
    ensures var t := MakeDate(MakeDay(y, m, dt), time);
            Year(t) == y && Month(t) == m && Date(t) == dt && TimeWithinDay(t) == time
  {
    MakeDayInYear(y, m, dt);
    FieldsOfDay(MakeDay(y, m, dt), y, m, dt, time);
  }

  /** A month and date valid in some year, placed in year `y`, stays inside year `y`
      (February 29th at most spills into March 1st). */
  lemma DateFitsAnyYear(m: int, dt: int, leap: bool, y: int)
    requires 0 <= m < 12 && 1 <= dt <= MonthLength(m, leap)
    ensures 0 <= CumDays(m, IsLeap(y)) + dt - 1 < DaysInYear(y)
  {
    if m < 11 { CumDaysIncreasing(m, 11, IsLeap(y)); }
  }

  /** Two instants with the same year, month and date lie on the same day. */
  lemma SameDateSameDay(t1: int, t2: int)
    requires Year(t1) == Year(t2) && Month(t1) == Month(t2) && Date(t1) == Date(t2)
    ensures Day(t1) == Day(t2)
  {
    DayFields(t1);
    DayFields(t2);
  }

  /** The hour count since the epoch splits into day and hour of day. */
  lemma HourSplit(t: int)
    ensures t / MsPerHour == Day(t) * 24 + Hours(t)
  {
  }

  lemma MinuteSplit(t: int)
    ensures t / MsPerMinute == (t / MsPerHour) * 60 + Minutes(t)
  {
  }

  /** Floor division by a positive divisor: a quotient and remainder in range are the
      ones `/` and `%` give. */
  lemma DivAdd(q: int, r: int, d: int)
    requires 0 <= r < d
    ensures (q * d + r) / d == q && (q * d + r) % d == r
  {
    var x := q * d + r;
    var q', r' := x / d, x % d;
    assert q' * d + r' == q * d + r;
    if q' > q {
      MulStep(q, q', d);
    } else if q' < q {
      MulStep(q', q, d);
    }
  }

  lemma MulStep(a: int, b: int, d: int)
    requires a < b && d > 0
    ensures a * d + d <= b * d
  {
    var k := b - a;
    assert b * d == a * d + k * d;
    assert k * d == (k - 1) * d + d;
    assert (k - 1) * d >= 0;
  }
}

=== FILE: lanes.dfy ===
/** The lane packing of `calculateTaskLayout`: the spanning tasks, sorted by start, go one
    by one into the first lane whose last task they clear by the level's padding, or into a
    new lane when no lane takes them. */
module Lanes {
  import opened Precision
  import opened Tasks
  import opened Sorting

  /** Task `x` lies wholly before `t` widened by `pad` on both sides, or wholly after it;
      touching the widened bounds is allowed. */
  predicate Clears(x: Task, t: Task, pad: int) {
    var lo, hi := t.start - pad, t.end + pad;
    (x.start <= lo && x.end <= lo) || (x.start >= hi && x.end >= hi)
  }

  /** The verdict of the inner loop: `canPlace` is overwritten for every member of the
      lane, so only the last member decides; an empty lane takes any task. */
  predicate Accepts(lane: seq<Task>, x: Task, pad: int) {
    |lane| == 0 || Clears(x, lane[|lane| - 1], pad)
  }

  /** The first lane that takes `x`, or -1. */
  function FirstFit(lanes: seq<seq<Task>>, x: Task, pad: int): (r: int)
    ensures -1 <= r < |lanes|
    ensures r >= 0 ==> Accepts(lanes[r], x, pad)
    ensures forall j :: 0 <= j < |lanes| && (r == -1 || j < r) ==> !Accepts(lanes[j], x, pad)
  {
    if |lanes| == 0 then -1
    else if Accepts(lanes[0], x, pad) then 0
    else var k := FirstFit(lanes[1..], x, pad); if k == -1 then -1 else k + 1
  }

  /** Places one task: appended to the first lane that takes it, else alone in a new lane. */
  function PlaceTask(lanes: seq<seq<Task>>, x: Task, pad: int): (r: seq<seq<Task>>)
    ensures var k := FirstFit(lanes, x, pad);
      if k == -1 then r == lanes + [[x]]
      else |r| == |lanes| && r[k] == lanes[k] + [x]
           && forall j :: 0 <= j < |lanes| && j != k ==> r[j] == lanes[j]
  {
    var k := FirstFit(lanes, x, pad);
    if k >= 0 then lanes[k := lanes[k] + [x]] else lanes + [[x]]
  }

  /** The packing loop, starting from one empty lane. */
  function Pack(s: seq<Task>, pad: int): (r: seq<seq<Task>>)
    ensures |r| >= 1
  {
    if |s| == 0 then [[]]
    else PlaceTask(Pack(s[..|s| - 1], pad), s[|s| - 1], pad)
  }

  /** The lanes of the spanning tasks at level `p`. */
  function LanesFor(spanning: seq<Task>, p: Precision): seq<seq<Task>> {
    Pack(Sort(spanning, ByStart), Span(p))
  }

  // ---- every task is placed exactly once ---------------------------------------------

  /** All tasks in the lanes, counted with multiplicity. */
  function AllTasks(lanes: seq<seq<Task>>): multiset<Task> {
    if |lanes| == 0 then multiset{}
    else AllTasks(lanes[..|lanes| - 1]) + multiset(lanes[|lanes| - 1])
  }

  lemma {:induction false} AllTasksUpdate(lanes: seq<seq<Task>>, k: int, lane: seq<Task>)
    requires 0 <= k < |lanes|
    ensures AllTasks(lanes[k := lane]) + multiset(lanes[k]) == AllTasks(lanes) + multiset(lane)
  {
    var n := |lanes| - 1;
    var u := lanes[k := lane];
    AllTasksLast(u);
    AllTasksLast(lanes);
    if k < n {
      assert u[..n] == lanes[..n][k := lane];
      assert u[n] == lanes[n];
      assert lanes[..n][k] == lanes[k];
      AllTasksUpdate(lanes[..n], k, lane);
      Shuffle(AllTasks(lanes[..n][k := lane]), AllTasks(lanes[..n]), multiset(lanes[k]),
              multiset(lane), multiset(lanes[n]));
    } else {
      assert u[..n] == lanes[..n];
    }
  }

  lemma AllTasksLast(lanes: seq<seq<Task>>)
    requires |lanes| > 0
    ensures AllTasks(lanes) == AllTasks(lanes[..|lanes| - 1]) + multiset(lanes[|lanes| - 1])
  {
  }

  lemma Shuffle(a: multiset<Task>, b: multiset<Task>, before: multiset<Task>, after: multiset<Task>, m: multiset<Task>)
    requires a + before == b + after
    ensures (a + m) + before == (b + m) + after
  {
    assert (a + m) + before == (a + before) + m;
    assert (b + m) + after == (b + after) + m;
  }

  lemma AllTasksAppend(lanes: seq<seq<Task>>, lane: seq<Task>)
    ensures AllTasks(lanes + [lane]) == AllTasks(lanes) + multiset(lane)
  {
    assert (lanes + [lane])[..|lanes|] == lanes;
  }

  lemma PlaceTaskAddsOne(lanes: seq<seq<Task>>, x: Task, pad: int)
    ensures AllTasks(PlaceTask(lanes, x, pad)) == AllTasks(lanes) + multiset{x}
  {
    var k := FirstFit(lanes, x, pad);
    if k >= 0 {
      var r := PlaceTask(lanes, x, pad);
      assert r == lanes[k := lanes[k] + [x]];
      AllTasksUpdate(lanes, k, lanes[k] + [x]);
      assert multiset(lanes[k] + [x]) == multiset(lanes[k]) + multiset{x};
      Cancel(AllTasks(r), AllTasks(lanes) + multiset{x}, multiset(lanes[k]));
    } else {
      AllTasksAppend(lanes, [x]);
    }
  }

  lemma Cancel(a: multiset<Task>, b: multiset<Task>, m: multiset<Task>)
    requires a + m == b + m
    ensures a == b
  {
    forall o ensures a[o] == b[o] {
      assert (a + m)[o] == (b + m)[o];
    }
  }

  /** Every task goes into exactly one lane, once. */
  lemma {:induction false} PackPlacesEveryTaskOnce(s: seq<Task>, pad: int)
    ensures AllTasks(Pack(s, pad)) == multiset(s)
  {
    if |s| == 0 {
      var none: seq<Task> := [];
      assert [[]] == [none];
      assert AllTasks([none]) == AllTasks([]) + multiset(none);
    } else {
      var init, last := s[..|s| - 1], s[|s| - 1];
      assert s == init + [last];
      PackPlacesEveryTaskOnce(init, pad);
      PlaceTaskAddsOne(Pack(init, pad), last, pad);
    }
  }

  /** Once a task exists no lane is empty: the first task fills the initial empty lane and
      every later lane is opened with a task in it. */
  lemma {:induction false} PackHasNoEmptyLane(s: seq<Task>, pad: int)
    requires |s| > 0
    ensures forall i :: 0 <= i < |Pack(s, pad)| ==> |Pack(s, pad)[i]| > 0
  {
    var init, last := s[..|s| - 1], s[|s| - 1];
    if |init| == 0 {
      assert Pack(init, pad) == [[]];
      assert FirstFit([[]], last, pad) == 0;
    } else {
      PackHasNoEmptyLane(init, pad);
    }
  }

  // ---- lanes are ordered and padded apart ----------------------------------------

  /** Within a lane every later task starts at least `pad` after every earlier one ends. */
  predicate PaddedApart(lane: seq<Task>, pad: int) {
    forall i, j :: 0 <= i < j < |lane| ==> lane[j].start >= lane[i].end + pad
  }

  predicate WellFormed(x: Task) {
    x.start <= x.end
  }

  /** Every member of `lanes` is well-formed and starts no later than `x`. */
  predicate AllBefore(lanes: seq<seq<Task>>, x: Task) {
    forall m :: m in AllTasks(lanes) ==> WellFormed(m) && m.start <= x.start
  }

  lemma MemberOfLane(lanes: seq<seq<Task>>, i: int, j: int)
    requires 0 <= i < |lanes| && 0 <= j < |lanes[i]|
    ensures lanes[i][j] in AllTasks(lanes)
  {
    var n := |lanes| - 1;
    if i < n {
      MemberOfLane(lanes[..n], i, j);
    }
  }

  /** With the tasks arriving in start order, clearing the last member of a padded-apart
      lane is the same as clearing every member. */
  lemma LastMemberSuffices(lane: seq<Task>, x: Task, pad: int)
    requires pad > 0 && PaddedApart(lane, pad) && WellFormed(x)
    requires forall i :: 0 <= i < |lane| ==> WellFormed(lane[i]) && lane[i].start <= x.start
    ensures Accepts(lane, x, pad) <==> forall i :: 0 <= i < |lane| ==> Clears(x, lane[i], pad)
  {
    if |lane| > 0 && Accepts(lane, x, pad) {
      var last := lane[|lane| - 1];
      forall i | 0 <= i < |lane| ensures Clears(x, lane[i], pad) {
        if i < |lane| - 1 {
          assert last.start >= lane[i].end + pad;
        }
      }
    }
  }

  lemma PlaceTaskKeepsApart(lanes: seq<seq<Task>>, x: Task, pad: int)
    requires pad > 0 && WellFormed(x) && AllBefore(lanes, x)
    requires forall i :: 0 <= i < |lanes| ==> PaddedApart(lanes[i], pad)
    ensures forall i :: 0 <= i < |PlaceTask(lanes, x, pad)| ==> PaddedApart(PlaceTask(lanes, x, pad)[i], pad)
  {
    var k := FirstFit(lanes, x, pad);
    if k >= 0 {
      var lane := lanes[k];
      if |lane| > 0 {
        var n := |lane| - 1;
        MemberOfLane(lanes, k, n);
        forall i | 0 <= i < n ensures x.start >= lane[i].end + pad {
          assert lane[n].start >= lane[i].end + pad;
        }
      }
      assert PaddedApart(lane + [x], pad);
    }
  }

  /** Packing tasks sorted by start, each starting no later than it ends, yields lanes in
      start order whose tasks are padded apart. */
  lemma {:induction false} PackedLanesApart(s: seq<Task>, pad: int)
    requires pad > 0 && Sorted(s, ByStart)
    requires forall i :: 0 <= i < |s| ==> WellFormed(s[i])
    ensures forall l :: 0 <= l < |Pack(s, pad)| ==> PaddedApart(Pack(s, pad)[l], pad)
    ensures forall l, i, j :: 0 <= l < |Pack(s, pad)| && 0 <= i < j < |Pack(s, pad)[l]|
              ==> Pack(s, pad)[l][i].start <= Pack(s, pad)[l][j].start
  {
    if |s| > 0 {
      var init, last := s[..|s| - 1], s[|s| - 1];
      assert Sorted(init, ByStart);
      PackedLanesApart(init, pad);
      var lanes := Pack(init, pad);
      PackPlacesEveryTaskOnce(init, pad);
      forall m | m in AllTasks(lanes) ensures WellFormed(m) && m.start <= last.start {
        var j :| 0 <= j < |init| && init[j] == m;
        assert s[j] == m;
      }
      PlaceTaskKeepsApart(lanes, last, pad);
    }
    forall l, i, j | 0 <= l < |Pack(s, pad)| && 0 <= i < j < |Pack(s, pad)[l]|
      ensures Pack(s, pad)[l][i].start <= Pack(s, pad)[l][j].start
    {
      MemberOfLane(Pack(s, pad), l, i);
      PackPlacesEveryTaskOnce(s, pad);
      var k :| 0 <= k < |s| && s[k] == Pack(s, pad)[l][i];
    }
  }

  /** The lanes of the layout pass: start order and padding hold whenever every spanning
      task starts no later than it ends. */
  lemma LanesForApart(spanning: seq<Task>, p: Precision)
    requires forall i :: 0 <= i < |spanning| ==> WellFormed(spanning[i])
    ensures AllTasks(LanesFor(spanning, p)) == multiset(spanning)
    ensures forall l :: 0 <= l < |LanesFor(spanning, p)| ==> PaddedApart(LanesFor(spanning, p)[l], Span(p))
  {
    var sorted := Sort(spanning, ByStart);
    forall i | 0 <= i < |sorted| ensures WellFormed(sorted[i]) {
      assert sorted[i] in multiset(spanning);
    }
    PackPlacesEveryTaskOnce(sorted, Span(p));
    PackedLanesApart(sorted, Span(p));
  }

  /** Touching the padded bound is no conflict: a task starting exactly one padding after
      a lane's last task ends joins that lane. */
  lemma TouchingTaskSharesTheLane(a: Task, x: Task, pad: int)
    requires x.start == a.end + pad && x.start <= x.end
    ensures PlaceTask([[a]], x, pad) == [[a, x]]
  {
    assert Accepts([a], x, pad);
    assert FirstFit([[a]], x, pad) == 0;
    assert [a] + [x] == [a, x];
  }

  /** The lane check looks at the last member only: a lane can take a task that overlaps
      an earlier member when the tasks do not arrive in start order. */
  lemma OnlyTheLastMemberIsChecked()
    ensures var a := Task(1, "", "", Todo, 0.0, 0, 10, []);
            var b := Task(2, "", "", Todo, 0.0, 100, 110, []);
            var x := Task(3, "", "", Todo, 0.0, 5, 8, []);
            Accepts([a, b], x, 1) && !Clears(x, a, 1)
  {
  }
}

=== FILE: layout.dfy ===
/** The second half of `calculateTaskLayout`: a bar for every packed spanning task, and a
    grid of small squares inside the cell of every indicator bucket. Cell boxes are
    measured by the browser and enter as inputs. */
module Layout {
  import opened Wrappers
  import opened Seqs
  import opened Precision
  import opened Ticks
  import opened Tasks
  import opened Sorting
  import opened Classify
  import opened Lanes

  /** A box in pixels, as `getBoundingClientRect` reports it. */
  datatype Rect = Rect(left: real, top: real, right: real, width: real)

  /** What the layout pass measures: the date cells' boxes, the scroll container's box
      and its horizontal scroll offset. */
  datatype View = View(cells: seq<Rect>, container: Rect, scrollLeft: real)

  /** One entry of `taskLayout`. */
  datatype Item = Item(id: int, left: real, width: real, top: real, isIndicator: bool, color: string)

  // ---- bars ---------------------------------------------------------------------

  const LaneHeight: real := 30.0

  /** The top of the bars of lane `l`: 30 pixels per lane, below a 30-pixel header. */
  function LaneTop(l: int): real {
    LaneHeight + LaneHeight * l as real
  }

  function RealMax(a: real, b: real): (r: real)
    ensures r >= a && r >= b && (r == a || r == b)
  {
    if a >= b then a else b
  }

  /** The cell a bar starts in: the start's bucket, or the first cell when the start is off
      the axis. */
  function StartCell(si: int): int {
    if si == -1 then 0 else si
  }

  /** The cell a bar ends in: the end's bucket, or the last cell when the end is off the
      axis. */
  function EndCell(ei: int, cellCount: int): int {
    if ei == -1 then cellCount - 1 else ei
  }

  /** The bar of task `x` in lane `lane`, or nothing when both ends are off the axis or a
      clamped index has no rendered cell. */
  function Bar(x: Task, lane: nat, dates: seq<int>, p: Precision, v: View): (r: Option<Item>)
    ensures r.None? <==>
      var si, ei := FirstInBucket(dates, x.start, p), FirstInBucket(dates, x.end, p);
      (si == -1 && ei == -1) || StartCell(si) >= |v.cells| || !(0 <= EndCell(ei, |v.cells|) < |v.cells|)
    ensures r.Some? ==>
      var si, ei := FirstInBucket(dates, x.start, p), FirstInBucket(dates, x.end, p);
      0 <= StartCell(si) < |v.cells| && 0 <= EndCell(ei, |v.cells|) < |v.cells| &&
      var a, b := v.cells[StartCell(si)], v.cells[EndCell(ei, |v.cells|)];
      && r.value.top == LaneTop(lane)
      && r.value.width == RealMax(b.right - a.left, a.width * 0.5)
      && r.value.left == a.left - v.container.left + v.scrollLeft
      && r.value.id == x.id && !r.value.isIndicator && r.value.color == TaskColor(x)
  {
    var si, ei := FirstInBucket(dates, x.start, p), FirstInBucket(dates, x.end, p);
    if si == -1 && ei == -1 then None
    else
      var s, e := StartCell(si), EndCell(ei, |v.cells|);
      if s >= |v.cells| || e < 0 || e >= |v.cells| then None
      else
        var a, b := v.cells[s], v.cells[e];
        Some(Item(x.id, a.left - v.container.left + v.scrollLeft,
                  RealMax(b.right - a.left, a.width * 0.5),
                  LaneTop(lane), false, TaskColor(x)))
  }

  /** When the cells are exactly the rendered ticks, a bar is skipped only when both of its
      ends are off the axis. */
  lemma BarSkippedOnlyOffAxis(x: Task, lane: nat, dates: seq<int>, p: Precision, v: View)
    requires |v.cells| == |dates|
    ensures Bar(x, lane, dates, p, v).None? <==>
      FirstInBucket(dates, x.start, p) == -1 && FirstInBucket(dates, x.end, p) == -1
  {
  }

  /** The bars of one lane, in lane order: every item is the bar of one of the lane's
      tasks, and every task of the lane that gets a bar has it among the items. */
  function LaneBars(lane: seq<Task>, index: nat, dates: seq<int>, p: Precision, v: View): (r: seq<Item>)
    ensures |r| <= |lane|
    ensures forall it :: it in r ==> !it.isIndicator && it.top == LaneTop(index)
    ensures forall it :: it in r ==> exists x :: x in lane && x.id == it.id
    ensures forall it :: it in r ==> exists x :: x in lane && Bar(x, index, dates, p, v) == Some(it)
    ensures forall x :: x in lane && Bar(x, index, dates, p, v).Some? ==> Bar(x, index, dates, p, v).value in r
  {
    if |lane| == 0 then []
    else
      var rest := LaneBars(lane[1..], index, dates, p, v);
      LaneBarsStep(lane, rest, index, dates, p, v);
      match Bar(lane[0], index, dates, p, v)
      case None => rest
      case Some(it) => [it] + rest
  }

  /** One step of `LaneBars`: the bar of the lane's first task, if any, goes in front of
      the bars of the rest, and every item stays a bar of some task of the lane. */
  lemma LaneBarsStep(lane: seq<Task>, rest: seq<Item>, index: nat, dates: seq<int>, p: Precision, v: View)
    requires |lane| > 0
    requires forall it :: it in rest ==> exists y :: y in lane[1..] && Bar(y, index, dates, p, v) == Some(it)
    requires forall y :: y in lane[1..] && Bar(y, index, dates, p, v).Some? ==> Bar(y, index, dates, p, v).value in rest
    ensures var b := Bar(lane[0], index, dates, p, v);
      var r := if b.Some? then [b.value] + rest else rest;
      && (forall it :: it in r ==> !it.isIndicator && it.top == LaneTop(index))
      && (forall it :: it in r ==> exists y :: y in lane && y.id == it.id)
      && (forall it :: it in r ==> exists y :: y in lane && Bar(y, index, dates, p, v) == Some(it))
      && (forall y :: y in lane && Bar(y, index, dates, p, v).Some? ==> Bar(y, index, dates, p, v).value in r)
  {
    var b := Bar(lane[0], index, dates, p, v);
    var r := if b.Some? then [b.value] + rest else rest;
    LaneBarsStepSound(lane, rest, r, index, dates, p, v);
    LaneBarsStepFacts(lane, r, index, dates, p, v);
    LaneBarsStepComplete(lane, rest, r, index, dates, p, v);
  }

  lemma LaneBarsStepSound(lane: seq<Task>, rest: seq<Item>, r: seq<Item>, index: nat, dates: seq<int>, p: Precision, v: View)
    requires |lane| > 0
    requires forall it :: it in rest ==> exists y :: y in lane[1..] && Bar(y, index, dates, p, v) == Some(it)
    requires r == if Bar(lane[0], index, dates, p, v).Some? then [Bar(lane[0], index, dates, p, v).value] + rest else rest
    ensures forall it :: it in r ==> exists y :: y in lane && Bar(y, index, dates, p, v) == Some(it)
  {
    forall it | it in r
      ensures exists y :: y in lane && Bar(y, index, dates, p, v) == Some(it)
    {
      if it !in rest {
        assert lane[0] in lane;
      } else {
        var y :| y in lane[1..] && Bar(y, index, dates, p, v) == Some(it);
        assert y in lane;
      }
    }
  }

  lemma LaneBarsStepFacts(lane: seq<Task>, r: seq<Item>, index: nat, dates: seq<int>, p: Precision, v: View)
    requires forall it :: it in r ==> exists y :: y in lane && Bar(y, index, dates, p, v) == Some(it)
    ensures forall it :: it in r ==> !it.isIndicator && it.top == LaneTop(index)
    ensures forall it :: it in r ==> exists y :: y in lane && y.id == it.id
  {
    forall it | it in r
      ensures !it.isIndicator && it.top == LaneTop(index)
      ensures exists y :: y in lane && y.id == it.id
    {
      var y :| y in lane && Bar(y, index, dates, p, v) == Some(it);
    }
  }

  lemma LaneBarsStepComplete(lane: seq<Task>, rest: seq<Item>, r: seq<Item>, index: nat, dates: seq<int>, p: Precision, v: View)
    requires |lane| > 0
    requires forall y :: y in lane[1..] && Bar(y, index, dates, p, v).Some? ==> Bar(y, index, dates, p, v).value in rest
    requires r == if Bar(lane[0], index, dates, p, v).Some? then [Bar(lane[0], index, dates, p, v).value] + rest else rest
    ensures forall y :: y in lane && Bar(y, index, dates, p, v).Some? ==> Bar(y, index, dates, p, v).value in r
  {
    var b := Bar(lane[0], index, dates, p, v);
    assert b.Some? ==> b.value in r;
    assert forall it :: it in rest ==> it in r;
    assert forall y :: y in lane ==> y == lane[0] || y in lane[1..] by {
      assert lane == [lane[0]] + lane[1..];
    }
  }

  /** The bars keep the lane's order: the bars of two runs of tasks one after the other are
      the bars of the first run followed by those of the second. */
  lemma {:induction false} LaneBarsAppend(a: seq<Task>, b: seq<Task>, index: nat, dates: seq<int>, p: Precision, v: View)
    ensures LaneBars(a + b, index, dates, p, v) == LaneBars(a, index, dates, p, v) + LaneBars(b, index, dates, p, v)
  {
    if |a| == 0 {
      assert a + b == b;
    } else {
      var ab := a + b;
      assert ab[0] == a[0];
      assert ab[1..] == a[1..] + b;
      LaneBarsAppend(a[1..], b, index, dates, p, v);
      var tailA, tailB := LaneBars(a[1..], index, dates, p, v), LaneBars(b, index, dates, p, v);
      match Bar(a[0], index, dates, p, v)
      case None =>
        assert LaneBars(ab, index, dates, p, v) == LaneBars(ab[1..], index, dates, p, v);
        assert LaneBars(a, index, dates, p, v) == tailA;
      case Some(it) =>
        assert LaneBars(ab, index, dates, p, v) == [it] + LaneBars(ab[1..], index, dates, p, v);
        assert LaneBars(a, index, dates, p, v) == [it] + tailA;
        AppendAssoc([it], tailA, tailB);
    }
  }

  /** A single task gives its bar, or nothing when it has none. */
  lemma LaneBarsOfOne(x: Task, index: nat, dates: seq<int>, p: Precision, v: View)
    ensures LaneBars([x], index, dates, p, v) == if Bar(x, index, dates, p, v).Some? then [Bar(x, index, dates, p, v).value] else []
  {
    assert [x][1..] == [];
  }

  /** The bars of all lanes, lane by lane from lane `from` on. */
  function AllBars(lanes: seq<seq<Task>>, from: nat, dates: seq<int>, p: Precision, v: View): (r: seq<Item>)
    requires from <= |lanes|
    ensures forall it :: it in r ==> !it.isIndicator
    ensures forall it :: it in r ==> exists l :: from <= l < |lanes| && it.top == LaneTop(l)
    ensures forall it :: it in r ==> exists x :: x in AllTasks(lanes) && x.id == it.id
    decreases |lanes| - from
  {
    if from == |lanes| then []
    else
      var here := LaneBars(lanes[from], from, dates, p, v);
      forall it | it in here ensures exists x :: x in AllTasks(lanes) && x.id == it.id {
        var x :| x in lanes[from] && x.id == it.id;
        var j :| 0 <= j < |lanes[from]| && lanes[from][j] == x;
        MemberOfLane(lanes, from, j);
      }
      here + AllBars(lanes, from + 1, dates, p, v)
  }

  /** Every packed task that gets a bar has it among the bars. */
  lemma {:induction false} AllBarsComplete(lanes: seq<seq<Task>>, from: nat, dates: seq<int>, p: Precision, v: View, l: int, j: int)
    requires from <= l < |lanes| && 0 <= j < |lanes[l]| && Bar(lanes[l][j], l, dates, p, v).Some?
    ensures Bar(lanes[l][j], l, dates, p, v).value in AllBars(lanes, from, dates, p, v)
    decreases |lanes| - from
  {
    var here := LaneBars(lanes[from], from, dates, p, v);
    var rest := AllBars(lanes, from + 1, dates, p, v);
    assert AllBars(lanes, from, dates, p, v) == here + rest;
    if l == from {
      assert lanes[l][j] in lanes[l];
    } else {
      AllBarsComplete(lanes, from + 1, dates, p, v, l, j);
    }
  }

  // ---- indicators ---------------------------------------------------------------

  const IndicatorWidth: real := 8.0
  const IndicatorStep: real := 10.0

  /** `indicatorsPerRow`: how many 8-pixel squares with 2-pixel gaps fit in the cell's
      width, at least one. */
  function PerRow(cellWidth: real): (r: int)
    ensures r >= 1
    ensures (r as real) * IndicatorStep <= RealMax(cellWidth, IndicatorStep) < (r as real + 1.0) * IndicatorStep
  {
    var n := (cellWidth / IndicatorStep).Floor;
    if n >= 1 then n else 1
  }

  function Row(k: nat, perRow: int): int requires perRow >= 1 { k / perRow }
  function Col(k: nat, perRow: int): int requires perRow >= 1 { k % perRow }

  /** Grid slots are row by row; distinct positions get distinct slots. */
  lemma SlotsDistinct(k1: nat, k2: nat, perRow: int)
    requires perRow >= 1
    ensures 0 <= Col(k1, perRow) < perRow
    ensures k1 == k2 <==> Row(k1, perRow) == Row(k2, perRow) && Col(k1, perRow) == Col(k2, perRow)
  {
    assert k1 == perRow * Row(k1, perRow) + Col(k1, perRow);
    assert k2 == perRow * Row(k2, perRow) + Col(k2, perRow);
  }

  /** The squares of one cell's tasks, in list order: task `k` goes to row `Row(k)` and
      column `Col(k)` of a grid of 10-pixel steps anchored at the cell's top-left corner. */
  function CellIndicators(tasks: seq<Task>, cell: Rect, v: View): (r: seq<Item>)
    ensures |r| == |tasks|
    ensures forall k :: 0 <= k < |r| ==>
      (r[k].id == tasks[k].id && r[k].isIndicator
       && r[k].width == IndicatorWidth && r[k].color == TaskColor(tasks[k]))
    ensures forall k :: 0 <= k < |r| ==>
      r[k].left == cell.left - v.container.left + v.scrollLeft + (Col(k, PerRow(cell.width)) as real) * IndicatorStep
      && r[k].top == cell.top - v.container.top + (Row(k, PerRow(cell.width)) as real) * IndicatorStep
  {
    var perRow := PerRow(cell.width);
    var left0, top0 := cell.left - v.container.left + v.scrollLeft, cell.top - v.container.top;
    seq(|tasks|, k requires 0 <= k < |tasks| =>
      Item(tasks[k].id, left0 + (Col(k, perRow) as real) * IndicatorStep, IndicatorWidth,
           top0 + (Row(k, perRow) as real) * IndicatorStep, true, TaskColor(tasks[k])))
  }

  /** Two squares of one cell never overlap: they are a full step apart across or down. */
  lemma IndicatorsApart(tasks: seq<Task>, cell: Rect, v: View, k1: nat, k2: nat)
    requires k1 < |tasks| && k2 < |tasks| && k1 != k2
    ensures var r := CellIndicators(tasks, cell, v);
      r[k1].left - r[k2].left >= IndicatorStep || r[k2].left - r[k1].left >= IndicatorStep
      || r[k1].top - r[k2].top >= IndicatorStep || r[k2].top - r[k1].top >= IndicatorStep
  {
    var perRow := PerRow(cell.width);
    SlotsDistinct(k1, k2, perRow);
  }

  /** The squares of every cell that has a rendered box, in the order the cells were first
      used. */
  function AllIndicators(cells: seq<CellList>, v: View): (r: seq<Item>)
    ensures forall it :: it in r ==> it.isIndicator
    ensures forall it :: it in r ==> exists i, x :: 0 <= i < |cells| && x in cells[i].tasks && x.id == it.id
  {
    if |cells| == 0 then []
    else
      var rest := AllIndicators(cells[1..], v);
      var c := cells[0];
      forall it | it in rest
        ensures exists i, x :: 0 <= i < |cells| && x in cells[i].tasks && x.id == it.id
      {
        var i, x :| 0 <= i < |cells[1..]| && x in cells[1..][i].tasks && x.id == it.id;
        assert cells[i + 1] == cells[1..][i];
      }
      if 0 <= c.cell < |v.cells| then
        var here := CellIndicators(c.tasks, v.cells[c.cell], v);
        forall it | it in here ensures exists i, x :: 0 <= i < |cells| && x in cells[i].tasks && x.id == it.id {
          var k :| 0 <= k < |here| && here[k] == it;
          assert c.tasks[k] in cells[0].tasks;
        }
        here + rest
      else rest
  }

  /** Every task of a cell that has a rendered box gets its square. */
  lemma {:induction false} AllIndicatorsComplete(cells: seq<CellList>, v: View, i: int, k: int)
    requires 0 <= i < |cells| && 0 <= cells[i].cell < |v.cells| && 0 <= k < |cells[i].tasks|
    ensures CellIndicators(cells[i].tasks, v.cells[cells[i].cell], v)[k] in AllIndicators(cells, v)
  {
    var rest := AllIndicators(cells[1..], v);
    var c := cells[0];
    var all := AllIndicators(cells, v);
    if i == 0 {
      var here := CellIndicators(c.tasks, v.cells[c.cell], v);
      assert all == here + rest;
      assert here[k] in here;
    } else {
      assert cells[1..][i - 1] == cells[i];
      AllIndicatorsComplete(cells[1..], v, i - 1, k);
      if 0 <= c.cell < |v.cells| {
        assert all == CellIndicators(c.tasks, v.cells[c.cell], v) + rest;
      } else {
        assert all == rest;
      }
    }
  }

  /** The squares keep the cells' order: the squares of two runs of cells are those of the
      first run followed by those of the second. */
  lemma {:induction false} AllIndicatorsAppend(a: seq<CellList>, b: seq<CellList>, v: View)
    ensures AllIndicators(a + b, v) == AllIndicators(a, v) + AllIndicators(b, v)
  {
    if |a| == 0 {
      assert a + b == b;
    } else {
      assert (a + b)[0] == a[0];
      assert (a + b)[1..] == a[1..] + b;
      AllIndicatorsAppend(a[1..], b, v);
    }
  }

  // ---- the whole pass -------------------------------------------------------------

  /** `calculateTaskLayout`: no items without tasks or without rendered cells; otherwise
      the bars lane by lane, then the squares cell by cell. */
  function TaskLayout(tasks: seq<Task>, dates: seq<int>, p: Precision, v: View): (r: seq<Item>)
    ensures |tasks| == 0 || |v.cells| == 0 ==> r == []
    ensures forall i, j :: 0 <= i < j < |r| && r[i].isIndicator ==> r[j].isIndicator
  {
    LayoutWith(tasks, PlacerFor(dates, p), dates, p, v)
  }

  function LayoutWith(tasks: seq<Task>, place: Task -> Place, dates: seq<int>, p: Precision, v: View): (r: seq<Item>)
    ensures forall i, j :: 0 <= i < j < |r| && r[i].isIndicator ==> r[j].isIndicator
  {
    if |tasks| == 0 || |v.cells| == 0 then []
    else
      var cls := ClassifyAll(Sort(tasks, ByPriorityThenStart), place);
      var bars, squares := AllBars(LanesFor(cls.spanning, p), 0, dates, p, v), AllIndicators(cls.cells, v);
      BarsThenSquares(bars, squares);
      bars + squares
  }

  lemma BarsThenSquares(bars: seq<Item>, squares: seq<Item>)
    requires forall it :: it in bars ==> !it.isIndicator
    requires forall it :: it in squares ==> it.isIndicator
    ensures var r := bars + squares;
      forall i, j :: 0 <= i < j < |r| && r[i].isIndicator ==> r[j].isIndicator
  {
    var r := bars + squares;
    forall i | 0 <= i < |r| ensures r[i].isIndicator <==> |bars| <= i {
      if i < |bars| {
        assert r[i] == bars[i] && bars[i] in bars;
      } else {
        assert r[i] == squares[i - |bars|] && squares[i - |bars|] in squares;
      }
    }
  }

  /** Nothing that can be drawn is missing: every packed task that gets a bar has it in
      the layout, and so does every square of a cell with a rendered box. */
  lemma EveryDrawableItemDrawn(tasks: seq<Task>, dates: seq<int>, p: Precision, v: View)
    requires |tasks| > 0 && |v.cells| > 0
    ensures var cls := ClassifyAll(Sort(tasks, ByPriorityThenStart), PlacerFor(dates, p));
      var lanes := LanesFor(cls.spanning, p);
      var r := TaskLayout(tasks, dates, p, v);
      && (forall l, j :: 0 <= l < |lanes| && 0 <= j < |lanes[l]| && Bar(lanes[l][j], l, dates, p, v).Some?
            ==> Bar(lanes[l][j], l, dates, p, v).value in r)
      && (forall i, k :: 0 <= i < |cls.cells| && 0 <= cls.cells[i].cell < |v.cells| && 0 <= k < |cls.cells[i].tasks|
            ==> CellIndicators(cls.cells[i].tasks, v.cells[cls.cells[i].cell], v)[k] in r)
  {
    var cls := ClassifyAll(Sort(tasks, ByPriorityThenStart), PlacerFor(dates, p));
    var bars, squares := AllBars(LanesFor(cls.spanning, p), 0, dates, p, v), AllIndicators(cls.cells, v);
    assert TaskLayout(tasks, dates, p, v) == bars + squares;
    var lanes := LanesFor(cls.spanning, p);
    forall l, j | 0 <= l < |lanes| && 0 <= j < |lanes[l]| && Bar(lanes[l][j], l, dates, p, v).Some?
      ensures Bar(lanes[l][j], l, dates, p, v).value in bars
    {
      AllBarsComplete(lanes, 0, dates, p, v, l, j);
    }
    forall i, k | 0 <= i < |cls.cells| && 0 <= cls.cells[i].cell < |v.cells| && 0 <= k < |cls.cells[i].tasks|
      ensures CellIndicators(cls.cells[i].tasks, v.cells[cls.cells[i].cell], v)[k] in squares
    {
      AllIndicatorsComplete(cls.cells, v, i, k);
    }
  }

  // ---- the list the component keeps ------------------------------------------------

  /** `calculateTaskLayout` on the component's list `current`: without tasks or rendered
      cells the list is cleared; otherwise the new items are pushed after whatever the list
      holds. Start-up, zooming and extending the axis clear the list before the call;
      saving, deleting and importing tasks do not. */
  function CalculateTaskLayout(current: seq<Item>, tasks: seq<Task>, dates: seq<int>, p: Precision, v: View): (r: seq<Item>)
    ensures |tasks| == 0 || |v.cells| == 0 ==> r == []
    ensures |tasks| > 0 && |v.cells| > 0 ==>
      |r| == |current| + |TaskLayout(tasks, dates, p, v)| && r[..|current|] == current
  {
    if |tasks| == 0 || |v.cells| == 0 then [] else current + TaskLayout(tasks, dates, p, v)
  }

  /** `taskLayout.find(t => t.id === id)` in `getTaskPosition`: the index of the first item
      drawn for the id, or -1. */
  function FindItem(items: seq<Item>, id: int): int {
    FirstIndex(items, (x: Item) => x.id, id)
  }

  /** After a save, delete or import the list is not cleared, so a task that was drawn
      before keeps the position it had: `getTaskPosition` finds the old item, whatever the
      new task list says. */
  lemma StaleItemFoundFirst(current: seq<Item>, tasks: seq<Task>, dates: seq<int>, p: Precision, v: View, id: int)
    requires |tasks| > 0 && |v.cells| > 0 && FindItem(current, id) != -1
    ensures var r := CalculateTaskLayout(current, tasks, dates, p, v);
      FindItem(r, id) == FindItem(current, id) && r[FindItem(r, id)] == current[FindItem(current, id)]
  {
    var r := CalculateTaskLayout(current, tasks, dates, p, v);
    assert forall j :: 0 <= j < |current| ==> r[j] == current[j];
  }

  /** With the list cleared first, as zooming and extending the axis do, every position
      found belongs to a task of the current list. */
  lemma FreshPositionIsCurrent(tasks: seq<Task>, dates: seq<int>, p: Precision, v: View, id: int)
    ensures CalculateTaskLayout([], tasks, dates, p, v) == TaskLayout(tasks, dates, p, v)
    ensures FindItem(TaskLayout(tasks, dates, p, v), id) != -1 ==> exists x :: x in tasks && x.id == id
  {
    var r := TaskLayout(tasks, dates, p, v);
    EveryItemHasItsTask(tasks, dates, p, v);
    if |tasks| > 0 && |v.cells| > 0 {
      assert [] + r == r;
    }
    var k := FindItem(r, id);
    if k != -1 {
      assert r[k] in r;
    }
  }

  /** Every item stands for one of the tasks: a bar for a task that does not fit in one cell,
      a square for a task that fits in the cell of a bucket on the axis. */
  lemma EveryItemHasItsTask(tasks: seq<Task>, dates: seq<int>, p: Precision, v: View)
    ensures forall it :: it in TaskLayout(tasks, dates, p, v) ==>
      exists x :: x in tasks && x.id == it.id
        && (if it.isIndicator then PlaceOf(x, dates, p).Indicator? else PlaceOf(x, dates, p) == Spanning)
  {
    var place := PlacerFor(dates, p);
    forall it | it in TaskLayout(tasks, dates, p, v)
      ensures exists x :: (x in tasks && x.id == it.id
        && (if it.isIndicator then PlaceOf(x, dates, p).Indicator? else PlaceOf(x, dates, p) == Spanning))
    {
      var x := ItemTask(tasks, place, dates, p, v, it);
      assert place(x) == PlaceOf(x, dates, p);
    }
  }

  lemma InWhere(s: seq<Task>, place: Task -> Place, q: Place, x: Task)
    requires x in Where(s, place, q)
    ensures x in s && place(x) == q
  {
  }

  /** The task an item was drawn for. */
  lemma ItemTask(tasks: seq<Task>, place: Task -> Place, dates: seq<int>, p: Precision, v: View, it: Item)
    returns (x: Task)
    requires it in LayoutWith(tasks, place, dates, p, v)
    ensures x in tasks && x.id == it.id
    ensures if it.isIndicator then place(x).Indicator? else place(x) == Spanning
  {
    var sorted := Sort(tasks, ByPriorityThenStart);
    var cls := ClassifyAll(sorted, place);
    var lanes := LanesFor(cls.spanning, p);
    if it in AllBars(lanes, 0, dates, p, v) {
      x := BarTask(sorted, place, lanes, dates, p, v, it);
    } else {
      x := SquareTask(sorted, place, v, it);
    }
    assert x in multiset(sorted);
  }

  lemma BarTask(sorted: seq<Task>, place: Task -> Place, lanes: seq<seq<Task>>, dates: seq<int>,
                p: Precision, v: View, it: Item)
    returns (x: Task)
    requires lanes == LanesFor(ClassifyAll(sorted, place).spanning, p)
    requires it in AllBars(lanes, 0, dates, p, v)
    ensures x in sorted && x.id == it.id && place(x) == Spanning && !it.isIndicator
  {
    var spanning := ClassifyAll(sorted, place).spanning;
    x :| x in AllTasks(lanes) && x.id == it.id;
    PackPlacesEveryTaskOnce(Sort(spanning, ByStart), Span(p));
    assert x in multiset(spanning);
    SpanningMatchesWhere(sorted, place);
    InWhere(sorted, place, Spanning, x);
  }

  lemma SquareTask(sorted: seq<Task>, place: Task -> Place, v: View, it: Item)
    returns (x: Task)
    requires it in AllIndicators(ClassifyAll(sorted, place).cells, v)
    ensures x in sorted && x.id == it.id && place(x).Indicator? && it.isIndicator
  {
    var cells := ClassifyAll(sorted, place).cells;
    var i :| 0 <= i < |cells| && exists y :: y in cells[i].tasks && y.id == it.id;
    x :| x in cells[i].tasks && x.id == it.id;
    CellListsMatchWhere(sorted, place);
    InWhere(sorted, place, Indicator(cells[i].cell), x);
  }
}

=== FILE: messages.dfy ===
/** `MessageService`: a list of toast messages and one counter per message type. Every
    message text starts with its type and that type's running count, so the stored texts
    never repeat. */
module Messages {
  import opened Wrappers
  import opened Decimal
  import opened Seqs

  datatype MessageType = Info | Success | Warning | Error | Debug

  /** `String(type)`: the enum's string value. */
  function TypeName(t: MessageType): string {
    match t
    case Info => "INFO"
    case Success => "SUCCESS"
    case Warning => "WARNING"
    case Error => "ERROR"
    case Debug => "DEBUG"
  }

  /** A stored message; `timestamp` is in milliseconds, `timeout` in seconds. */
  datatype Message = Message(message: string, timestamp: int, mtype: MessageType, timeout: real)

  /** The per-type counters. */
  datatype Counters = Counters(info: nat, success: nat, warning: nat, error: nat, debug: nat)

  function Count(c: Counters, t: MessageType): nat {
    match t
    case Info => c.info
    case Success => c.success
    case Warning => c.warning
    case Error => c.error
    case Debug => c.debug
  }

  /** `messageCount[type]++`. */
  function Bump(c: Counters, t: MessageType): (r: Counters)
    ensures Count(r, t) == Count(c, t) + 1
    ensures forall u :: u != t ==> Count(r, u) == Count(c, u)
  {
    match t
    case Info => c.(info := c.info + 1)
    case Success => c.(success := c.success + 1)
    case Warning => c.(warning := c.warning + 1)
    case Error => c.(error := c.error + 1)
    case Debug => c.(debug := c.debug + 1)
  }

  datatype Store = Store(messages: seq<Message>, counts: Counters)

  /** The service as constructed: no messages, every counter at zero. */
  const Fresh: Store := Store([], Counters(0, 0, 0, 0, 0))

  /** The timeout used when the caller gives none, in seconds. */
  function DefaultTimeout(t: MessageType): real {
    match t
    case Info => 10.0
    case Success => 5.0
    case Warning => 10.0
    case Error => 15.0
    case Debug => 10.0
  }

  /** The stored text: `"<TYPE> <n>. <message>"`. */
  function Text(t: MessageType, n: nat, message: string): string {
    TypeName(t) + " " + NatToString(n) + ". " + message
  }

  /** `addMessage`: bumps the type's counter and appends one message carrying the new count,
      the clock reading `now` and the given or default timeout. */
  function AddMessage(st: Store, message: string, t: MessageType, timeout: Option<real>, now: int): (r: Store)
    ensures Count(r.counts, t) == Count(st.counts, t) + 1
    ensures forall u :: u != t ==> Count(r.counts, u) == Count(st.counts, u)
    ensures |r.messages| == |st.messages| + 1 && r.messages[..|st.messages|] == st.messages
    ensures var m := r.messages[|st.messages|];
      && m.message == Text(t, Count(st.counts, t) + 1, message)
      && m.mtype == t && m.timestamp == now
      && m.timeout == (if timeout.Some? then timeout.value else DefaultTimeout(t))
  {
    var counts := Bump(st.counts, t);
    var m := Message(Text(t, Count(counts, t), message), now,
                     t, if timeout.None? then DefaultTimeout(t) else timeout.value);
    Store(st.messages + [m], counts)
  }

  /** Whether `m` is still live at time `now`: at most `timeout` seconds old. */
  predicate Live(m: Message, now: int) {
    (now - m.timestamp) as real <= m.timeout * 1000.0
  }

  /** `getMessages` at clock reading `now`: the live messages, in order. */
  function GetMessages(st: Store, now: int): (r: seq<Message>)
    ensures |r| <= |st.messages|
    decreases |st.messages|
    ensures forall m :: m in r <==> m in st.messages && Live(m, now)
  {
    if |st.messages| == 0 then []
    else
      var init := Store(st.messages[..|st.messages| - 1], st.counts);
      var last := st.messages[|st.messages| - 1];
      assert st.messages == init.messages + [last];
      GetMessages(init, now) + (if Live(last, now) then [last] else [])
  }

  /** `getMessages` keeps the stored order: the live messages of two runs one after the
      other are those of the first run followed by those of the second. */
  lemma {:induction false} GetMessagesKeepsOrder(a: seq<Message>, b: seq<Message>, c: Counters, now: int)
    ensures GetMessages(Store(a + b, c), now) == GetMessages(Store(a, c), now) + GetMessages(Store(b, c), now)
  {
    if |b| == 0 {
      assert a + b == a;
    } else {
      var init, last := b[..|b| - 1], b[|b| - 1];
      DropLastOfAppend(a, b);
      var tail := if Live(last, now) then [last] else [];
      assert GetMessages(Store(a + b, c), now) == GetMessages(Store(a + init, c), now) + tail;
      assert GetMessages(Store(b, c), now) == GetMessages(Store(init, c), now) + tail;
      GetMessagesKeepsOrder(a, init, c, now);
      AppendAssoc(GetMessages(Store(a, c), now), GetMessages(Store(init, c), now), tail);
    }
  }

  /** A single message is returned exactly when it is live. */
  lemma GetMessagesOfOne(m: Message, c: Counters, now: int)
    ensures GetMessages(Store([m], c), now) == if Live(m, now) then [m] else []
  {
    assert [m][..0] == [];
  }

  /** A message once expired stays expired as the clock runs on. */
  lemma ExpiredStaysExpired(st: Store, now: int, later: int, m: Message)
    requires now <= later && m in GetMessages(st, later)
    ensures m in GetMessages(st, now)
  {
  }

  /** `clearMessages`: no messages; the counters run on. */
  function ClearMessages(st: Store): (r: Store)
    ensures r.messages == [] && r.counts == st.counts
  {
    Store([], st.counts)
  }

  /** The messages whose text is not `text`, in order. */
  function WithoutText(ms: seq<Message>, text: string): (r: seq<Message>)
    ensures |r| <= |ms|
  {
    if |ms| == 0 then []
    else (if ms[0].message == text then [] else [ms[0]]) + WithoutText(ms[1..], text)
  }

  /** `removeMessage`: drops the messages with that text; the counters stay. */
  function RemoveMessage(st: Store, text: string): (r: Store)
    ensures r.counts == st.counts
    ensures forall m :: m in r.messages <==> m in st.messages && m.message != text
  {
    WithoutTextMembers(st.messages, text);
    Store(WithoutText(st.messages, text), st.counts)
  }

  lemma {:induction false} WithoutTextMembers(ms: seq<Message>, text: string)
    ensures forall m :: m in WithoutText(ms, text) <==> m in ms && m.message != text
  {
    if |ms| > 0 {
      assert ms == [ms[0]] + ms[1..];
      WithoutTextMembers(ms[1..], text);
    }
  }

  // ---- the header of a text and the distinctness invariant ---------------------------

  /** The longest run of digits at the front of `s`. */
  function LeadingDigits(s: string): (r: string)
    ensures |r| <= |s| && r == s[..|r|] && AllDigits(r)
    ensures |r| < |s| ==> !IsDigit(s[|r|])
  {
    if |s| == 0 || !IsDigit(s[0]) then [] else [s[0]] + LeadingDigits(s[1..])
  }

  function TypeOfName(s: string): Option<MessageType> {
    if s == "INFO" then Some(Info)
    else if s == "SUCCESS" then Some(Success)
    else if s == "WARNING" then Some(Warning)
    else if s == "ERROR" then Some(Error)
    else if s == "DEBUG" then Some(Debug)
    else None
  }

  /** The index of the first space in `s`, or `|s|`. */
  function SpaceAt(s: string): (r: nat)
    ensures r <= |s| && (r < |s| ==> s[r] == ' ')
    ensures forall i :: 0 <= i < r ==> s[i] != ' '
  {
    if |s| == 0 || s[0] == ' ' then 0 else 1 + SpaceAt(s[1..])
  }

  /** Reads the type and count back from the front of a stored text. */
  function Header(s: string): Option<(MessageType, nat)> {
    var sp := SpaceAt(s);
    if sp == |s| then None else HeaderAt(s[..sp], s[sp + 1..])
  }

  /** The header given the word before the first space and the text after it. */
  function HeaderAt(name: string, rest: string): Option<(MessageType, nat)> {
    match TypeOfName(name)
    case None => None
    case Some(t) =>
      match CountAt(rest)
      case None => None
      case Some(n) => Some((t, n))
  }

  /** The count at the front of `rest`: digits followed by `". "`. */
  function CountAt(rest: string): Option<nat> {
    var digits := LeadingDigits(rest);
    var tail := rest[|digits|..];
    if |digits| > 0 && |tail| >= 2 && tail[..2] == ". " then Some(ParseDigits(digits)) else None
  }

  /** Reading the header of a text gives back the type and count it was written with. */
  lemma HeaderOfText(t: MessageType, n: nat, message: string)
    ensures Header(Text(t, n, message)) == Some((t, n))
  {
    var name, digits, after := TypeName(t), NatToString(n), ". " + message;
    var rest := digits + after;
    assert Text(t, n, message) == name + (" " + rest);
    HeaderSplit(t, rest);
    CountOfDigits(digits, after);
    ParsePrinted(n);
    TypeOfNameOf(t);
  }

  lemma HeaderSplit(t: MessageType, rest: string)
    ensures Header(TypeName(t) + (" " + rest)) == HeaderAt(TypeName(t), rest)
  {
    var name := TypeName(t);
    var s := name + (" " + rest);
    assert ' ' !in name;
    SpaceAfterWord(name, rest);
    assert s[..|name|] == name;
    assert s[|name| + 1..] == rest;
  }

  lemma SpaceAfterWord(word: string, rest: string)
    requires ' ' !in word
    ensures SpaceAt(word + (" " + rest)) == |word|
  {
    var s := word + (" " + rest);
    assert s[|word|] == ' ';
    assert forall i :: 0 <= i < |word| ==> s[i] == word[i];
  }

  lemma CountOfDigits(digits: string, after: string)
    requires AllDigits(digits) && |digits| > 0
    requires |after| >= 2 && after[..2] == ". "
    ensures CountAt(digits + after) == Some(ParseDigits(digits))
  {
    var rest := digits + after;
    LeadingDigitsOf(digits, after);
    assert rest[|digits|..] == after;
  }

  lemma {:induction false} LeadingDigitsOf(digits: string, after: string)
    requires AllDigits(digits) && |after| > 0 && !IsDigit(after[0])
    ensures LeadingDigits(digits + after) == digits
  {
    if |digits| == 0 {
      assert digits + after == after;
    } else {
      var s := digits + after;
      assert s[0] == digits[0];
      assert s[1..] == digits[1..] + after;
      LeadingDigitsOf(digits[1..], after);
    }
  }

  lemma TypeOfNameOf(t: MessageType)
    ensures TypeOfName(TypeName(t)) == Some(t)
  {
  }

  /** Texts with different headers differ. */
  lemma TextsDiffer(t1: MessageType, n1: nat, m1: string, t2: MessageType, n2: nat, m2: string)
    requires (t1, n1) != (t2, n2)
    ensures Text(t1, n1, m1) != Text(t2, n2, m2)
  {
    HeaderOfText(t1, n1, m1);
    HeaderOfText(t2, n2, m2);
  }

  /** Every stored text carries a header whose count the type's counter has reached, and no
      two stored texts carry the same header. */
  predicate Valid(st: Store) {
    ValidFor(st.messages, st.counts, Header)
  }

  /** `Valid` for any way `hdr` of reading headers. */
  predicate ValidFor(ms: seq<Message>, c: Counters, hdr: string -> Option<(MessageType, nat)>) {
    && (forall i :: 0 <= i < |ms| ==> Within(hdr(ms[i].message), ms[i].mtype, c))
    && (forall i, j :: 0 <= i < j < |ms| ==> hdr(ms[i].message) != hdr(ms[j].message))
  }

  /** The header names type `t` and a count the type's counter has reached. */
  predicate Within(h: Option<(MessageType, nat)>, t: MessageType, c: Counters) {
    h.Some? && h.value.0 == t && 1 <= h.value.1 <= Count(c, t)
  }

  lemma FreshValid()
    ensures Valid(Fresh)
  {
  }

  lemma AddMessageValid(st: Store, message: string, t: MessageType, timeout: Option<real>, now: int)
    requires Valid(st)
    ensures Valid(AddMessage(st, message, t, timeout, now))
  {
    var r := AddMessage(st, message, t, timeout, now);
    var m := r.messages[|st.messages|];
    HeaderOfText(t, Count(r.counts, t), message);
    assert r.messages == st.messages + [m];
    AppendKeepsValid(st.messages, m, st.counts, r.counts, Header);
  }

  /** Appending a message whose header carries a count just issued keeps the invariant. */
  lemma AppendKeepsValid(ms: seq<Message>, m: Message, c: Counters, c': Counters,
                         hdr: string -> Option<(MessageType, nat)>)
    requires ValidFor(ms, c, hdr)
    requires forall u :: Count(c, u) <= Count(c', u)
    requires Count(c, m.mtype) < Count(c', m.mtype)
    requires hdr(m.message) == Some((m.mtype, Count(c', m.mtype)))
    ensures ValidFor(ms + [m], c', hdr)
  {
    var r := ms + [m];
    forall i | 0 <= i < |r| ensures Within(hdr(r[i].message), r[i].mtype, c') {
      if i < |ms| {
        assert r[i] == ms[i];
        assert Count(c, ms[i].mtype) <= Count(c', ms[i].mtype);
      }
    }
    forall i, j | 0 <= i < j < |r| ensures hdr(r[i].message) != hdr(r[j].message) {
      assert r[i] == ms[i];
      if j < |ms| {
        assert r[j] == ms[j];
      }
    }
  }

  lemma RemoveMessageValid(st: Store, text: string)
    requires Valid(st)
    ensures Valid(RemoveMessage(st, text))
  {
    FilterKeepsValid(st.messages, text, st.counts, Header);
  }

  /** Filtering keeps the invariant, whatever reads the headers. */
  lemma {:induction false} FilterKeepsValid(ms: seq<Message>, text: string, c: Counters,
                                            hdr: string -> Option<(MessageType, nat)>)
    requires ValidFor(ms, c, hdr)
    ensures ValidFor(WithoutText(ms, text), c, hdr)
  {
    if |ms| > 0 {
      assert ValidFor(ms[1..], c, hdr) by {
        assert forall i :: 0 <= i < |ms[1..]| ==> ms[1..][i] == ms[i + 1];
      }
      FilterKeepsValid(ms[1..], text, c, hdr);
      var rest := WithoutText(ms[1..], text);
      if ms[0].message != text {
        WithoutTextMembers(ms[1..], text);
        forall j | 0 <= j < |rest| ensures hdr(ms[0].message) != hdr(rest[j].message) {
          assert rest[j] in ms[1..];
          var k :| 0 <= k < |ms[1..]| && ms[1..][k] == rest[j];
          assert ms[k + 1] == rest[j];
        }
        ConsKeepsValid(ms[0], rest, c, hdr);
      }
    }
  }

  lemma ConsKeepsValid(m: Message, rest: seq<Message>, c: Counters,
                       hdr: string -> Option<(MessageType, nat)>)
    requires ValidFor(rest, c, hdr)
    requires Within(hdr(m.message), m.mtype, c)
    requires forall j :: 0 <= j < |rest| ==> hdr(m.message) != hdr(rest[j].message)
    ensures ValidFor([m] + rest, c, hdr)
  {
    var r := [m] + rest;
    assert forall i :: 0 < i < |r| ==> r[i] == rest[i - 1];
  }

  lemma ClearMessagesValid(st: Store)
    ensures Valid(ClearMessages(st))
  {
  }

  predicate TextsDistinct(ms: seq<Message>) {
    forall i, j :: 0 <= i < j < |ms| ==> ms[i].message != ms[j].message
  }

  /** The stored texts are pairwise distinct. */
  lemma ValidTextsDistinct(st: Store)
    requires Valid(st)
    ensures TextsDistinct(st.messages)
  {
  }

  /** `getMessages` returns messages with distinct texts from a valid store. */
  lemma {:induction false} GetMessagesDistinct(st: Store, now: int)
    requires TextsDistinct(st.messages)
    ensures TextsDistinct(GetMessages(st, now))
    decreases |st.messages|
  {
    if |st.messages| > 0 {
      var init := Store(st.messages[..|st.messages| - 1], st.counts);
      var last := st.messages[|st.messages| - 1];
      assert TextsDistinct(init.messages) by {
        assert forall i :: 0 <= i < |init.messages| ==> init.messages[i] == st.messages[i];
      }
      GetMessagesDistinct(init, now);
      var g := GetMessages(init, now);
      forall i | 0 <= i < |g| ensures g[i].message != last.message {
        assert g[i] in init.messages;
        var k :| 0 <= k < |init.messages| && init.messages[k] == g[i];
        assert st.messages[k] == g[i];
      }
      AppendDistinct(g, if Live(last, now) then [last] else []);
    }
  }

  lemma AppendDistinct(a: seq<Message>, b: seq<Message>)
    requires TextsDistinct(a) && |b| <= 1
    requires forall i, j :: 0 <= i < |a| && 0 <= j < |b| ==> a[i].message != b[j].message
    ensures TextsDistinct(a + b)
  {
    var r := a + b;
    forall i, j | 0 <= i < j < |r| ensures r[i].message != r[j].message {
      assert r[i] == a[i];
      if j < |a| {
        assert r[j] == a[j];
      } else {
        assert r[j] == b[j - |a|];
      }
    }
  }

  /** With distinct texts, `removeMessage` removes the one message with that text, if any,
      and keeps the others in order. */
  lemma RemoveMessageRemovesOne(st: Store, i: int)
    requires Valid(st) && 0 <= i < |st.messages|
    ensures RemoveMessage(st, st.messages[i].message).messages
         == st.messages[..i] + st.messages[i + 1..]
  {
    ValidTextsDistinct(st);
    WithoutTextUnique(st.messages, i);
  }

  lemma WithoutTextUnique(ms: seq<Message>, i: int)
    requires TextsDistinct(ms) && 0 <= i < |ms|
    ensures WithoutText(ms, ms[i].message) == ms[..i] + ms[i + 1..]
  {
    SplitAround(ms, i);
    OthersBefore(ms, i);
    OthersAfter(ms, i);
    DropMiddle(ms[..i], ms[i], ms[i + 1..]);
  }

  lemma DropMiddle(a: seq<Message>, x: Message, b: seq<Message>)
    requires WithoutText(a, x.message) == a && WithoutText(b, x.message) == b
    ensures WithoutText(a + ([x] + b), x.message) == a + b
  {
    WithoutTextAppend(a, [x] + b, x.message);
    DropHead(x, b);
  }

  lemma DropHead(x: Message, b: seq<Message>)
    ensures WithoutText([x] + b, x.message) == WithoutText(b, x.message)
  {
    assert ([x] + b)[1..] == b;
  }

  lemma SplitAround(ms: seq<Message>, i: int)
    requires 0 <= i < |ms|
    ensures ms == ms[..i] + ([ms[i]] + ms[i + 1..])
  {
  }

  lemma OthersBefore(ms: seq<Message>, i: int)
    requires TextsDistinct(ms) && 0 <= i < |ms|
    ensures WithoutText(ms[..i], ms[i].message) == ms[..i]
  {
    var a := ms[..i];
    assert forall j :: 0 <= j < |a| ==> a[j] == ms[j];
    WithoutTextKeepsOthers(a, ms[i].message);
  }

  lemma OthersAfter(ms: seq<Message>, i: int)
    requires TextsDistinct(ms) && 0 <= i < |ms|
    ensures WithoutText(ms[i + 1..], ms[i].message) == ms[i + 1..]
  {
    var b := ms[i + 1..];
    assert forall j :: 0 <= j < |b| ==> b[j] == ms[i + 1 + j];
    WithoutTextKeepsOthers(b, ms[i].message);
  }

  lemma {:induction false} WithoutTextKeepsOthers(ms: seq<Message>, text: string)
    requires forall j :: 0 <= j < |ms| ==> ms[j].message != text
    ensures WithoutText(ms, text) == ms
  {
    if |ms| > 0 {
      WithoutTextKeepsOthers(ms[1..], text);
    }
  }

  lemma {:induction false} WithoutTextAppend(a: seq<Message>, b: seq<Message>, text: string)
    ensures WithoutText(a + b, text) == WithoutText(a, text) + WithoutText(b, text)
  {
    if |a| == 0 {
      assert a + b == b;
    } else {
      assert (a + b)[0] == a[0];
      assert (a + b)[1..] == a[1..] + b;
      WithoutTextAppend(a[1..], b, text);
    }
  }
}

=== FILE: messageview.dfy ===
/** `MessageComponent`: the toasts on screen and their progress bars. Each refresh takes
    the clock once for itself and lets the service take it again; the shown messages get a
    progress value keyed by their text. */
module MessageView {
  import opened Messages
  import opened Seqs

  /** A progress value. `NonFinite` stands for the infinity or NaN that a zero timeout
      produces. */
  datatype Progress = Finite(value: real) | NonFinite

  /** The seconds elapsed since the message was stamped, at clock reading `now`. */
  function Elapsed(m: Message, now: int): real {
    (now - m.timestamp) as real / 1000.0
  }

  /** The component's own test: elapsed seconds at most the timeout. */
  predicate StillShown(m: Message, now: int) {
    Elapsed(m, now) <= m.timeout
  }

  /** `(timeout - elapsed) / timeout * 100`. */
  function ProgressOf(m: Message, now: int): Progress {
    if m.timeout == 0.0 then NonFinite
    else Finite((m.timeout - Elapsed(m, now)) / m.timeout * 100.0)
  }

  /** The component's filter over the service's answer. */
  function Shown(ms: seq<Message>, now: int): (r: seq<Message>)
    ensures |r| <= |ms|
    ensures forall m :: m in r <==> m in ms && StillShown(m, now)
  {
    if |ms| == 0 then []
    else
      var init, last := ms[..|ms| - 1], ms[|ms| - 1];
      assert ms == init + [last];
      Shown(init, now) + (if StillShown(last, now) then [last] else [])
  }

  /** The component's filter keeps the order of the service's answer: the shown messages of
      two runs one after the other are those of the first run followed by those of the
      second. */
  lemma {:induction false} ShownKeepsOrder(a: seq<Message>, b: seq<Message>, now: int)
    ensures Shown(a + b, now) == Shown(a, now) + Shown(b, now)
  {
    if |b| == 0 {
      assert a + b == a;
    } else {
      var init, last := b[..|b| - 1], b[|b| - 1];
      DropLastOfAppend(a, b);
      var tail := if StillShown(last, now) then [last] else [];
      assert Shown(a + b, now) == Shown(a + init, now) + tail;
      assert Shown(b, now) == Shown(init, now) + tail;
      ShownKeepsOrder(a, init, now);
      AppendAssoc(Shown(a, now), Shown(init, now), tail);
    }
  }

  /** A single message is shown exactly when it passes the component's test. */
  lemma ShownOfOne(m: Message, now: int)
    ensures Shown([m], now) == if StillShown(m, now) then [m] else []
  {
    assert [m][..0] == [];
  }

  /** `progressValues[msg.message] = …` for each shown message in turn. */
  function SetProgress(ms: seq<Message>, now: int, progress: map<string, Progress>): (r: map<string, Progress>)
    ensures r.Keys == progress.Keys + (set m | m in ms :: m.message)
    ensures forall k :: k in progress && (forall m :: m in ms ==> m.message != k) ==> r[k] == progress[k]
  {
    if |ms| == 0 then progress
    else
      assert ms == [ms[0]] + ms[1..];
      SetProgress(ms[1..], now, progress[ms[0].message := ProgressOf(ms[0], now)])
  }

  datatype Screen = Screen(messages: seq<Message>, progress: map<string, Progress>)

  /** `updateMessages`: `nowComponent` is the component's clock reading, taken first;
      `nowService` the one the service takes inside `getMessages`. With nothing to show,
      the progress map is left alone. */
  function UpdateMessages(st: Store, nowComponent: int, nowService: int, progress: map<string, Progress>): (r: Screen)
    ensures forall m :: m in r.messages <==>
      m in st.messages && Live(m, nowService) && StillShown(m, nowComponent)
    ensures r.messages == [] ==> r.progress == progress
    ensures r.progress.Keys == progress.Keys + (set m | m in r.messages :: m.message)
  {
    var shown := Shown(GetMessages(st, nowService), nowComponent);
    if |shown| == 0 then Screen(shown, progress)
    else Screen(shown, SetProgress(shown, nowComponent, progress))
  }

  /** `closeMessage`: removes the message from the service, then refreshes. */
  function CloseMessage(st: Store, text: string, nowComponent: int, nowService: int,
                        progress: map<string, Progress>): (r: (Store, Screen))
    ensures forall m :: m in r.0.messages <==> m in st.messages && m.message != text
    ensures forall m :: m in r.1.messages ==> m.message != text
    ensures r.0.counts == st.counts
  {
    var st' := RemoveMessage(st, text);
    (st', UpdateMessages(st', nowComponent, nowService, progress))
  }

  /** `getMessageClass`. */
  function MessageClass(t: MessageType): string {
    match t
    case Success => "message-success"
    case Warning => "message-warning"
    case Error => "message-error"
    case Debug => "message-debug"
    case Info => "message-info"
  }

  // ---- properties -----------------------------------------------------------------------

  /** Each type has its own style class. */
  lemma MessageClassInjective(t: MessageType, u: MessageType)
    requires t != u
    ensures MessageClass(t) != MessageClass(u)
  {
  }

  /** The component's test and the service's test agree at the same clock reading. */
  lemma SameTest(m: Message, now: int)
    ensures StillShown(m, now) <==> Live(m, now)
  {
    var d := (now - m.timestamp) as real;
    assert Elapsed(m, now) == d / 1000.0;
    DivideTest(d, m.timeout);
  }

  lemma DivideTest(d: real, t: real)
    ensures d / 1000.0 <= t <==> d <= t * 1000.0
  {
    assert d == (d / 1000.0) * 1000.0;
  }

  /** The component's clock reading comes first, so its filter drops nothing the service
      returned: the shown messages are exactly the service's answer. */
  lemma {:induction false} ComponentFilterRedundant(ms: seq<Message>, nowComponent: int, nowService: int)
    requires nowComponent <= nowService
    requires forall m :: m in ms ==> Live(m, nowService)
    ensures Shown(ms, nowComponent) == ms
  {
    if |ms| > 0 {
      var init, last := ms[..|ms| - 1], ms[|ms| - 1];
      assert ms == init + [last];
      assert forall m :: m in init ==> m in ms;
      ComponentFilterRedundant(init, nowComponent, nowService);
      assert Live(last, nowService);
      assert Live(last, nowComponent);
      SameTest(last, nowComponent);
    }
  }

  /** With the clocks read in order, a refresh shows exactly `getMessages` at the service's
      reading. */
  lemma UpdateShowsServiceAnswer(st: Store, nowComponent: int, nowService: int, progress: map<string, Progress>)
    requires nowComponent <= nowService
    ensures UpdateMessages(st, nowComponent, nowService, progress).messages == GetMessages(st, nowService)
  {
    ComponentFilterRedundant(GetMessages(st, nowService), nowComponent, nowService);
  }

  /** A message stamped no later than `now` and still shown, with a positive timeout, has a
      progress between 0 and 100. */
  lemma ProgressInRange(m: Message, now: int)
    requires m.timeout > 0.0 && m.timestamp <= now && StillShown(m, now)
    ensures ProgressOf(m, now).Finite? && 0.0 <= ProgressOf(m, now).value <= 100.0
  {
    var e, t := Elapsed(m, now), m.timeout;
    assert 0.0 <= e <= t;
    FractionInRange(t - e, t);
  }

  lemma FractionInRange(a: real, t: real)
    requires t > 0.0 && 0.0 <= a <= t
    ensures 0.0 <= a / t * 100.0 <= 100.0
  {
    assert a / t <= 1.0;
  }

  /** Each shown message's progress entry is computed from that message. */
  lemma {:induction false} SetProgressValues(ms: seq<Message>, now: int, progress: map<string, Progress>)
    requires TextsDistinct(ms)
    ensures forall i :: 0 <= i < |ms| ==> SetProgress(ms, now, progress)[ms[i].message] == ProgressOf(ms[i], now)
  {
    if |ms| > 0 {
      var rest, p' := ms[1..], progress[ms[0].message := ProgressOf(ms[0], now)];
      assert TextsDistinct(rest) by {
        assert forall i :: 0 <= i < |rest| ==> rest[i] == ms[i + 1];
      }
      SetProgressValues(rest, now, p');
      forall m | m in rest ensures m.message != ms[0].message {
        var k :| 0 <= k < |rest| && rest[k] == m;
        assert ms[k + 1] == m;
      }
      forall i | 0 <= i < |ms| ensures SetProgress(ms, now, progress)[ms[i].message] == ProgressOf(ms[i], now) {
        if i > 0 {
          assert ms[i] == rest[i - 1];
        }
      }
    }
  }

  /** On a valid store, with the clocks read in order, every shown message's progress is
      its own remaining fraction of the timeout. */
  lemma UpdateProgress(st: Store, nowComponent: int, nowService: int, progress: map<string, Progress>)
    requires Valid(st) && nowComponent <= nowService
    ensures var r := UpdateMessages(st, nowComponent, nowService, progress);
      forall i :: 0 <= i < |r.messages| ==> r.progress[r.messages[i].message] == ProgressOf(r.messages[i], nowComponent)
  {
    UpdateShowsServiceAnswer(st, nowComponent, nowService, progress);
    ValidTextsDistinct(st);
    GetMessagesDistinct(st, nowService);
    var shown := GetMessages(st, nowService);
    if |shown| > 0 {
      SetProgressValues(shown, nowComponent, progress);
    }
  }

  /** Closing a message leaves its progress entry behind: the map only grows. */
  lemma CloseKeepsProgressEntry(st: Store, text: string, nowComponent: int, nowService: int,
                                progress: map<string, Progress>)
    requires text in progress
    ensures text in CloseMessage(st, text, nowComponent, nowService, progress).1.progress
  {
  }
}

=== FILE: precision.dfy ===
/** The six zoom levels of the timeline, the bucket each level divides time into, and
    the containment test the layout uses to decide whether a task fits in one cell. */
module Precision {
  import D = JsDate

  datatype Precision = Years | Months | Weeks | Days | Hours | Minutes

  /** Position in the zoom list, coarsest first. */
  function Rank(p: Precision): nat {
    match p
    case Years => 0
    case Months => 1
    case Weeks => 2
    case Days => 3
    case Hours => 4
    case Minutes => 5
  }

  /** The nominal length of one tick, also the padding `min_diff` between tasks of one
      lane: a month is always 30 days, a year 365. */
  function Span(p: Precision): (r: int)
    ensures r >= D.MsPerMinute
  {
    match p
    case Years => 365 * 24 * 60 * 60 * 1000
    case Months => 30 * 24 * 60 * 60 * 1000
    case Weeks => 7 * 24 * 60 * 60 * 1000
    case Days => 24 * 60 * 60 * 1000
    case Hours => 60 * 60 * 1000
    case Minutes => 60 * 1000
  }

  /** The value a tick is overwritten with while looking up a bucket: the setter calls
      of each level. */
  function Quantize(t: int, p: Precision): int {
    match p
    case Years => ResetToYear(t)
    case Months => ResetToMonth(t)
    case Weeks => ResetToWeek(t)
    case Days => ResetToDay(t)
    case Hours => ResetToHour(t)
    case Minutes => ResetToMinute(t)
  }

  /** `setMonth(0, 1)` then `setHours(0, 0, 0, 0)`. */
  function ResetToYear(t: int): int {
    D.SetHoursAll(D.SetMonthDate(t, 0, 1), 0, 0, 0, 0)
  }

  /** `setDate(1)` then `setHours(0, 0, 0, 0)`. */
  function ResetToMonth(t: int): int {
    D.SetHoursAll(D.SetDate(t, 1), 0, 0, 0, 0)
  }

  /** `setDate(getDate() - getDay())` then `setHours(0, 0, 0, 0)`. */
  function ResetToWeek(t: int): int {
    D.SetHoursAll(D.SetDate(t, D.Date(t) - D.WeekDay(t)), 0, 0, 0, 0)
  }

  /** `setHours(0, 0, 0, 0)`. */
  function ResetToDay(t: int): int {
    D.SetHoursAll(t, 0, 0, 0, 0)
  }

  /** `setMinutes(0, 0, 0)`. */
  function ResetToHour(t: int): int {
    D.SetMinutesAll(t, 0, 0, 0)
  }

  /** `setSeconds(0, 0)`. */
  function ResetToMinute(t: int): int {
    D.SetSecondsAll(t, 0, 0)
  }

  /** Where each bucket starts, stated directly: January 1st, the 1st of the month, the
      preceding Sunday, midnight, the full hour, the full minute. */
  function BucketStart(t: int, p: Precision): int {
    match p
    case Years => YearStart(t)
    case Months => MonthStart(t)
    case Weeks => WeekStart(t)
    case Days => DayStart(t)
    case Hours => HourStart(t)
    case Minutes => MinuteStart(t)
  }

  function YearStart(t: int): int {
    D.DayFromYear(D.Year(t)) * D.MsPerDay
  }

  function MonthStart(t: int): int {
    (D.DayFromYear(D.Year(t)) + D.CumDays(D.Month(t), D.IsLeap(D.Year(t)))) * D.MsPerDay
  }

  function WeekStart(t: int): int {
    (D.Day(t) - D.WeekDay(t)) * D.MsPerDay
  }

  function DayStart(t: int): int {
    D.Day(t) * D.MsPerDay
  }

  function HourStart(t: int): int {
    (t / D.MsPerHour) * D.MsPerHour
  }

  function MinuteStart(t: int): int {
    (t / D.MsPerMinute) * D.MsPerMinute
  }

  /** The setter sequence of each level lands exactly on the start of the bucket. */
  lemma QuantizeIsBucketStart(t: int, p: Precision)
    ensures Quantize(t, p) == BucketStart(t, p)
  {
    match p
    case Years => QuantizeYear(t);
    case Months => QuantizeMonth(t);
    case Weeks => QuantizeWeek(t);
    case Days =>
    case Hours => D.HourSplit(t);
    case Minutes =>
      D.MinuteSplit(t);
      D.HourSplit(t);
  }

  lemma QuantizeYear(t: int)
    ensures Quantize(t, Years) == BucketStart(t, Years)
  {
    var y := D.Year(t);
    D.MakeDayInYear(y, 0, 1);
    var t1 := D.MakeDate(D.DayFromYear(y), D.TimeWithinDay(t));
    assert D.SetMonthDate(t, 0, 1) == t1;
    D.MakeDateParts(D.DayFromYear(y), D.TimeWithinDay(t));
    assert D.Day(t1) == D.DayFromYear(y);
  }

  lemma QuantizeMonth(t: int)
    ensures Quantize(t, Months) == BucketStart(t, Months)
  {
    var y, m := D.Year(t), D.Month(t);
    D.MakeDayInYear(y, m, 1);
    var d := D.MakeDay(y, m, 1);
    var t1 := D.MakeDate(d, D.TimeWithinDay(t));
    assert D.SetDate(t, 1) == t1;
    D.MakeDateParts(d, D.TimeWithinDay(t));
    assert D.Day(t1) == d;
  }

  lemma QuantizeWeek(t: int)
    ensures Quantize(t, Weeks) == BucketStart(t, Weeks)
  {
    var y, m := D.Year(t), D.Month(t);
    D.MakeDayInYear(y, m, D.Date(t) - D.WeekDay(t));
    var d := D.MakeDay(y, m, D.Date(t) - D.WeekDay(t));
    D.DayFields(t);
    D.MakeDayInYear(y, m, D.Date(t));
    assert d == D.Day(t) - D.WeekDay(t);
    var t1 := D.MakeDate(d, D.TimeWithinDay(t));
    assert D.SetDate(t, D.Date(t) - D.WeekDay(t)) == t1;
    D.MakeDateParts(d, D.TimeWithinDay(t));
    assert D.Day(t1) == d;
  }

  /** A bucket starts at or before every instant in it. */
  lemma BucketStartNotAfter(t: int, p: Precision)
    ensures BucketStart(t, p) <= t
  {
    match p
    case Years =>
      assert D.DayFromYear(D.Year(t)) <= D.Day(t);
    case Months =>
      assert D.DayFromYear(D.Year(t)) + D.CumDays(D.Month(t), D.IsLeap(D.Year(t))) <= D.Day(t);
    case Weeks =>
    case Days =>
    case Hours =>
    case Minutes =>
  }

  /** Quantizing an already quantized instant changes nothing. */
  lemma BucketStartIdempotent(t: int, p: Precision)
    ensures BucketStart(BucketStart(t, p), p) == BucketStart(t, p)
  {
    match p
    case Years => YearStartIdempotent(t);
    case Months => MonthStartIdempotent(t);
    case Weeks => WeekStartIdempotent(t);
    case Days => DayStartIdempotent(t);
    case Hours => HourStartIdempotent(t);
    case Minutes => MinuteStartIdempotent(t);
  }

  lemma YearStartIdempotent(t: int)
    ensures BucketStart(BucketStart(t, Years), Years) == BucketStart(t, Years)
  {
    var y := D.Year(t);
    var d := D.DayFromYear(y);
    D.DayFromYearStep(y);
    D.YearOfDay(d, y, 0);
    assert D.MakeDate(d, 0) == BucketStart(t, Years);
  }

  lemma MonthStartIdempotent(t: int)
    ensures BucketStart(BucketStart(t, Months), Months) == BucketStart(t, Months)
  {
    MonthStartFields(t);
  }

  lemma WeekStartIdempotent(t: int)
    ensures BucketStart(BucketStart(t, Weeks), Weeks) == BucketStart(t, Weeks)
  {
    var d := D.Day(t) - D.WeekDay(t);
    D.MakeDateParts(d, 0);
    assert D.Day(BucketStart(t, Weeks)) == d;
    assert (d + 4) % 7 == 0;
  }

  lemma DayStartIdempotent(t: int)
    ensures BucketStart(BucketStart(t, Days), Days) == BucketStart(t, Days)
  {
    D.MakeDateParts(D.Day(t), 0);
  }

  lemma HourStartIdempotent(t: int)
    ensures BucketStart(BucketStart(t, Hours), Hours) == BucketStart(t, Hours)
  {
    var h := t / D.MsPerHour;
    assert (h * D.MsPerHour) / D.MsPerHour == h;
  }

  lemma MinuteStartIdempotent(t: int)
    ensures BucketStart(BucketStart(t, Minutes), Minutes) == BucketStart(t, Minutes)
  {
    var mi := t / D.MsPerMinute;
    assert (mi * D.MsPerMinute) / D.MsPerMinute == mi;
  }

  lemma QuantizeIdempotent(t: int, p: Precision)
    ensures Quantize(Quantize(t, p), p) == Quantize(t, p)
  {
    QuantizeIsBucketStart(t, p);
    QuantizeIsBucketStart(Quantize(t, p), p);
    BucketStartIdempotent(t, p);
  }

  // ---- the week number of the week-level containment test -----------------------

  /** `Math.ceil(a / b)` for integers with `b > 0`. */
  function CeilDiv(a: int, b: int): int
    requires b > 0
  {
    (a + b - 1) / b
  }

  /** `new Date(t.getFullYear(), 0, 1)`: midnight of January 1st of the year of `t`, except
      that the constructor reads the years 0 to 99 as 1900 to 1999. */
  function FirstOfYear(t: int): int {
    D.MakeDate(D.MakeDay(D.ConstructorYear(D.Year(t)), 0, 1), 0)
  }

  /** `getWeekNumber`: the fractional days since January 1st, plus that day's weekday,
      plus one, divided by seven and rounded up. */
  function WeekNumber(t: int): int {
    CeilDiv(WeekOffset(t), 7 * D.MsPerDay)
  }

  /** The numerator of `getWeekNumber`, in milliseconds. */
  function WeekOffset(t: int): int {
    var first := FirstOfYear(t);
    t - first + (D.WeekDay(first) + 1) * D.MsPerDay
  }

  lemma WeekOffsetWithinYear(t: int, u: int)
    requires D.Year(t) == D.Year(u)
    ensures WeekOffset(u) == WeekOffset(t) + (u - t)
  {
  }

  lemma FirstOfYearIsYearStart(t: int)
    ensures FirstOfYear(t) == D.DayFromYear(D.ConstructorYear(D.Year(t))) * D.MsPerDay
    ensures D.WeekDay(FirstOfYear(t)) == (D.DayFromYear(D.ConstructorYear(D.Year(t))) + 4) % 7
  {
    var y := D.ConstructorYear(D.Year(t));
    D.MakeDayInYear(y, 0, 1);
    D.MakeDateParts(D.DayFromYear(y), 0);
  }

  /** Outside the years 0 to 99, week numbers start at 1 and never go past 54. */
  lemma WeekNumberRange(t: int)
    requires !(0 <= D.Year(t) <= 99)
    ensures 1 <= WeekNumber(t) <= 54
  {
    FirstOfYearIsYearStart(t);
    D.DayFromYearStep(D.Year(t));
    var a := WeekOffset(t);
    assert D.MsPerDay <= a <= 373 * D.MsPerDay;
  }

  /** Within one calendar year, later instants never get a smaller week number. */
  lemma WeekNumberMonotone(t1: int, t2: int)
    requires t1 <= t2 && D.Year(t1) == D.Year(t2)
    ensures WeekNumber(t1) <= WeekNumber(t2)
  {
    WeekOffsetWithinYear(t1, t2);
    CeilDivMonotone(WeekOffset(t1), WeekOffset(t2));
  }

  lemma CeilDivMonotone(a: int, b: int)
    requires a <= b
    ensures CeilDiv(a, 7 * D.MsPerDay) <= CeilDiv(b, 7 * D.MsPerDay)
  {
  }

  // ---- containment --------------------------------------------------------------

  /** Whether a task from `s` to `e` fits in a single cell at level `p`. The week level
      compares only week numbers, not years. */
  predicate IsContained(s: int, e: int, p: Precision) {
    match p
    case Years => D.Year(s) == D.Year(e)
    case Months => D.Year(s) == D.Year(e) && D.Month(s) == D.Month(e)
    case Weeks => WeekNumber(s) == WeekNumber(e)
    case Days => D.Year(s) == D.Year(e) && D.Month(s) == D.Month(e) && D.Date(s) == D.Date(e)
    case Hours =>
      D.Year(s) == D.Year(e) && D.Month(s) == D.Month(e) && D.Date(s) == D.Date(e)
      && D.Hours(s) == D.Hours(e)
    case Minutes =>
      D.Year(s) == D.Year(e) && D.Month(s) == D.Month(e) && D.Date(s) == D.Date(e)
      && D.Hours(s) == D.Hours(e) && D.Minutes(s) == D.Minutes(e)
  }

  /** Apart from weeks, a task is contained exactly when its start and end fall in the
      same bucket, the bucket `findDateIndex` looks up. */
  lemma ContainedIffSameBucket(s: int, e: int, p: Precision)
    requires p != Weeks
    ensures IsContained(s, e, p) <==> BucketStart(s, p) == BucketStart(e, p)
  {
    match p
    case Years => SameYearIffSameBucket(s, e);
    case Months => SameMonthIffSameBucket(s, e);
    case Days => SameDayIffSameBucket(s, e);
    case Hours =>
      SameDayIffSameBucket(s, e);
      D.HourSplit(s);
      D.HourSplit(e);
    case Minutes =>
      SameDayIffSameBucket(s, e);
      D.MinuteSplit(s);
      D.MinuteSplit(e);
      D.HourSplit(s);
      D.HourSplit(e);
  }

  lemma SameYearIffSameBucket(s: int, e: int)
    ensures IsContained(s, e, Years) <==> BucketStart(s, Years) == BucketStart(e, Years)
  {
    if D.Year(s) < D.Year(e) { D.DayFromYearStrictlyIncreasing(D.Year(s), D.Year(e)); }
    if D.Year(e) < D.Year(s) { D.DayFromYearStrictlyIncreasing(D.Year(e), D.Year(s)); }
  }

  lemma SameMonthIffSameBucket(s: int, e: int)
    ensures IsContained(s, e, Months) <==> BucketStart(s, Months) == BucketStart(e, Months)
  {
    if BucketStart(s, Months) == BucketStart(e, Months) {
      MonthStartFields(s);
      MonthStartFields(e);
    }
  }

  lemma SameDayIffSameBucket(s: int, e: int)
    ensures IsContained(s, e, Days) <==> D.Day(s) == D.Day(e)
    ensures IsContained(s, e, Days) <==> BucketStart(s, Days) == BucketStart(e, Days)
  {
    if IsContained(s, e, Days) { D.SameDateSameDay(s, e); }
  }

  /** The first of a month reads back as that year and month. */
  lemma MonthStartFields(t: int)
    ensures D.Year(BucketStart(t, Months)) == D.Year(t)
    ensures D.Month(BucketStart(t, Months)) == D.Month(t)
  {
    var y, m := D.Year(t), D.Month(t);
    D.MakeDayInYear(y, m, 1);
    D.MakeDayFields(y, m, 1, 0);
    assert D.MakeDate(D.MakeDay(y, m, 1), 0) == BucketStart(t, Months);
  }

  /** Buckets nest: sharing a finer bucket means sharing every coarser one (weeks, which
      straddle months, aside). */
  lemma BucketsNest(s: int, e: int, coarse: Precision, fine: Precision)
    requires coarse != Weeks && fine != Weeks && Rank(coarse) <= Rank(fine)
    requires BucketStart(s, fine) == BucketStart(e, fine)
    ensures BucketStart(s, coarse) == BucketStart(e, coarse)
  {
    ContainedIffSameBucket(s, e, fine);
    ContainedIffSameBucket(s, e, coarse);
  }

  /** The week containment test ignores the year: outside the years 0 to 99 every
      January 1st at midnight has week number 1, so a task from one such New Year's midnight
      to any other counts as contained. */
  lemma WeekContainmentIgnoresYear(y1: int, y2: int)
    requires !(0 <= y1 <= 99) && !(0 <= y2 <= 99)
    ensures IsContained(D.DayFromYear(y1) * D.MsPerDay, D.DayFromYear(y2) * D.MsPerDay, Weeks)
  {
    WeekOfNewYear(y1);
    WeekOfNewYear(y2);
  }

  lemma WeekOfNewYear(y: int)
    requires !(0 <= y <= 99)
    ensures WeekNumber(D.DayFromYear(y) * D.MsPerDay) == 1
  {
    var t := D.DayFromYear(y) * D.MsPerDay;
    D.MakeDateParts(D.DayFromYear(y), 0);
    D.DayFromYearStep(y);
    D.YearFromDayUnique(D.DayFromYear(y), y);
    FirstOfYearIsYearStart(t);
  }

  /** In the years 0 to 99 the constructor counts from January 1st of 1900 + y, centuries
      ahead, so every instant of those years gets a negative week number. */
  lemma TwoDigitYearWeekNegative(t: int)
    requires 0 <= D.Year(t) <= 99
    ensures WeekNumber(t) < 0
  {
    var y, d := D.Year(t), D.Day(t);
    var j := D.DayFromYear(1900 + y);
    assert D.StartsYear(d, y);
    D.DayFromYearBounds(y + 1);
    D.DayFromYearBounds(1900 + y);
    assert d - j + 8 <= -7;
    FirstOfYearIsYearStart(t);
    assert FirstOfYear(t) == j * D.MsPerDay;
    D.MakeDateParts(d, D.TimeWithinDay(t));
    DaysBeforeFirst(t, d, j, D.WeekDay(FirstOfYear(t)));
  }

  /** A week offset that many days before January 1st rounds up to a negative count. */
  lemma DaysBeforeFirst(t: int, d: int, j: int, w: int)
    requires d == D.Day(t) && d - j + 8 <= -7 && 0 <= w < 7
    ensures CeilDiv(t - j * D.MsPerDay + (w + 1) * D.MsPerDay, 7 * D.MsPerDay) < 0
  {
    var k := d - j + 8;
    assert t < (d + 1) * D.MsPerDay;
    assert t - j * D.MsPerDay + (w + 1) * D.MsPerDay < k * D.MsPerDay;
  }

  /** The week number changes one millisecond after Saturday midnight... */
  lemma WeekNumberStepsAfterSaturday(t: int)
    requires D.WeekDay(t) == 6 && D.TimeWithinDay(t) == 0
    ensures WeekNumber(t + 1) == WeekNumber(t) + 1
  {
    WeekOffsetDaysFacts(t);
    WeekOffsetNextMs(t);
    CeilPastMultiple(WeekOffset(t + 1), WeekOffset(t), WeekOffsetDays(t), D.WeekDay(t));
  }

  lemma WeekOffsetNextMs(t: int)
    requires D.TimeWithinDay(t) == 0
    ensures WeekOffset(t + 1) == WeekOffset(t) + 1
  {
    SameYearNextMs(t);
    WeekOffsetWithinYear(t, t + 1);
  }

  lemma SameYearNextMs(t: int)
    requires D.TimeWithinDay(t) == 0
    ensures D.Day(t + 1) == D.Day(t) && D.Year(t + 1) == D.Year(t)
    ensures FirstOfYear(t + 1) == FirstOfYear(t)
  {
  }

  /** One millisecond past a whole number of weeks the rounded-up week count grows. */
  lemma CeilPastMultiple(b: int, a: int, k: int, w: int)
    requires a == k * D.MsPerDay && k % 7 == (w + 1) % 7 && w == 6 && b == a + 1
    ensures CeilDiv(b, 7 * D.MsPerDay) == CeilDiv(a, 7 * D.MsPerDay) + 1
  {
    var q := k / 7;
    assert a == q * (7 * D.MsPerDay);
  }

  /** One day past a whole number of weeks, stepping back a millisecond keeps the count. */
  lemma CeilAroundSunday(b: int, a: int, k: int)
    requires a == k * D.MsPerDay && k % 7 == 1 && b == a - 1
    ensures CeilDiv(b, 7 * D.MsPerDay) == CeilDiv(a, 7 * D.MsPerDay)
  {
    var q := k / 7;
    assert k == 7 * q + 1;
  }

  /** ...and not at Sunday midnight, where the week buckets of the axis change. */
  lemma WeekNumberKeepsAtSunday(t: int)
    requires D.WeekDay(t) == 0 && D.TimeWithinDay(t) == 0 && D.Year(t - 1) == D.Year(t)
    ensures WeekNumber(t - 1) == WeekNumber(t)
    ensures BucketStart(t - 1, Weeks) != BucketStart(t, Weeks)
  {
    WeekOffsetPrevMs(t);
    SundayWeekNumber(t);
    assert D.Day(t - 1) == D.Day(t) - 1;
  }

  lemma SundayWeekNumber(t: int)
    requires D.WeekDay(t) == 0 && D.TimeWithinDay(t) == 0
    requires WeekOffset(t - 1) == WeekOffset(t) - 1
    ensures WeekNumber(t - 1) == WeekNumber(t)
  {
    SundayOffset(t);
    CeilAroundSunday(WeekOffset(t - 1), WeekOffset(t), WeekOffsetDays(t));
  }

  /** At Sunday midnight the week offset is one day past a whole number of weeks. */
  lemma SundayOffset(t: int)
    requires D.WeekDay(t) == 0 && D.TimeWithinDay(t) == 0
    ensures WeekOffset(t) == WeekOffsetDays(t) * D.MsPerDay && WeekOffsetDays(t) % 7 == 1
  {
    WeekOffsetDaysFacts(t);
    SundayResidue(WeekOffsetDays(t), D.WeekDay(t));
  }

  lemma SundayResidue(k: int, w: int)
    requires k % 7 == (w + 1) % 7 && w == 0
    ensures k % 7 == 1
  {
  }

  lemma WeekOffsetPrevMs(t: int)
    requires D.Year(t - 1) == D.Year(t)
    ensures WeekOffset(t - 1) == WeekOffset(t) - 1
  {
    WeekOffsetWithinYear(t, t - 1);
  }

  /** Days since January 1st plus that day's weekday plus one, for a midnight `t`. */
  function WeekOffsetDays(t: int): int {
    var y := D.DayFromYear(D.ConstructorYear(D.Year(t)));
    D.Day(t) - y + (y + 4) % 7 + 1
  }

  lemma WeekOffsetDaysFacts(t: int)
    requires D.TimeWithinDay(t) == 0
    ensures WeekOffset(t) == WeekOffsetDays(t) * D.MsPerDay
    ensures WeekOffsetDays(t) % 7 == (D.WeekDay(t) + 1) % 7
  {
    WeekOffsetInDays(t);
    WeekOffsetMod(D.Day(t), D.DayFromYear(D.ConstructorYear(D.Year(t))));
  }

  lemma WeekOffsetInDays(t: int)
    requires D.TimeWithinDay(t) == 0
    ensures WeekOffset(t) == WeekOffsetDays(t) * D.MsPerDay
  {
    var a, j := D.Day(t), D.DayFromYear(D.ConstructorYear(D.Year(t)));
    var first := FirstOfYear(t);
    FirstOfYearIsYearStart(t);
    assert first == j * D.MsPerDay && D.WeekDay(first) == (j + 4) % 7;
    assert t == a * D.MsPerDay;
    DayScale(a, j, (j + 4) % 7);
  }

  lemma DayScale(a: int, j: int, w: int)
    ensures a * D.MsPerDay - j * D.MsPerDay + (w + 1) * D.MsPerDay == (a - j + w + 1) * D.MsPerDay
  {
  }

  lemma WeekOffsetMod(d: int, y: int)
    ensures (d - y + (y + 4) % 7 + 1) % 7 == ((d + 4) % 7 + 1) % 7
  {
    var q := (y + 4) / 7;
    assert (y + 4) % 7 == y + 4 - 7 * q;
    ModShift7(d + 5, q);
  }

  lemma ModShift7(x: int, q: int)
    ensures (x - 7 * q) % 7 == x % 7
  {
  }

  // ---- the facing time of the viewport ----------------------------------------------

  /** How `getFacingTime` rounds the instant of the centred cell: like the bucket lookup,
      except that the week level only goes back to midnight, not to Sunday. */
  function FacingQuantize(t: int, p: Precision): (r: int)
    ensures p != Weeks ==> r == Quantize(t, p)
    ensures p == Weeks ==> r == BucketStart(t, Days)
  {
    QuantizeIsBucketStart(t, Days);
    match p
    case Years => ResetToYear(t)
    case Months => ResetToMonth(t)
    case Weeks => ResetToDay(t)
    case Days => ResetToDay(t)
    case Hours => ResetToHour(t)
    case Minutes => ResetToMinute(t)
  }

  /** The facing time is the start of the cell's bucket, except that the week level rounds
      to midnight of the day, which is the week's start only on a Sunday. It stays in the
      bucket of the cell it came from, never lies after the cell's own instant, and
      rounding it again changes nothing. */
  lemma FacingStaysInBucket(t: int, p: Precision)
    ensures FacingQuantize(t, p) == BucketStart(t, if p == Weeks then Days else p)
    ensures FacingQuantize(t, p) <= t
    ensures BucketStart(FacingQuantize(t, p), p) == BucketStart(t, p)
    ensures FacingQuantize(FacingQuantize(t, p), p) == FacingQuantize(t, p)
    ensures p == Weeks ==> (FacingQuantize(t, p) == BucketStart(t, Weeks) <==> D.WeekDay(t) == 0)
  {
    if p == Weeks {
      var f := FacingQuantize(t, p);
      D.MakeDateParts(D.Day(t), 0);
      assert D.Day(f) == D.Day(t);
    } else {
      QuantizeIsBucketStart(t, p);
      BucketStartNotAfter(t, p);
      BucketStartIdempotent(t, p);
      QuantizeIdempotent(t, p);
    }
  }
}

=== FILE: seqs.dfy ===
/** Sequence facts shared by the modules: the first position with a given key, and two
    small steps of sequence algebra. */
module Seqs {

  /** `findIndex` and `find` by key: the first position whose key is `k`, or -1 when no
      element has it. */
  function FirstIndex<T>(s: seq<T>, key: T -> int, k: int): (r: int)
    ensures -1 <= r < |s|
    ensures r >= 0 ==> key(s[r]) == k && forall j :: 0 <= j < r ==> key(s[j]) != k
    ensures r == -1 ==> forall j :: 0 <= j < |s| ==> key(s[j]) != k
  {
    if |s| == 0 then -1
    else if key(s[0]) == k then 0
    else var i := FirstIndex(s[1..], key, k); if i == -1 then -1 else i + 1
  }

  lemma DropLastOfAppend<T>(a: seq<T>, b: seq<T>)
    requires |b| > 0
    ensures (a + b)[..|a + b| - 1] == a + b[..|b| - 1] && (a + b)[|a + b| - 1] == b[|b| - 1]
  {
  }

  lemma AppendAssoc<T>(x: seq<T>, y: seq<T>, z: seq<T>)
    ensures x + y + z == x + (y + z)
  {
  }
}

=== FILE: sorting.dfy ===
/** The two stable sorts of the layout pass: all tasks by priority and then start, and the
    spanning tasks by start alone. `Array.prototype.sort` is stable, so the model is a
    stable insertion sort; the sorts' comparators become sort keys. */
module Sorting {
  import opened Tasks

  datatype Order = ByPriorityThenStart | ByStart

  /** A sort key, compared lexicographically. Priorities are JS numbers, so the major part
      is a real; start instants enter it exactly. */
  datatype SortKey = SortKey(major: real, minor: int)

  /** The key under which the comparator orders tasks. */
  function Key(t: Task, o: Order): SortKey {
    match o
    case ByPriorityThenStart => SortKey(t.priority, t.start)
    case ByStart => SortKey(t.start as real, 0)
  }

  predicate KeyLe(a: SortKey, b: SortKey) {
    a.major < b.major || (a.major == b.major && a.minor <= b.minor)
  }

  predicate Sorted(s: seq<Task>, o: Order) {
    forall i, j :: 0 <= i < j < |s| ==> KeyLe(Key(s[i], o), Key(s[j], o))
  }

  /** Puts `x` in front of the first element whose key is not below its own. */
  function Insert(x: Task, r: seq<Task>, o: Order): (q: seq<Task>)
    ensures multiset(q) == multiset(r) + multiset{x}
  {
    if |r| == 0 || KeyLe(Key(x, o), Key(r[0], o)) then [x] + r
    else
      assert r == [r[0]] + r[1..];
      [r[0]] + Insert(x, r[1..], o)
  }

  lemma {:induction false} InsertSorted(x: Task, r: seq<Task>, o: Order)
    requires Sorted(r, o)
    ensures Sorted(Insert(x, r, o), o)
  {
    if |r| > 0 && !KeyLe(Key(x, o), Key(r[0], o)) {
      var rest := Insert(x, r[1..], o);
      InsertSorted(x, r[1..], o);
      assert multiset(rest) == multiset(r[1..]) + multiset{x};
      forall y | y in rest ensures KeyLe(Key(r[0], o), Key(y, o)) {
        assert y in multiset(rest);
        if y != x {
          assert y in r[1..];
        }
      }
    }
  }

  /** The stable sort: the first task is inserted in front of every later task with the
      same key. */
  function Sort(s: seq<Task>, o: Order): (r: seq<Task>)
    ensures multiset(r) == multiset(s)
    ensures Sorted(r, o)
  {
    if |s| == 0 then []
    else
      assert s == [s[0]] + s[1..];
      InsertSorted(s[0], Sort(s[1..], o), o);
      Insert(s[0], Sort(s[1..], o), o)
  }

  /** The elements with key `k`, in order. */
  function WithKey(s: seq<Task>, o: Order, k: SortKey): seq<Task> {
    if |s| == 0 then []
    else Class(s[0], o, k) + WithKey(s[1..], o, k)
  }

  lemma {:induction false} WithKeyMember(s: seq<Task>, o: Order, k: SortKey, y: Task)
    requires y in WithKey(s, o, k)
    ensures y in s && Key(y, o) == k
  {
    if |s| > 0 {
      assert s == [s[0]] + s[1..];
      WithKeyCons(s[0], s[1..], o, k);
      if y !in Class(s[0], o, k) {
        WithKeyMember(s[1..], o, k, y);
      }
    }
  }

  /** Stability: the tasks sharing a key keep their relative order. */
  lemma {:induction false} SortIsStable(s: seq<Task>, o: Order, k: SortKey)
    ensures WithKey(Sort(s, o), o, k) == WithKey(s, o, k)
  {
    if |s| > 0 {
      SortIsStable(s[1..], o, k);
      InsertWithKey(s[0], Sort(s[1..], o), o, k);
    }
  }

  /** Inserting `x` adds it to its own key class, in front; the other classes are unchanged. */
  lemma {:induction false} InsertWithKey(x: Task, r: seq<Task>, o: Order, k: SortKey)
    ensures WithKey(Insert(x, r, o), o, k) == Class(x, o, k) + WithKey(r, o, k)
  {
    if |r| == 0 || KeyLe(Key(x, o), Key(r[0], o)) {
      WithKeyCons(x, r, o, k);
    } else {
      InsertWithKey(x, r[1..], o, k);
      InsertWithKeyStep(x, r, o, k);
    }
  }

  /** `[x]` when `x` has key `k`, else empty. */
  function Class(x: Task, o: Order, k: SortKey): seq<Task> {
    if Key(x, o) == k then [x] else []
  }

  lemma InsertWithKeyStep(x: Task, r: seq<Task>, o: Order, k: SortKey)
    requires |r| > 0 && !KeyLe(Key(x, o), Key(r[0], o))
    requires WithKey(Insert(x, r[1..], o), o, k) == Class(x, o, k) + WithKey(r[1..], o, k)
    ensures WithKey(Insert(x, r, o), o, k) == Class(x, o, k) + WithKey(r, o, k)
  {
    var r0, rest := r[0], r[1..];
    var ins := Insert(x, rest, o);
    InsertUnfold(x, r, o);
    WithKeyCons(r0, ins, o, k);
    RestOf(r);
    WithKeyCons(r0, rest, o, k);
    SwapClasses(x, r0, o, k, WithKey(rest, o, k));
  }

  lemma InsertUnfold(x: Task, r: seq<Task>, o: Order)
    requires |r| > 0 && !KeyLe(Key(x, o), Key(r[0], o))
    ensures Insert(x, r, o) == [r[0]] + Insert(x, r[1..], o)
  {}

  lemma RestOf(r: seq<Task>)
    requires |r| > 0
    ensures r == [r[0]] + r[1..]
  {}

  lemma SwapClasses(x: Task, y: Task, o: Order, k: SortKey, t: seq<Task>)
    requires !KeyLe(Key(x, o), Key(y, o))
    ensures Class(y, o, k) + (Class(x, o, k) + t) == Class(x, o, k) + (Class(y, o, k) + t)
  {
    if Key(x, o) == k {
      assert Class(y, o, k) == [];
    } else {
      assert Class(x, o, k) == [];
    }
  }

  lemma WithKeyCons(y: Task, t: seq<Task>, o: Order, k: SortKey)
    ensures WithKey([y] + t, o, k) == Class(y, o, k) + WithKey(t, o, k)
  {
    assert ([y] + t)[0] == y;
    assert ([y] + t)[1..] == t;
  }

  lemma {:induction false} WithKeyAppend(a: seq<Task>, b: seq<Task>, o: Order, k: SortKey)
    ensures WithKey(a + b, o, k) == WithKey(a, o, k) + WithKey(b, o, k)
  {
    if |a| > 0 {
      assert (a + b)[0] == a[0];
      assert (a + b)[1..] == a[1..] + b;
      WithKeyAppend(a[1..], b, o, k);
    } else {
      assert a + b == b;
    }
  }

  /** Filtering keeps a sorted sequence sorted, in whatever order it was sorted. */
  lemma {:induction false} WithKeySorted(s: seq<Task>, o: Order, order: Order, k: SortKey)
    requires Sorted(s, order)
    ensures Sorted(WithKey(s, o, k), order)
  {
    if |s| > 0 {
      WithKeySorted(s[1..], o, order, k);
      var tail := WithKey(s[1..], o, k);
      forall y | y in tail ensures KeyLe(Key(s[0], order), Key(y, order)) {
        WithKeyMember(s[1..], o, k, y);
        var j :| 0 <= j < |s[1..]| && s[1..][j] == y;
        assert s[j + 1] == y;
      }
    }
  }

  /** Two elements with key `k` at positions `i < j` appear in that order among the
      elements with key `k`. */
  lemma {:induction false} WithKeyPositions(s: seq<Task>, o: Order, k: SortKey, i: int, j: int)
    requires 0 <= i < j < |s| && Key(s[i], o) == k && Key(s[j], o) == k
    ensures exists a, b :: 0 <= a < b < |WithKey(s, o, k)|
              && WithKey(s, o, k)[a] == s[i] && WithKey(s, o, k)[b] == s[j]
  {
    var head, tail := Class(s[0], o, k), WithKey(s[1..], o, k);
    var w := WithKey(s, o, k);
    assert w == head + tail;
    assert s[1..][j - 1] == s[j];
    if i == 0 {
      WithKeyContains(s[1..], o, k, j - 1);
      var b :| 0 <= b < |tail| && tail[b] == s[j];
      assert w[0] == s[0] && w[b + 1] == s[j];
    } else {
      assert s[1..][i - 1] == s[i];
      WithKeyPositions(s[1..], o, k, i - 1, j - 1);
      var a, b :| 0 <= a < b < |tail| && tail[a] == s[i] && tail[b] == s[j];
      assert w[a + |head|] == s[i] && w[b + |head|] == s[j];
    }
  }

  lemma {:induction false} WithKeyContains(s: seq<Task>, o: Order, k: SortKey, j: int)
    requires 0 <= j < |s| && Key(s[j], o) == k
    ensures exists b :: 0 <= b < |WithKey(s, o, k)| && WithKey(s, o, k)[b] == s[j]
  {
    var head, tail := Class(s[0], o, k), WithKey(s[1..], o, k);
    var w := WithKey(s, o, k);
    assert w == head + tail;
    if j == 0 {
      assert w[0] == s[0];
    } else {
      assert s[1..][j - 1] == s[j];
      WithKeyContains(s[1..], o, k, j - 1);
      var b :| 0 <= b < |tail| && tail[b] == s[j];
      assert w[b + |head|] == s[j];
    }
  }

  /** Re-sorting by start a list sorted by priority and start leaves it ordered by start
      and, among equal starts, by priority. */
  lemma PriorityBreaksStartTies(s: seq<Task>)
    requires Sorted(s, ByPriorityThenStart)
    ensures var r := Sort(s, ByStart);
      forall i, j :: 0 <= i < j < |r| ==>
        r[i].start < r[j].start || (r[i].start == r[j].start && r[i].priority <= r[j].priority)
  {
    var r := Sort(s, ByStart);
    forall i, j | 0 <= i < j < |r| && r[i].start == r[j].start
      ensures r[i].priority <= r[j].priority
    {
      var k := Key(r[i], ByStart);
      WithKeyPositions(r, ByStart, k, i, j);
      SortIsStable(s, ByStart, k);
      WithKeySorted(s, ByStart, ByPriorityThenStart, k);
      var f := WithKey(s, ByStart, k);
      var a, b :| 0 <= a < b < |f| && f[a] == r[i] && f[b] == r[j];
      assert KeyLe(Key(f[a], ByPriorityThenStart), Key(f[b], ByPriorityThenStart));
    }
  }
}

=== FILE: taskedit.dfy ===
/** `TaskEditComponent`: the edit dialog's helpers. The dialog edits `task`, which may be
    null; every mutator then does nothing. */
module TaskEdit {
  import opened Wrappers
  import opened Decimal
  import D = JsDate
  import opened Tasks

  // ---- pad and the time input ----------------------------------------------------------

  /** `pad`: a leading "0" before numbers below 10. */
  function Pad(v: int): string {
    if v < 10 then "0" + IntToString(v) else IntToString(v)
  }

  /** Two digits for 0 to 99, reading back as the number. */
  lemma PadTwoDigits(v: int)
    requires 0 <= v <= 99
    ensures |Pad(v)| == 2 && AllDigits(Pad(v)) && ParseDigits(Pad(v)) == v
  {
    var s := NatToString(v);
    ParsePrinted(v);
    if v < 10 {
      assert Pad(v) == "0" + s;
      ParseLeadingZero(s);
    } else {
      TwoDigitNumber(v);
    }
  }

  lemma TwoDigitNumber(v: int)
    requires 10 <= v <= 99
    ensures |NatToString(v)| == 2
  {
    assert v / 10 < 10;
  }

  /** `formatTimeInput`: `"HH:MM"` of the local hours and minutes. */
  function FormatTimeInput(t: int): string {
    Pad(D.Hours(t)) + ":" + Pad(D.Minutes(t))
  }

  /** `s.split(':')`. */
  function SplitColon(s: string): (r: seq<string>)
    ensures |r| >= 1
    ensures forall i :: 0 <= i < |r| ==> ':' !in r[i]
  {
    if ':' !in s then [s]
    else
      var k := ColonAt(s);
      [s[..k]] + SplitColon(s[k + 1..])
  }

  /** The index of the first ':' in `s`. */
  function ColonAt(s: string): (k: nat)
    requires ':' in s
    ensures k < |s| && s[k] == ':' && ':' !in s[..k]
  {
    if s[0] == ':' then 0
    else
      assert s == [s[0]] + s[1..];
      var k := ColonAt(s[1..]);
      assert s[..k + 1] == [s[0]] + s[1..][..k];
      k + 1
  }

  /** Joining the parts with ':' gives the text back. */
  lemma {:induction false} SplitJoin(s: string)
    ensures Join(SplitColon(s)) == s
  {
    if ':' in s {
      var k := ColonAt(s);
      var parts, tail := SplitColon(s), SplitColon(s[k + 1..]);
      SplitJoin(s[k + 1..]);
      assert parts[0] == s[..k] && parts[1..] == tail;
      assert Join(parts) == s[..k] + ":" + Join(tail);
      assert s == s[..k] + ":" + s[k + 1..];
    }
  }

  function Join(parts: seq<string>): string {
    if |parts| == 0 then "" else if |parts| == 1 then parts[0] else parts[0] + ":" + Join(parts[1..])
  }

  /** `Number(s)` for the texts a time input produces: digit strings, the empty string
      reading as 0. `None` is NaN. */
  function NumberOf(s: string): Option<int> {
    if AllDigits(s) then Some(ParseDigits(s)) else None
  }

  /** `updateTimePart` on one instant: `setHours(hours)` then `setMinutes(minutes)`, the
      hours and minutes being the first two ':'-separated parts (a missing part is
      `undefined`, which like NaN makes the date invalid; `None` is that Invalid Date). */
  function SetTimePart(t: int, value: string): Option<int> {
    var parts := SplitColon(value);
    var hours := NumberOf(parts[0]);
    var minutes := if |parts| >= 2 then NumberOf(parts[1]) else None;
    if hours.None? || minutes.None? then None
    else Some(D.SetMinutes(D.SetHours(t, hours.value), minutes.value))
  }

  /** The field the dialog edits. */
  datatype Field = Start | End

  function Get(task: Task, f: Field): int {
    match f
    case Start => task.start
    case End => task.end
  }

  function Other(f: Field): Field {
    match f
    case Start => End
    case End => Start
  }

  function Put(task: Task, f: Field, v: int): Task {
    match f
    case Start => task.(start := v)
    case End => task.(end := v)
  }

  /** `updateTimePart`: no change without a task; `Err` when the field would become an
      Invalid Date, which `Task` cannot hold. */
  function UpdateTimePart(task: Option<Task>, f: Field, value: string): (r: Result<Option<Task>, string>)
    ensures task.None? ==> r == Ok(None)
    ensures task.Some? && r.Ok? ==> r.value.Some? && r.value.value.(start := task.value.start, end := task.value.end) == task.value
    ensures task.Some? && r.Ok? ==> Get(r.value.value, Other(f)) == Get(task.value, Other(f))
    ensures task.Some? ==> (r.Err? <==> SetTimePart(Get(task.value, f), value).None?)
    ensures task.Some? && r.Ok? ==> Get(r.value.value, f) == SetTimePart(Get(task.value, f), value).value
  {
    match task
    case None => Ok(None)
    case Some(t) =>
      match SetTimePart(Get(t, f), value)
      case None => Err("Invalid Date")
      case Some(v) => Ok(Some(Put(t, f, v)))
  }

  /** The value `"HH:MM"` splits into its two parts. */
  lemma SplitTime(h: int, m: int)
    requires 0 <= h <= 99 && 0 <= m <= 99
    ensures SplitColon(Pad(h) + ":" + Pad(m)) == [Pad(h), Pad(m)]
  {
    var a, b := Pad(h), Pad(m);
    PadTwoDigits(h);
    PadTwoDigits(m);
    var s := a + ":" + b;
    assert s[2] == ':' && s[0] == a[0] && s[1] == a[1];
    assert ':' in s;
    assert ColonAt(s) == 2;
    assert s[..2] == a && s[3..] == b;
    assert ':' !in b by {
      assert forall i :: 0 <= i < |b| ==> IsDigit(b[i]);
    }
  }

  /** Writing back the shown time of a field leaves the task as it was. */
  lemma UpdateWithShownTime(t: Task, f: Field)
    ensures UpdateTimePart(Some(t), f, FormatTimeInput(Get(t, f))) == Ok(Some(t))
  {
    FormatThenUpdate(Get(t, f));
  }

  /** Setting hours `h` and minutes `m` of the day keeps the day, seconds and milliseconds. */
  lemma SetClock(t: int, h: int, m: int)
    requires 0 <= h < 24 && 0 <= m < 60
    ensures var u := D.SetMinutes(D.SetHours(t, h), m);
      D.Day(u) == D.Day(t) && D.Hours(u) == h && D.Minutes(u) == m
      && D.Seconds(u) == D.Seconds(t) && D.Milliseconds(u) == D.Milliseconds(t)
  {
    var s, ms := D.Seconds(t), D.Milliseconds(t);
    var v := D.SetHours(t, h);
    ClockOf(D.Day(t), h, D.Minutes(t), s, ms);
    ClockOf(D.Day(t), h, m, s, ms);
  }

  lemma ClockOf(day: int, h: int, m: int, s: int, ms: int)
    requires 0 <= h < 24 && 0 <= m < 60 && 0 <= s < 60 && 0 <= ms < 1000
    ensures var u := D.MakeDate(day, D.MakeTime(h, m, s, ms));
      D.Day(u) == day && D.Hours(u) == h && D.Minutes(u) == m
      && D.Seconds(u) == s && D.Milliseconds(u) == ms
  {
    var u := D.MakeDate(day, D.MakeTime(h, m, s, ms));
    var secs, mins, hours := day * 86400 + h * 3600 + m * 60 + s, day * 1440 + h * 60 + m, day * 24 + h;
    assert u == secs * 1000 + ms;
    D.DivAdd(secs, ms, 1000);
    D.DivAdd(day * 1440 + h * 60 + m, s, 60);
    assert u == mins * 60000 + (s * 1000 + ms);
    D.DivAdd(mins, s * 1000 + ms, 60000);
    D.DivAdd(day * 24 + h, m, 60);
    assert u == hours * 3600000 + (m * 60000 + s * 1000 + ms);
    D.DivAdd(hours, m * 60000 + s * 1000 + ms, 3600000);
    D.DivAdd(day, h, 24);
    assert u == day * 86400000 + (h * 3600000 + m * 60000 + s * 1000 + ms);
    D.DivAdd(day, h * 3600000 + m * 60000 + s * 1000 + ms, 86400000);
  }

  /** A well-formed time input sets exactly the hours and minutes. */
  lemma SetTimePartSetsClock(t: int, h: int, m: int)
    requires 0 <= h < 24 && 0 <= m < 60
    ensures var r := SetTimePart(t, Pad(h) + ":" + Pad(m));
      r.Some? && D.Day(r.value) == D.Day(t) && D.Hours(r.value) == h && D.Minutes(r.value) == m
      && D.Seconds(r.value) == D.Seconds(t) && D.Milliseconds(r.value) == D.Milliseconds(t)
  {
    SplitTime(h, m);
    PadTwoDigits(h);
    PadTwoDigits(m);
    SetClock(t, h, m);
  }

  /** Writing back what `formatTimeInput` shows changes nothing. */
  lemma FormatThenUpdate(t: int)
    ensures SetTimePart(t, FormatTimeInput(t)) == Some(t)
  {
    var h, m := D.Hours(t), D.Minutes(t);
    SetTimePartSetsClock(t, h, m);
    var u := SetTimePart(t, FormatTimeInput(t)).value;
    SameFieldsSameInstant(t, u);
  }

  lemma SameFieldsSameInstant(t: int, u: int)
    requires D.Day(u) == D.Day(t) && D.Hours(u) == D.Hours(t) && D.Minutes(u) == D.Minutes(t)
    requires D.Seconds(u) == D.Seconds(t) && D.Milliseconds(u) == D.Milliseconds(t)
    ensures u == t
  {
    D.TimeFields(t);
    D.TimeFields(u);
  }

  /** A cleared time input (`""`) has no minutes part and leaves an Invalid Date. */
  lemma ClearedInputInvalid(t: int)
    ensures SetTimePart(t, "") == None
  {
  }

  // ---- the others list -------------------------------------------------------------------

  const BlankField: OtherField := OtherField("", "")

  /** `addOtherField` on the list itself: a missing list is created first. */
  function AddField(others: Option<seq<OtherField>>): (r: seq<OtherField>)
    ensures |r| >= 1 && r[|r| - 1] == BlankField
    ensures others.Some? ==> r[..|r| - 1] == others.value
    ensures others.None? ==> |r| == 1
  {
    (if others.None? then [] else others.value) + [BlankField]
  }

  /** The start index of `splice(index, 1)`: negative indices count from the end, and both
      ends clamp. */
  function SpliceStart(len: nat, index: int): (k: nat)
    ensures k <= len
  {
    if index < 0 then (if len + index < 0 then 0 else len + index)
    else if index < len then index else len
  }

  /** `splice(index, 1)`: removes the element at the start index, if there is one. */
  function Splice(s: seq<OtherField>, index: int): (r: seq<OtherField>)
    ensures var k := SpliceStart(|s|, index);
      (k < |s| ==> |r| == |s| - 1)
      && (k == |s| ==> r == s)
      && (forall j :: 0 <= j < |r| ==> r[j] == if j < k then s[j] else s[j + 1])
  {
    var k := SpliceStart(|s|, index);
    if k < |s| then s[..k] + s[k + 1..] else s
  }

  /** The entry taken out is the only change to the list's contents. */
  lemma SpliceRemovesOne(s: seq<OtherField>, index: int)
    requires SpliceStart(|s|, index) < |s|
    ensures var k := SpliceStart(|s|, index);
      multiset(Splice(s, index)) + multiset{s[k]} == multiset(s)
  {
    var k := SpliceStart(|s|, index);
    assert s == s[..k] + [s[k]] + s[k + 1..];
  }

  /** `removeOtherField` on the list itself: nothing happens to a missing list. */
  function RemoveField(others: Option<seq<OtherField>>, index: int): (r: Option<seq<OtherField>>)
    ensures others.None? <==> r.None?
  {
    match others
    case None => None
    case Some(s) => Some(Splice(s, index))
  }

  /** An index within the list removes exactly that entry. */
  lemma RemoveInRange(s: seq<OtherField>, i: int)
    requires 0 <= i < |s|
    ensures Splice(s, i) == s[..i] + s[i + 1..]
  {
  }

  /** Indices past the end change nothing. */
  lemma RemovePastEnd(s: seq<OtherField>, i: int)
    requires i >= |s|
    ensures Splice(s, i) == s
  {
  }

  /** A negative index counts from the end, and one beyond the front removes the first. */
  lemma RemoveNegative(s: seq<OtherField>, i: int)
    requires i < 0 && |s| > 0
    ensures Splice(s, i) == (if -i <= |s| then Splice(s, |s| + i) else s[1..])
  {
  }

  /** Adding a field and removing the last one gives the list back. */
  lemma AddThenRemoveLast(s: seq<OtherField>)
    ensures Splice(AddField(Some(s)), -1) == s
  {
    var r := AddField(Some(s));
    assert r[..|r| - 1] == s;
  }

  /** `addOtherField` on the dialog's task. */
  function AddOtherField(task: Option<Task>): (r: Option<Task>)
    ensures task.None? <==> r.None?
    ensures task.Some? ==> r.value.others == task.value.others + [BlankField]
    ensures task.Some? ==> r.value == task.value.(others := r.value.others)
  {
    match task
    case None => None
    case Some(t) => Some(t.(others := AddField(Some(t.others))))
  }

  /** `removeOtherField` on the dialog's task. */
  function RemoveOtherField(task: Option<Task>, index: int): (r: Option<Task>)
    ensures task.None? <==> r.None?
    ensures task.Some? ==> r.value == task.value.(others := r.value.others)
    ensures task.Some? ==> |r.value.others| <= |task.value.others|
    ensures task.Some? ==> r.value.others == Splice(task.value.others, index)
  {
    match task
    case None => None
    case Some(t) => Some(t.(others := Splice(t.others, index)))
  }

  /** `onSave`: the task is emitted only when there is one. */
  function OnSave(task: Option<Task>): (emitted: Option<Task>)
    ensures emitted == task
  {
    if task.None? then None else Some(task.value)
  }
}

=== FILE: tasks.dfy ===
/** The to-do record the timeline shows, its display colour, and the task list edits
    `saveTask` and `deleteTask` make on behalf of the edit dialog. */
module Tasks {
  import opened Wrappers
  import opened Seqs

  datatype Status = Todo | InProgress | Done | Cancelled

  /** A free-form key/value pair attached to a task. */
  datatype OtherField = OtherField(key: string, value: string)

  /** A task; `start` and `end` are instants in milliseconds. */
  datatype Task = Task(
    id: int,
    title: string,
    description: string,
    status: Status,
    priority: real,
    start: int,
    end: int,
    others: seq<OtherField>)

  // ---- colour --------------------------------------------------------------------

  const ColorKey: string := "color"

  /** The index of the first field keyed `color`, if there is one. */
  function FindColorField(others: seq<OtherField>): (r: Option<nat>)
    ensures r.Some? ==> r.value < |others| && others[r.value].key == ColorKey
    ensures r.Some? ==> forall j :: 0 <= j < r.value ==> others[j].key != ColorKey
    ensures r.None? ==> forall j :: 0 <= j < |others| ==> others[j].key != ColorKey
  {
    if |others| == 0 then None
    else if others[0].key == ColorKey then Some(0)
    else match FindColorField(others[1..]) {
      case None => None
      case Some(i) => Some(i + 1)
    }
  }

  function StatusColor(s: Status): string {
    match s
    case Todo => "#ddaa00"
    case InProgress => "#1a78e2"
    case Done => "#3dab40"
    case Cancelled => "#757575"
  }

  /** `getTaskColor`: the value of the first `color` field, else the colour of the status. */
  function TaskColor(t: Task): (r: string)
    ensures (exists i :: 0 <= i < |t.others| && t.others[i].key == ColorKey
               && r == t.others[i].value
               && forall j :: 0 <= j < i ==> t.others[j].key != ColorKey)
            || ((forall j :: 0 <= j < |t.others| ==> t.others[j].key != ColorKey)
               && r == StatusColor(t.status))
  {
    match FindColorField(t.others)
    case Some(i) => t.others[i].value
    case None => StatusColor(t.status)
  }

  /** Only a `color` field changes the colour, and only the first one counts. */
  lemma {:induction false} ColorFieldsAfterTheFirstIgnored(t: Task, extra: seq<OtherField>)
    requires exists i :: 0 <= i < |t.others| && t.others[i].key == ColorKey
    ensures TaskColor(t.(others := t.others + extra)) == TaskColor(t)
  {
    var i :| 0 <= i < |t.others| && t.others[i].key == ColorKey;
    FirstColorKept(t.others, extra, i);
  }

  lemma {:induction false} FirstColorKept(a: seq<OtherField>, b: seq<OtherField>, i: int)
    requires 0 <= i < |a| && a[i].key == ColorKey
    ensures FindColorField(a + b) == FindColorField(a)
    decreases |a|
  {
    if a[0].key != ColorKey {
      assert (a + b)[1..] == a[1..] + b;
      FirstColorKept(a[1..], b, i - 1);
    }
  }

  // ---- the task list -------------------------------------------------------------

  /** The task list together with the copy the edit dialog is working on, if it is open. */
  datatype Board = Board(tasks: seq<Task>, editing: Option<Task>)

  /** The index of the first task with id `id`, or -1 (`findIndex`). */
  function FindById(tasks: seq<Task>, id: int): int {
    FirstIndex(tasks, (t: Task) => t.id, id)
  }

  /** The tasks whose id differs from `id`, in their original order (`filter`). */
  function WithoutId(tasks: seq<Task>, id: int): (r: seq<Task>)
    ensures |r| <= |tasks|
    ensures forall x :: x in r <==> x in tasks && x.id != id
  {
    if |tasks| == 0 then []
    else (if tasks[0].id == id then [] else [tasks[0]]) + WithoutId(tasks[1..], id)
  }

  /** `saveTask`: the edited copy replaces the first task with its id, or is appended when
      there is none; the dialog closes. With no dialog open nothing happens. */
  function SaveTask(b: Board): (r: Board)
    ensures b.editing.None? ==> r == b
    ensures b.editing.Some? ==> r.editing.None? && b.editing.value in r.tasks
    ensures b.editing.Some? ==>
      var e := b.editing.value;
      var k := FindById(b.tasks, e.id);
      if k == -1 then r.tasks == b.tasks + [e]
      else |r.tasks| == |b.tasks| && r.tasks[k] == e
           && forall j :: 0 <= j < |b.tasks| && j != k ==> r.tasks[j] == b.tasks[j]
  {
    match b.editing
    case None => b
    case Some(e) =>
      var k := FindById(b.tasks, e.id);
      Board(if k >= 0 then b.tasks[k := e] else b.tasks + [e], None)
  }

  /** `deleteTask`: every task with the edited copy's id goes, the others keep their
      order; the dialog closes. With no dialog open nothing happens. */
  function DeleteTask(b: Board): (r: Board)
    ensures b.editing.None? ==> r == b
    ensures b.editing.Some? ==> r.editing.None?
    ensures b.editing.Some? ==>
      forall x :: x in r.tasks <==> x in b.tasks && x.id != b.editing.value.id
    ensures b.editing.Some? ==> |r.tasks| == |b.tasks| - CountId(b.tasks, b.editing.value.id)
  {
    match b.editing
    case None => b
    case Some(e) =>
      WithoutIdCount(b.tasks, e.id);
      Board(WithoutId(b.tasks, e.id), None)
  }

  /** The filter keeps the list's order: filtering two runs one after the other gives the
      kept tasks of the first run followed by those of the second. */
  lemma {:induction false} WithoutIdKeepsOrder(a: seq<Task>, b: seq<Task>, id: int)
    ensures WithoutId(a + b, id) == WithoutId(a, id) + WithoutId(b, id)
  {
    if |a| == 0 {
      assert a + b == b;
    } else {
      assert (a + b)[0] == a[0];
      assert (a + b)[1..] == a[1..] + b;
      WithoutIdKeepsOrder(a[1..], b, id);
    }
  }

  /** A single task stays exactly when its id differs. */
  lemma WithoutIdOfOne(x: Task, id: int)
    ensures WithoutId([x], id) == if x.id == id then [] else [x]
  {
    assert [x][1..] == [];
  }

  /** `deleteTask` keeps the others in order: deleting from two runs of tasks one after the
      other deletes from each run and keeps the runs in place. */
  lemma DeleteTaskKeepsOrder(a: seq<Task>, b: seq<Task>, e: Task)
    ensures DeleteTask(Board(a + b, Some(e))).tasks
         == DeleteTask(Board(a, Some(e))).tasks + DeleteTask(Board(b, Some(e))).tasks
  {
    WithoutIdKeepsOrder(a, b, e.id);
  }

  /** Saving the same edit twice is the same as saving it once. */
  lemma SaveTaskIdempotent(tasks: seq<Task>, e: Task)
    ensures SaveTask(Board(SaveTask(Board(tasks, Some(e))).tasks, Some(e)))
         == SaveTask(Board(tasks, Some(e)))
  {
    var k := FindById(tasks, e.id);
    var once := SaveTask(Board(tasks, Some(e))).tasks;
    if k == -1 {
      assert once == tasks + [e];
      assert once[|tasks|] == e;
      assert FindById(once, e.id) == |tasks|;
      assert once[|tasks| := e] == once;
    } else {
      assert FindById(once, e.id) == k;
      assert once[k := e] == once;
    }
  }

  /** Deleting a task and saving it again moves it to the end of the list. */
  lemma DeleteThenSaveAppends(tasks: seq<Task>, e: Task)
    ensures SaveTask(Board(DeleteTask(Board(tasks, Some(e))).tasks, Some(e))).tasks
         == WithoutId(tasks, e.id) + [e]
  {
  }

  /** Deleting keeps exactly the tasks with another id: their number is the list length
      minus the number of tasks with the deleted id. */
  lemma {:induction false} WithoutIdCount(tasks: seq<Task>, id: int)
    ensures |WithoutId(tasks, id)| == |tasks| - CountId(tasks, id)
  {
    if |tasks| > 0 {
      WithoutIdCount(tasks[1..], id);
    }
  }

  function CountId(tasks: seq<Task>, id: int): nat {
    if |tasks| == 0 then 0 else (if tasks[0].id == id then 1 else 0) + CountId(tasks[1..], id)
  }
}

=== FILE: ticks.dfy ===
/** The tick array of the timeline: the 201 ticks `generateDates` builds around today,
    the 100 ticks `appendDates` and `prependDates` add at either end, the bucket lookup
    `findDateIndex` (which rewrites the ticks it scans), and the tick offset that
    `scrollToTime` computes. */
module Ticks {
  import D = JsDate
  import opened Wrappers
  import opened Precision
  import opened Axis

  /** How many ticks `generateDates` puts on each side of today, and how many ticks
      `appendDates` and `prependDates` add. */
  const Reach: int := 100

  /** The step count of tick `i` on an axis whose base instant sits at tick `c`. */
  function Offset(i: int, c: int): int {
    i - c
  }

  /** From tick `lo` on, every tick is a whole number of steps from `base`: tick `i`
      is `i - c` steps away. */
  predicate RegularFrom(s: seq<int>, lo: int, base: int, c: int, p: Precision) {
    forall i :: lo <= i < |s| && 0 <= i ==> s[i] == AddTime(base, Offset(i, c), p)
  }

  predicate Regular(s: seq<int>, base: int, c: int, p: Precision) {
    RegularFrom(s, 0, base, c, p)
  }

  predicate Increasing(s: seq<int>) {
    forall i, j :: 0 <= i < j < |s| ==> s[i] < s[j]
  }

  /** Steps compose on this level from this base. */
  predicate Composable(base: int, p: Precision) {
    FixedSpan(p) || D.Date(base) <= 28
  }

  // ---- generateDates ------------------------------------------------------------

  /** `generateDates`: ticks `-100 .. -1` steps from today, today itself, then ticks
      `1 .. 100` steps from today; tick `i` is `i - 100` steps from today. */
  method GenerateDates(today: int, p: Precision) returns (dates: seq<int>)
    ensures |dates| == 2 * Reach + 1 && dates[Reach] == today
    ensures Regular(dates, today, Reach, p)
    ensures Increasing(dates)
  {
    dates := [];
    for i := -Reach to 0
      invariant |dates| == i + Reach
      invariant Regular(dates, today, Reach, p)
    {
      PushRegular(dates, 0, today, Reach, i, p);
      dates := dates + [AddTime(today, i, p)];
    }
    AddTimeZero(today, p);
    PushRegular(dates, 0, today, Reach, 0, p);
    dates := dates + [today];
    for i := 1 to Reach + 1
      invariant |dates| == i + Reach
      invariant Regular(dates, today, Reach, p)
    {
      PushRegular(dates, 0, today, Reach, i, p);
      dates := dates + [AddTime(today, i, p)];
    }
    RegularIsIncreasing(dates, today, Reach, p);
  }

  /** Pushing the tick `k` steps from the base at the position whose step count is `k`
      keeps the axis regular. */
  lemma PushRegular(s: seq<int>, lo: int, base: int, c: int, k: int, p: Precision)
    requires RegularFrom(s, lo, base, c, p) && k == Offset(|s|, c)
    ensures RegularFrom(s + [AddTime(base, k, p)], lo, base, c, p)
  {
  }

  /** Ticks a whole number of steps apart are in increasing order. */
  lemma RegularIsIncreasing(s: seq<int>, base: int, c: int, p: Precision)
    requires Regular(s, base, c, p)
    ensures Increasing(s)
  {
    forall i, j | 0 <= i < j < |s|
      ensures s[i] < s[j]
    {
      AddTimeIncreasing(base, Offset(i, c), Offset(j, c), p);
    }
  }

  // ---- appendDates and prependDates --------------------------------------------

  /** `appendDates`: push the ticks 1 to 100 steps after the last tick. */
  method AppendDates(dates: seq<int>, p: Precision) returns (r: seq<int>)
    requires |dates| > 0
    ensures |r| == |dates| + Reach && r[..|dates|] == dates
    ensures RegularFrom(r, |dates|, dates[|dates| - 1], |dates| - 1, p)
    ensures Increasing(dates) ==> Increasing(r)
  {
    var last := dates[|dates| - 1];
    r := dates;
    for i := 1 to Reach + 1
      invariant |r| == |dates| + i - 1 && r[..|dates|] == dates
      invariant RegularFrom(r, |dates|, last, |dates| - 1, p)
    {
      PushRegular(r, |dates|, last, |dates| - 1, i, p);
      r := r + [AddTime(last, i, p)];
    }
    if Increasing(dates) {
      AppendedIncreasing(dates, r, p);
    }
  }

  lemma AppendedIncreasing(dates: seq<int>, r: seq<int>, p: Precision)
    requires |dates| > 0 && |r| >= |dates| && r[..|dates|] == dates
    requires RegularFrom(r, |dates|, dates[|dates| - 1], |dates| - 1, p)
    requires Increasing(dates)
    ensures Increasing(r)
  {
    var last := dates[|dates| - 1];
    AddTimeZero(last, p);
    assert Offset(|dates| - 1, |dates| - 1) == 0;
    forall i, j | 0 <= i < j < |r|
      ensures r[i] < r[j]
    {
      if |dates| <= i {
        AddTimeIncreasing(last, Offset(i, |dates| - 1), Offset(j, |dates| - 1), p);
      } else if |dates| <= j {
        AddTimeIncreasing(last, Offset(|dates| - 1, |dates| - 1), Offset(j, |dates| - 1), p);
        assert r[i] == dates[i] <= last;
      } else {
        assert r[i] == dates[i] && r[j] == dates[j];
      }
    }
  }

  /** Appending keeps an axis whose ticks are whole steps from one base, as long as
      steps compose from that base. */
  lemma AppendKeepsRegular(dates: seq<int>, r: seq<int>, base: int, c: int, p: Precision)
    requires |dates| > 0 && |r| >= |dates| && r[..|dates|] == dates
    requires RegularFrom(r, |dates|, dates[|dates| - 1], |dates| - 1, p)
    requires Regular(dates, base, c, p) && Composable(base, p)
    ensures Regular(r, base, c, p)
  {
    assert dates[|dates| - 1] == AddTime(base, Offset(|dates| - 1, c), p);
    forall i | |dates| <= i < |r|
      ensures r[i] == AddTime(base, Offset(i, c), p)
    {
      AddTimeCompose(base, Offset(|dates| - 1, c), Offset(i, |dates| - 1), Offset(i, c), p);
    }
    forall i | 0 <= i < |dates|
      ensures r[i] == AddTime(base, Offset(i, c), p)
    {
      assert r[i] == dates[i];
    }
  }

  /** `prependDates`: unshift the ticks 1 to 100 steps before the first tick, nearest
      first, so that they end up in ascending order. */
  method PrependDates(dates: seq<int>, p: Precision) returns (r: seq<int>)
    requires |dates| > 0
    ensures |r| == |dates| + Reach && r[Reach..] == dates
    ensures forall j :: 0 <= j < Reach ==> r[j] == AddTime(dates[0], Offset(j, Reach), p)
    ensures Increasing(dates) ==> Increasing(r)
  {
    var first := dates[0];
    r := dates;
    var i := -1;
    ghost var m := 0;
    while i >= -Reach
      invariant -Reach - 1 <= i <= -1 && m == -i - 1
      invariant |r| == |dates| + m && r[m..] == dates
      invariant Unshifted(r, first, m, p)
    {
      ghost var m1 := m + 1;
      UnshiftStep(r, first, m, m1, i, p);
      r := [AddTime(first, i, p)] + r;
      i := i - 1;
      m := m1;
    }
    if Increasing(dates) {
      PrependedIncreasing(dates, r, p);
    }
  }

  /** The first `m` ticks are the ticks `m .. 1` steps before `first`, in that order. */
  predicate Unshifted(r: seq<int>, first: int, m: int, p: Precision) {
    forall j :: 0 <= j < m && j < |r| ==> r[j] == AddTime(first, Offset(j, m), p)
  }

  /** Unshifting the tick `m + 1` steps before `first` keeps every earlier tick's step
      count in line with its new position. */
  lemma UnshiftStep(r: seq<int>, first: int, m: int, m1: int, k: int, p: Precision)
    requires Unshifted(r, first, m, p) && 0 <= m <= |r| && m1 == m + 1 && k == Offset(0, m1)
    ensures Unshifted([AddTime(first, k, p)] + r, first, m1, p)
  {
    var u := [AddTime(first, k, p)] + r;
    forall j | 0 <= j < m1 && j < |u|
      ensures u[j] == AddTime(first, Offset(j, m1), p)
    {
      if j == 0 {
        assert u[0] == AddTime(first, k, p);
      } else {
        assert u[j] == r[j - 1];
        assert r[j - 1] == AddTime(first, Offset(j - 1, m), p);
        assert Offset(j - 1, m) == Offset(j, m1);
      }
    }
  }

  lemma PrependedIncreasing(dates: seq<int>, r: seq<int>, p: Precision)
    requires |dates| > 0 && |r| == |dates| + Reach && r[Reach..] == dates
    requires forall j :: 0 <= j < Reach ==> r[j] == AddTime(dates[0], Offset(j, Reach), p)
    requires Increasing(dates)
    ensures Increasing(r)
  {
    var first := dates[0];
    SuffixIndex(r, dates, Reach);
    AddTimeZero(first, p);
    assert Offset(Reach, Reach) == 0;
    forall i, j | 0 <= i < j < |r|
      ensures r[i] < r[j]
    {
      if j < Reach {
        AddTimeIncreasing(first, Offset(i, Reach), Offset(j, Reach), p);
      } else if i < Reach {
        AddTimeIncreasing(first, Offset(i, Reach), Offset(Reach, Reach), p);
        assert dates[0] <= dates[j - Reach];
      } else {
        assert dates[i - Reach] < dates[j - Reach];
      }
    }
  }

  lemma SuffixIndex(r: seq<int>, dates: seq<int>, k: int)
    requires 0 <= k <= |r| && r[k..] == dates
    ensures forall i :: k <= i < |r| ==> r[i] == dates[i - k]
  {
  }

  /** Prepending keeps an axis whose ticks are whole steps from one base; the base
      moves 100 places to the right. */
  lemma PrependKeepsRegular(dates: seq<int>, r: seq<int>, base: int, c: int, p: Precision)
    requires |dates| > 0 && |r| == |dates| + Reach && r[Reach..] == dates
    requires forall j :: 0 <= j < Reach ==> r[j] == AddTime(dates[0], Offset(j, Reach), p)
    requires Regular(dates, base, c, p) && Composable(base, p)
    ensures Regular(r, base, c + Reach, p)
  {
    PrependedHead(dates, r, base, c, p);
    PrependedTail(dates, r, base, c, p);
  }

  /** The new ticks are steps from the old base, counted from its new place. */
  lemma PrependedHead(dates: seq<int>, r: seq<int>, base: int, c: int, p: Precision)
    requires |dates| > 0 && |r| >= Reach
    requires forall j :: 0 <= j < Reach ==> r[j] == AddTime(dates[0], Offset(j, Reach), p)
    requires dates[0] == AddTime(base, Offset(0, c), p) && Composable(base, p)
    ensures forall i :: 0 <= i < Reach ==> r[i] == AddTime(base, Offset(i, c + Reach), p)
  {
    forall i | 0 <= i < Reach
      ensures r[i] == AddTime(base, Offset(i, c + Reach), p)
    {
      AddTimeCompose(base, Offset(0, c), Offset(i, Reach), Offset(i, c + Reach), p);
    }
  }

  /** The old ticks keep their step counts, shifted by the ticks put in front. */
  lemma PrependedTail(dates: seq<int>, r: seq<int>, base: int, c: int, p: Precision)
    requires |r| == |dates| + Reach && r[Reach..] == dates
    requires Regular(dates, base, c, p)
    ensures forall i :: Reach <= i < |r| ==> r[i] == AddTime(base, Offset(i, c + Reach), p)
  {
    SuffixIndex(r, dates, Reach);
    forall i | Reach <= i < |r|
      ensures r[i] == AddTime(base, Offset(i, c + Reach), p)
    {
      assert Offset(i - Reach, c) == Offset(i, c + Reach);
    }
  }

  // ---- findDateIndex --------------------------------------------------------------

  /** The value a scanned tick is left with: quantized on every level but the week
      level, where the lookup works on copies. */
  function WrittenBack(d: int, p: Precision): (r: int)
    ensures BucketStart(r, p) == BucketStart(d, p)
  {
    if p == Weeks then d else QuantizeKeepsBucket(d, p); Quantize(d, p)
  }

  lemma QuantizeKeepsBucket(d: int, p: Precision)
    ensures BucketStart(Quantize(d, p), p) == BucketStart(d, p)
  {
    QuantizeIsBucketStart(d, p);
    BucketStartIdempotent(d, p);
  }

  /** The first tick in the bucket of `t`, or -1: the reference the lookup is held to. */
  function FirstInBucket(s: seq<int>, t: int, p: Precision): (r: int)
    ensures -1 <= r < |s|
    ensures r >= 0 ==> BucketStart(s[r], p) == BucketStart(t, p)
    ensures forall j :: 0 <= j < |s| && (r == -1 || j < r) ==> BucketStart(s[j], p) != BucketStart(t, p)
  {
    if |s| == 0 then -1
    else if BucketStart(s[0], p) == BucketStart(t, p) then 0
    else
      var r := FirstInBucket(s[1..], t, p);
      if r == -1 then -1 else r + 1
  }

  /** The lookup only sees the bucket of each tick. */
  lemma SameBucketsSameLookup(a: seq<int>, b: seq<int>, t: int, p: Precision)
    requires |a| == |b|
    requires forall j :: 0 <= j < |a| ==> BucketStart(a[j], p) == BucketStart(b[j], p)
    ensures FirstInBucket(a, t, p) == FirstInBucket(b, t, p)
  {
  }

  /** The first `n` ticks are written back and the rest are untouched. */
  predicate WrittenUpTo(dates: seq<int>, scanned: seq<int>, p: Precision, n: int) {
    && 0 <= n <= |dates| && |scanned| == |dates|
    && forall j :: 0 <= j < |dates| ==> scanned[j] == if j < n then WrittenBack(dates[j], p) else dates[j]
  }

  /** None of the first `n` ticks lies in the bucket of `t`. */
  predicate MissedUpTo(dates: seq<int>, t: int, p: Precision, n: int) {
    forall j :: 0 <= j < n && j < |dates| ==> BucketStart(dates[j], p) != BucketStart(t, p)
  }

  /** How many ticks a scan that returned `index` visited. */
  function ScanLength(index: int, n: int): int {
    if index == -1 then n else index + 1
  }

  /** `findDateIndex`: the index of the first tick whose quantized value equals the
      quantized target, or -1. Every tick the scan visits, the match included, is
      overwritten with its quantized value except on the week level; `scanned` is the
      tick array afterwards. */
  method FindDateIndex(dates: seq<int>, t: int, p: Precision) returns (index: int, scanned: seq<int>)
    ensures index == FirstInBucket(dates, t, p)
    ensures WrittenUpTo(dates, scanned, p, ScanLength(index, |dates|))
    ensures FirstInBucket(scanned, t, p) == index
  {
    scanned := dates;
    var target := Quantize(t, p);
    var i := 0;
    while i < |dates|
      invariant WrittenUpTo(dates, scanned, p, i) && MissedUpTo(dates, t, p, i)
      decreases |dates| - i
    {
      var d := dates[i];
      SameQuantizeSameBucket(d, t, p);
      var i1 := i + 1;
      WriteStep(dates, scanned, p, i, i1);
      scanned := scanned[i := WrittenBack(d, p)];
      if Quantize(d, p) == target {
        index := i;
        assert ScanLength(index, |dates|) == i1;
        FirstMatch(dates, t, p, i);
        WrittenBackSameLookup(dates, scanned, t, p, i1);
        return;
      }
      MissStep(dates, t, p, i, i1);
      i := i1;
    }
    index := -1;
    NoMatch(dates, t, p);
    WrittenBackSameLookup(dates, scanned, t, p, i);
  }

  lemma SameQuantizeSameBucket(d: int, t: int, p: Precision)
    ensures Quantize(d, p) == Quantize(t, p) <==> BucketStart(d, p) == BucketStart(t, p)
  {
    QuantizeIsBucketStart(d, p);
    QuantizeIsBucketStart(t, p);
  }

  lemma WriteStep(dates: seq<int>, scanned: seq<int>, p: Precision, i: int, i1: int)
    requires WrittenUpTo(dates, scanned, p, i) && i < |dates| && i1 == i + 1
    ensures WrittenUpTo(dates, scanned[i := WrittenBack(dates[i], p)], p, i1)
  {
  }

  lemma MissStep(dates: seq<int>, t: int, p: Precision, i: int, i1: int)
    requires MissedUpTo(dates, t, p, i) && 0 <= i < |dates| && i1 == i + 1
    requires BucketStart(dates[i], p) != BucketStart(t, p)
    ensures MissedUpTo(dates, t, p, i1)
  {
  }

  /** Writing ticks back never moves them to another bucket, so the lookup result stays. */
  lemma WrittenBackSameLookup(dates: seq<int>, scanned: seq<int>, t: int, p: Precision, n: int)
    requires WrittenUpTo(dates, scanned, p, n)
    ensures FirstInBucket(scanned, t, p) == FirstInBucket(dates, t, p)
  {
    forall j | 0 <= j < |dates|
      ensures BucketStart(scanned[j], p) == BucketStart(dates[j], p)
    {
    }
    SameBucketsSameLookup(dates, scanned, t, p);
  }

  lemma FirstMatch(s: seq<int>, t: int, p: Precision, i: int)
    requires 0 <= i < |s| && BucketStart(s[i], p) == BucketStart(t, p)
    requires MissedUpTo(s, t, p, i)
    ensures FirstInBucket(s, t, p) == i
  {
  }

  lemma NoMatch(s: seq<int>, t: int, p: Precision)
    requires MissedUpTo(s, t, p, |s|)
    ensures FirstInBucket(s, t, p) == -1
  {
  }

  // ---- scrollToTime -------------------------------------------------------------

  /** The tick offset of `t` from the first tick `start`: whole years, whole months,
      or the floor of the elapsed time over the level's span. */
  function ScrollDiff(t: int, start: int, p: Precision): int {
    match p
    case Years => D.Year(t) - D.Year(start)
    case Months => (D.Year(t) - D.Year(start)) * 12 + (D.Month(t) - D.Month(start))
    case Weeks => (t - start) / (1000 * 60 * 60 * 24 * 7)
    case Days => (t - start) / (1000 * 60 * 60 * 24)
    case Hours => (t - start) / (1000 * 60 * 60)
    case Minutes => (t - start) / (1000 * 60)
  }

  /** The cell `scrollToTime` scrolls to, if the offset lands on the axis. */
  function ScrollTarget(dates: seq<int>, t: int, p: Precision): (r: Option<int>)
    ensures r.Some? ==> 0 <= r.value < |dates| && r.value == ScrollDiff(t, dates[0], p)
    ensures |dates| > 0 && 0 <= ScrollDiff(t, dates[0], p) < |dates| ==> r.Some?
  {
    if |dates| == 0 then None
    else
      var diff := ScrollDiff(t, dates[0], p);
      if 0 <= diff < |dates| then Some(diff) else None
  }

  /** On an axis of whole steps from one base, the offset between two ticks is the
      difference of their step counts: always on the year level and the fixed levels,
      and on the month level when the date exists in every month. */
  lemma ScrollDiffOfSteps(base: int, a: int, b: int, p: Precision)
    requires p == Years || Composable(base, p)
    ensures ScrollDiff(AddTime(base, b, p), AddTime(base, a, p), p) == b - a
  {
    match p
    case Years => YearsDiff(base, a, b);
    case Months => MonthsDiff(base, a, b);
    case Weeks => WeeksDiff(base, a, b);
    case Days => DaysDiff(base, a, b);
    case Hours => HoursDiff(base, a, b);
    case Minutes => MinutesDiff(base, a, b);
  }

  lemma YearsDiff(base: int, a: int, b: int)
    ensures ScrollDiff(AddTime(base, b, Years), AddTime(base, a, Years), Years) == b - a
  {
    AddYearsFields(base, a);
    AddYearsFields(base, b);
  }

  lemma MonthsDiff(base: int, a: int, b: int)
    requires D.Date(base) <= 28
    ensures ScrollDiff(AddTime(base, b, Months), AddTime(base, a, Months), Months) == b - a
  {
    MonthIndexAfter(base, a);
    MonthIndexAfter(base, b);
  }

  lemma WeeksDiff(base: int, a: int, b: int)
    ensures ScrollDiff(AddTime(base, b, Weeks), AddTime(base, a, Weeks), Weeks) == b - a
  {
    WeeksInMs(base, a);
    WeeksInMs(base, b);
  }

  lemma WeeksInMs(t: int, k: int)
    ensures AddTime(t, k, Weeks) == t + k * 604800000
  {
    AddWeeks(t, k);
    assert Span(Weeks) == 604800000;
  }

  lemma DaysDiff(base: int, a: int, b: int)
    ensures ScrollDiff(AddTime(base, b, Days), AddTime(base, a, Days), Days) == b - a
  {
    DaysInMs(base, a);
    DaysInMs(base, b);
  }

  lemma DaysInMs(t: int, k: int)
    ensures AddTime(t, k, Days) == t + k * 86400000
  {
    AddDays(t, k);
    assert Span(Days) == 86400000;
  }

  lemma HoursDiff(base: int, a: int, b: int)
    ensures ScrollDiff(AddTime(base, b, Hours), AddTime(base, a, Hours), Hours) == b - a
  {
    HoursInMs(base, a);
    HoursInMs(base, b);
  }

  lemma HoursInMs(t: int, k: int)
    ensures AddTime(t, k, Hours) == t + k * 3600000
  {
    AddHours(t, k);
    assert Span(Hours) == 3600000;
  }

  lemma MinutesDiff(base: int, a: int, b: int)
    ensures ScrollDiff(AddTime(base, b, Minutes), AddTime(base, a, Minutes), Minutes) == b - a
  {
    MinutesInMs(base, a);
    MinutesInMs(base, b);
  }

  lemma MinutesInMs(t: int, k: int)
    ensures AddTime(t, k, Minutes) == t + k * 60000
  {
    AddMinutes(t, k);
    assert Span(Minutes) == 60000;
  }

  /** Month steps move the month index by exactly the step count. */
  lemma MonthIndexAfter(t: int, k: int)
    requires D.Date(t) <= 28
    ensures MonthIndex(AddTime(t, k, Months)) == MonthIndex(t) + k
  {
    AddMonthsFields(t, k);
    CarrySplit(D.Year(t), D.Month(t) + k);
  }

  lemma CarrySplit(y: int, m: int)
    ensures 12 * D.CarryYear(y, m) + D.CarryMonth(m) == 12 * y + m
  {
  }

  /** On a freshly generated axis, `scrollToTime` to the instant of tick `k` scrolls to
      cell `k`. */
  lemma ScrollToGeneratedTick(dates: seq<int>, today: int, p: Precision, k: int)
    requires |dates| == 2 * Reach + 1 && Regular(dates, today, Reach, p)
    requires p == Years || Composable(today, p)
    requires 0 <= k < |dates|
    ensures ScrollTarget(dates, dates[k], p) == Some(k)
  {
    assert dates[0] == AddTime(today, Offset(0, Reach), p);
    ScrollDiffOfSteps(today, Offset(0, Reach), Offset(k, Reach), p);
  }

  // ---- scrolling back to the facing time ----------------------------------------------

  /** The unit the facing time is rounded down to on the fixed levels: a day on the week
      and day levels, an hour, a minute. */
  function FacingUnit(p: Precision): (r: int)
    requires FixedSpan(p)
    ensures 0 < r <= Span(p) && Span(p) % r == 0
  {
    match p
    case Weeks => D.MsPerDay
    case Days => D.MsPerDay
    case Hours => D.MsPerHour
    case Minutes => D.MsPerMinute
  }

  lemma FacingIsWholeUnits(t: int, p: Precision)
    requires FixedSpan(p)
    ensures FacingQuantize(t, p) == (t / FacingUnit(p)) * FacingUnit(p)
  {
    FacingStaysInBucket(t, p);
  }

  /** Moving an instant by whole spans moves its facing time by the same amount. */
  lemma FacingShift(t: int, n: int, p: Precision)
    requires FixedSpan(p)
    ensures FacingQuantize(t + n * Span(p), p) == FacingQuantize(t, p) + n * Span(p)
  {
    FacingIsWholeUnits(t, p);
    FacingOfShift(t + n * Span(p), t, n, p);
  }

  lemma FacingOfShift(x: int, t: int, n: int, p: Precision)
    requires FixedSpan(p) && x == t + n * Span(p)
    ensures FacingQuantize(x, p) == (t / FacingUnit(p)) * FacingUnit(p) + n * Span(p)
  {
    FacingIsWholeUnits(x, p);
    WholeUnitsShift(t, n, FacingUnit(p), Span(p));
  }

  /** Rounding down to whole units commutes with a shift by a multiple of the unit. */
  lemma WholeUnitsShift(t: int, n: int, u: int, s: int)
    requires 0 < u && s % u == 0
    ensures ((t + n * s) / u) * u == (t / u) * u + n * s
  {
    var m := s / u;
    assert s == m * u;
    assert t + n * s == (t / u + n * m) * u + t % u;
    D.DivAdd(t / u + n * m, t % u, u);
  }

  lemma ScrollDiffFixed(t: int, start: int, p: Precision)
    requires FixedSpan(p)
    ensures ScrollDiff(t, start, p) == (t - start) / Span(p)
  {
  }

  /** On a generated axis of a fixed level, tick `i` lies `i - c` whole spans from
      today, and so does its facing time from today's. */
  lemma AxisTick(dates: seq<int>, today: int, c: int, p: Precision, i: int)
    requires Regular(dates, today, c, p) && FixedSpan(p) && 0 <= i < |dates|
    ensures dates[i] == today + (i - c) * Span(p)
  {
    AddTimeFixedSpan(today, Offset(i, c), p);
  }

  lemma AxisFacing(dates: seq<int>, today: int, c: int, p: Precision, i: int)
    requires Regular(dates, today, c, p) && FixedSpan(p) && 0 <= i < |dates|
    ensures FacingQuantize(dates[i], p)
         == (today / FacingUnit(p)) * FacingUnit(p) + (i - c) * Span(p)
  {
    AxisTick(dates, today, c, p, i);
    FacingOfShift(dates[i], today, i - c, p);
  }

  /** An instant that is not a whole unit lies less than one span after its whole units. */
  lemma WholeUnitsWithinSpan(t: int, p: Precision)
    requires FixedSpan(p) && t % FacingUnit(p) != 0
    ensures t - Span(p) < (t / FacingUnit(p)) * FacingUnit(p) < t
  {
    var u := FacingUnit(p);
    assert t == (t / u) * u + t % u;
  }

  /** As written: `appendDates` and `prependDates` scroll back to the facing time, which is
      rounded down while the start tick keeps today's time of day. On the fixed levels,
      whenever today is not already a whole unit, the facing time of tick `k` scrolls to
      cell `k - 1`, and that of the first tick to no cell at all. */
  lemma FacingScrollsOneCellLeft(dates: seq<int>, today: int, c: int, p: Precision, k: int)
    requires Regular(dates, today, c, p)
    requires FixedSpan(p) && today % FacingUnit(p) != 0
    requires 0 <= k < |dates|
    ensures ScrollTarget(dates, FacingQuantize(dates[k], p), p) == if k == 0 then None else Some(k - 1)
  {
    FacingOffsetFromTick(dates, today, c, p, k);
  }

  lemma FacingOffsetFromTick(dates: seq<int>, today: int, c: int, p: Precision, k: int)
    requires Regular(dates, today, c, p) && FixedSpan(p) && today % FacingUnit(p) != 0
    requires 0 <= k < |dates|
    ensures ScrollDiff(FacingQuantize(dates[k], p), dates[0], p) == k - 1
  {
    AxisTick(dates, today, c, p, 0);
    AxisFacing(dates, today, c, p, k);
    OneStepShortOfToday(FacingQuantize(dates[k], p), dates[0], today, c, p, k);
  }

  lemma OneStepShortOfToday(x: int, y: int, today: int, c: int, p: Precision, k: int)
    requires FixedSpan(p) && today % FacingUnit(p) != 0
    requires x == (today / FacingUnit(p)) * FacingUnit(p) + (k - c) * Span(p)
    requires y == today + (0 - c) * Span(p)
    ensures ScrollDiff(x, y, p) == k - 1
  {
    ScrollDiffFixed(x, y, p);
    WholeUnitsWithinSpan(today, p);
    OneStepShort(x, y, (today / FacingUnit(p)) * FacingUnit(p), today, Span(p), k - c, 0 - c);
  }

  /** Two instants a whole number of steps from bases less than one step apart are one
      step fewer apart than the step counts say. */
  lemma OneStepShort(x: int, y: int, f: int, t: int, s: int, a: int, b: int)
    requires s > 0 && t - s < f < t
    requires x == f + a * s && y == t + b * s
    ensures (x - y) / s == a - b - 1
  {
    assert x - y == (a - b - 1) * s + (f - t + s);
    D.DivAdd(a - b - 1, f - t + s, s);
  }

  lemma WholeSteps(x: int, y: int, f: int, s: int, a: int, b: int)
    requires s > 0 && x == f + a * s && y == f + b * s
    ensures (x - y) / s == a - b
  {
    assert x - y == (a - b) * s + 0;
    D.DivAdd(a - b, 0, s);
  }

  /** `scrollToTime` with the offset measured from the start tick rounded the way the
      facing time is; the year and month levels compare fields and are left as they are. */
  function AlignedScrollTarget(dates: seq<int>, t: int, p: Precision): (r: Option<int>)
    ensures r.Some? ==> 0 <= r.value < |dates|
    ensures !FixedSpan(p) ==> r == ScrollTarget(dates, t, p)
    ensures FixedSpan(p) && r.Some? ==> r.value == ScrollDiff(t, FacingQuantize(dates[0], p), p)
    ensures FixedSpan(p) && |dates| > 0 ==>
      (0 <= ScrollDiff(t, FacingQuantize(dates[0], p), p) < |dates| ==> r.Some?)
  {
    if |dates| == 0 then None
    else
      var start := if FixedSpan(p) then FacingQuantize(dates[0], p) else dates[0];
      var diff := ScrollDiff(t, start, p);
      if 0 <= diff < |dates| then Some(diff) else None
  }

  /** Corrected: measured from the rounded start tick, the facing time of every tick of an
      axis of whole steps from today scrolls back to that tick. */
  lemma FacingScrollsToItsCell(dates: seq<int>, today: int, c: int, p: Precision, k: int)
    requires Regular(dates, today, c, p)
    requires FixedSpan(p) && 0 <= k < |dates|
    ensures AlignedScrollTarget(dates, FacingQuantize(dates[k], p), p) == Some(k)
  {
    FacingOffsetFromFacing(dates, today, c, p, k);
  }

  lemma FacingOffsetFromFacing(dates: seq<int>, today: int, c: int, p: Precision, k: int)
    requires Regular(dates, today, c, p) && FixedSpan(p) && 0 <= k < |dates|
    ensures ScrollDiff(FacingQuantize(dates[k], p), FacingQuantize(dates[0], p), p) == k
  {
    AxisFacing(dates, today, c, p, k);
    AxisFacing(dates, today, c, p, 0);
    WholeStepsOfToday(FacingQuantize(dates[k], p), FacingQuantize(dates[0], p), today, c, p, k);
  }

  lemma WholeStepsOfToday(x: int, y: int, today: int, c: int, p: Precision, k: int)
    requires FixedSpan(p)
    requires x == (today / FacingUnit(p)) * FacingUnit(p) + (k - c) * Span(p)
    requires y == (today / FacingUnit(p)) * FacingUnit(p) + (0 - c) * Span(p)
    ensures ScrollDiff(x, y, p) == k
  {
    ScrollDiffFixed(x, y, p);
    WholeSteps(x, y, (today / FacingUnit(p)) * FacingUnit(p), Span(p), k - c, 0 - c);
  }
}

=== FILE: wrappers.dfy ===
/** Option and Result, the failure-carrying datatypes shared by every module. */
module Wrappers {

  /** A value that may be absent: JS `undefined`/`null`, a `find` that found nothing. */
  datatype Option<+T> = None | Some(value: T)

  /** The outcome of an operation that can fail with an error message, as Rust's `Result`. */
  datatype Result<+T, +E> = Ok(value: T) | Err(error: E)
}
